=== FILE: README.md ===
# A model of the configuration engine and the Unicode helpers

This project models two C components in Dafny and proves properties of the model.

**The configuration engine** (`common/config/src/config.c`) reads an INI-style file into a document. It does so byte by byte with the state machine `CF_ProcessLine`. The document consists of:

- sections with their key-value pairs;
- top-level comments;
- an index recording, in file order, every item and the line it was completed on.

Each rejected byte gives a log entry. `CF_Write` writes the document back by walking the index. `CF_SearchKey` and the typed getters and setters look values up and change them.

**The Unicode helpers** (`encoding/src/encoding.c`) are:

- byte swaps;
- UTF-16 encoding and decoding of UCS-4 characters (section 2 of RFC 2781);
- byte-order-mark detection;
- the UTF-8 length classes of section 2 of RFC 2279.

The modules, in dependency order:

| module | file | what it holds |
|---|---|---|
| `Bytes` | bytes.dfy | the byte type, signed `char`, `strcpy` (`CStr`) and `strncpy` (`StrNCpy`) |
| `Classifier` | classifier.dfy | the two character tables and their binary searches (`CF_Find*Char`, `CF_Is*Char`) |
| `Slicing` | slicing.dfy | `CF_Copy` and `CF_Cat` into the fixed-size accumulators, with undefined behaviour as a `Hazard` |
| `Document` | document.dfy | sections, pairs, comments and the index; the three append operations (`CF_Add*`) |
| `Scanner` | scanner.dfy | `CF_ProcessLine` as a pure `Step` folded over a buffer, plus the newest-first log (`CF_WriteLog`) |
| `Lines` | lines.dfy | an independent grammar of well-formed lines and the document (`Build`) such lines describe |
| `Reading` | reading.dfy | proof that the scanner reads a well-formed file into exactly `Build` of its lines |
| `Writer` | writer.dfy | the text `CF_Write` produces, as written and corrected |
| `RoundTrip` | roundtrip.dfy | read-then-write and write-then-read-then-write results |
| `Accessors` | accessors.dfy | `CF_CompareString`, `CF_SearchKey`, `CF_SetValue`, and `CF_Get*`/`CF_Set*` for Bool, Int and String |
| `Encoding` | encoding.dfy | the `ENCSTREAM` stream and the core of encoding.c |

Where the documentation and the code disagree, the model follows the code, except for the defects listed under "## Findings", where it models the corrected behaviour (the scanner classifies bytes with the corrected searches; see `Scanner.OnOther` under "## Left out"):

- `CF_SearchKey` goes on to later sections with the same name when the first one lacks the key.
- A `#` comment at the very start of a line, with no blank before it, is stored as an empty comment. The comment's start `pcb` is only set by a blank.
- A second `=` on a line is reported as "`=` without a key". It is not taken as a value byte.
- A key ended by a blank, then `=` and a line feed, stores the key, the blank and `=` as the value: `k =` gives the pair `k` = `k =`. The blank marks only the key's end, so `=` skips the reset of the value's start, which the comment at common/config/src/config.c:816-817 takes to be done already (`Scanner.BlankEndedKeyEmptyValue`). A value byte after `=` does reset it, so `k = v` stores `v`.
- A second `#` in a comment empties the comment: `k=v #see #3` stores the pair and an empty comment. Every `#` clears the comment start `pcb`, and a blank inside a comment does not set it again, so the second `#` restarts the comment at -1, and copying from -1 gives nothing (`Reading.SecondHashEmptiesComment`).

Integers are mathematical. Bytes are `0..255`. A C `char` is compared as a signed byte, via `SignedChar`. UTF-16 words and UCS-4 characters are the unsigned values of their C types. The encoding library copies words with `memcpy`, so their byte layout depends on the machine's byte order. That byte order is the parameter `bigEndian`.

## Model

| member | source | states |
|---|---|---|
| Bytes.SignedChar | common/config/src/config.c:586-602 | a byte read as C `char` lies in -128..127, agrees with the byte modulo 256, and equals it exactly for ASCII |
| Bytes.CStr | common/config/src/config.c:291-292 | what `strcpy` copies: the longest NUL-free prefix, which stops at a NUL whenever one follows |
| Bytes.StrNCpy | common/config/src/config.c:472 | `strncpy` of a whole run: same length, the C string first, then NUL padding |
| Bytes.CStrOfStrNCpy | common/config/src/config.c:472 | storing an `strncpy` result with `strcpy` gives the run's own C string |
| Classifier.Search | common/config/src/config.c:586-602 | a found byte is in the searched range; on a strictly sorted table, found exactly when in the range |
| Classifier.SearchAsWritten | common/config/src/config.c:586-602 | the search with `unsigned char` indices: a find is genuine, and leaving the table always means probing index 127 after a byte below the first entry |
| Classifier.AsWrittenAgreesInBounds | common/config/src/config.c:586-602 | on a strictly sorted table, the as-written search finds a byte exactly when the corrected search does |
| Classifier.AsWrittenWrapsExactlyBelowFirst | common/config/src/config.c:598 | from the whole table, the as-written search leaves the table exactly for bytes below the first entry |
| Classifier.CommonTableEntries | common/config/src/config.c:62-65 | the common table is the 10 digits, 26 upper-case letters, `_` and 26 lower-case letters, in this order |
| Classifier.CommonTableSorted | common/config/src/config.c:58-65 | the 63-entry common table is strictly sorted, as its comment promises |
| Classifier.CommonTableMembers | common/config/src/config.c:62-65 | a byte is in the common table exactly when it is an ASCII digit, letter or `_` |
| Classifier.ValueTableEntries | common/config/src/config.c:67-69 | the sorted value table is the acute accent followed by 30 ASCII punctuation bytes in increasing order |
| Classifier.ValueTableSorted | common/config/src/config.c:67-69 | the value table, reordered, is strictly sorted |
| Classifier.ValueTableMembers | common/config/src/config.c:67-69 | a byte is in the value table exactly when it is the acute accent 0xB4 or one of the listed punctuation bytes |
| Classifier.IsCommonChar | common/config/src/config.c:634-643 | a section or key byte is accepted exactly when it is a digit, letter or `_` |
| Classifier.IsValueExtraChar | common/config/src/config.c:612-628 | the corrected search over the reordered value table accepts exactly 0xB4 and the listed punctuation; the table as listed misses `)` (Findings) |
| Classifier.IsValueChar | common/config/src/config.c:648-650 | a value byte is accepted exactly when it is a common byte or in the value table |
| Classifier.CommonSearchWrapsBelowZero | common/config/src/config.c:586-602 | the as-written common search leaves the table, reading index 127, for every byte below `0` |
| Classifier.CommonSearchWrapsOnDot | common/config/src/config.c:586-602 | the byte `.` drives the as-written common search to index 127 |
| Classifier.ListedValueTableMissesParen | common/config/src/config.c:67-69 | in the table as listed (32 slots, 31 entries) `)` is present at index 8, yet neither search finds it |
| Slicing.Capacity | common/config/src/config.c:9-12 | section and key accumulators hold 63 bytes, value and comment accumulators 1023 |
| Slicing.ReadRunFacts | common/config/src/config.c:453 | `strncpy` reads past the given bytes exactly when the run ends beyond them and no NUL stops it; otherwise it yields the run's C string |
| Slicing.CopyFacts | common/config/src/config.c:461-478 | `CF_Copy` yields `src[b..e]` for `b >= 0`, `e > 0`, `e >= b` and the empty text otherwise; overflow and reads past the buffer are reported, not assumed away |
| Slicing.CatFacts | common/config/src/config.c:448-459 | `CF_Cat` appends `src[b..e]` only when `b >= 0`, `e > 0` and `e > b`, and otherwise leaves the accumulator unchanged |
| Slicing.CopyCatDifferOnlyOnOneByte | common/config/src/config.c:448-478 | `CF_Copy` and `CF_Cat` onto an empty accumulator agree except on a one-byte run, which `CF_Cat` drops |
| Document.AddSectionKeepsIndex | common/config/src/config.c:506-545 | adding a section appends it and one index entry of kind section on the current line; earlier items are untouched and the index stays sound |
| Document.AddPairKeepsIndex | common/config/src/config.c:527-576 | adding a pair appends it to the last section and one index entry of kind key; the index stays sound |
| Document.AddCommentKeepsIndex | common/config/src/config.c:480-545 | adding a comment appends it and one index entry of kind comment; the index stays sound |
| Document.DocStepExtends | common/config/src/config.c:480-576 | any append keeps every earlier section, pair, comment and index entry, and adds at most one index entry |
| Document.DocStepKeepsIndexSound | common/config/src/config.c:527-545 | index entries keep pointing at existing items with non-decreasing lines no later than the current one |
| Scanner.OnOpen | common/config/src/config.c:692-699 | `[` never fails and changes neither the document nor the log |
| Scanner.OnClose | common/config/src/config.c:700-732 | `]` outside a comment with no open section fails with one error entry; with a section open it is undefined exactly when filling the name is, and otherwise adds exactly the section named by the C string of the filled name, with an empty-section warning exactly when the name ends before it begins |
| Scanner.SectionNameBetweenBrackets | common/config/src/config.c:700-732 | a name read within one buffer is every byte between the brackets; `[]` still adds a section, with an empty name, and logs a warning |
| Scanner.ClosePair | common/config/src/config.c:739-749 | completing a value never fails; it carries on exactly when the value fills and a section exists, adding exactly the pair of the key's and the filled value's C strings on the current line and resetting the key and value state; otherwise it is undefined, with the filling hazard or, when no section exists, `NoCurrentSection` |
| Scanner.OnHash | common/config/src/config.c:733-765 | `#` in a section or key name fails with the no-comment error; with a value in progress the pair is closed with the value ending at `lvc`, its last non-blank byte, then the comment starts at `pcb` and `pcb`, `lvc` are cleared; with no value it only starts the comment at `pcb`; the only item it may add is that pair |
| Scanner.OnBlank | common/config/src/config.c:766-800 | a blank fails exactly inside a section name outside comments, and never changes the document or the log |
| Scanner.BlankComplaint | common/config/src/config.c:768-772 | a blank is refused exactly inside a section name, outside comments |
| Scanner.OnEquals | common/config/src/config.c:801-838 | `=` outside a comment fails in a section name or when no key is being built, and never changes the document or the log |
| Scanner.OnNewline | common/config/src/config.c:839-896 | a line feed outside a comment fails inside a section or key name; in a comment it adds exactly the comment of the filled text's C string, or is undefined exactly when filling is; after `=` it completes the pair with the value ending on the byte before it, or at the marked end when no value byte is open; otherwise it changes nothing |
| Reading.ValueEndsAtLastNonBlank | common/config/src/config.c:733-796 | a value read within one buffer and followed by blanks and `#` is every byte from its first to the last one before the blanks, inner blanks included; the pair is added with the log unchanged, and the comment begins at the first blank seen since the last comment |
| Scanner.ValueRunsToLineEnd | common/config/src/config.c:862-876 | a value read within one buffer and ended by a line feed is every byte from its first to the one before the line feed, trailing and inner blanks included |
| Scanner.BlankEndedKeyEmptyValue | common/config/src/config.c:767-884 | a key ended by a blank, then `=` and a line feed, adds the pair whose key is the key's bytes and whose value runs from the key's first byte to `=`, with the log unchanged |
| Reading.SecondHashEmptiesComment | common/config/src/config.c:733-853 | inside a comment, with `pcb` cleared by the `#` that opened it, a second `#` and the rest of the line up to the line feed add an empty comment, with the log unchanged |
| Scanner.StaleCommentStart | common/config/src/config.c:733-896 | after a value ended by a blank and a line feed, the pair keeps the blank, and a `#` at the start of the next line starts its comment at that blank, on the previous line |
| Scanner.OnOther | common/config/src/config.c:897-942 | outside a comment and a partial section, any other byte fails exactly when the section, value or key classifier refuses it; it never changes the document or the log |
| Scanner.Dispatch | common/config/src/config.c:691-943 | the switch on the byte: every branch meets the per-byte contract `Handled` |
| Scanner.Step | common/config/src/config.c:690-945 | one loop turn fails exactly on a byte of the error table and prepends one error entry; otherwise it adds at most the item the byte completes, moves the line or column on, and keeps the flags coherent |
| Scanner.RunFailsIffComplaint | common/config/src/config.c:690-945 | a run over a buffer stretch fails exactly when some byte in it is refused in the state the earlier bytes leave |
| Scanner.RunAppendsOnly | common/config/src/config.c:690-945 | a run only appends to the document, adds only warnings to the log, and advances the line by the number of line feeds |
| Scanner.RunColumn | common/config/src/config.c:888-945 | after a run the column is the distance from the last line feed, or the old column plus the bytes read when there is none |
| Scanner.LastNewline | common/config/src/config.c:888-891 | the position of the last line feed in a stretch, or -1 when there is none |
| Scanner.ProcessLine | common/config/src/config.c:684-958 | one call extends the document and keeps the index sound, adds only warnings, counts lines, sets partial flags only for open tokens, and fails exactly when a byte is refused |
| Scanner.ReadFrom | common/config/src/config.c:970-1004 | reading buffer after buffer only extends the document and keeps the index sound and the flags coherent |
| Scanner.ReadConfig | common/config/src/config.c:970-1004 | a successful read from the initial state leaves a sound index, only warnings in the log, and the line one past the number of line feeds |
| Reading.LineFold | common/config/src/config.c:684-958 | scanning a well-formed line adds exactly the items the grammar's `Apply` adds, without a log entry, and moves to the next line |
| Reading.LinesRead | common/config/src/config.c:684-958 | the bytes of any well-formed sequence of lines build exactly the document `Build` describes |
| Reading.ReadConfigOfFileText | common/config/src/config.c:970-1004 | a well-formed file read in one buffer gives `Build` of its lines, an empty log and a line counter one past the last line |
| Writer.BlankLines | common/config/src/config.c:1120-1128 | `CF_WriteBlankLines` writes `count` line feeds, and none for a count of zero or less |
| Writer.Items | common/config/src/config.c:1057-1077 | one written item per index entry |
| Writer.ItemsAddSection | common/config/src/config.c:1039-1043 | a new section is written as `[` + its stored name + `]` on its line |
| Writer.ItemsAddPair | common/config/src/config.c:1045-1049 | a new pair is written as key + `=` + value on its line |
| Writer.ItemsAddComment | common/config/src/config.c:1051-1055 | a new comment is written as its raw stored text on its line |
| Writer.ItemsBuild | common/config/src/config.c:1057-1077 | the items written for `Build` of some lines are, in order, the head and note of each line, on that line's number |
| Writer.BuildRefsValid | common/config/src/config.c:527-545 | every index entry of a built document points at an existing item |
| Writer.LayoutLines | common/config/src/config.c:1185-1205 | the corrected layout of the items of well-formed lines from first to last non-blank is the text of those lines |
| Writer.WriteBuilt | common/config/src/config.c:1172-1210 | the corrected writer: writing the document of a well-formed file gives the file's text without its leading and trailing blank lines |
| Writer.WriteBuiltBlank | common/config/src/config.c:1172-1210 | a file of blank lines writes back as nothing |
| Writer.AsWrittenDropsGaps | common/config/src/config.c:1185-1205 | the loop as written writes the corrected text less exactly the blank lines between each same-line pair and the item after it, so the two agree exactly when there are none |
| Writer.WriteAsWrittenBuilt | common/config/src/config.c:1172-1210 | `CF_Write` as written writes the document of well-formed lines just as the corrected writer does when no line with both a head item and a comment is followed by a blank line |
| RoundTrip.WriteReadBack | common/config/src/config.c:1139-1210 | reading a well-formed file and writing it with the corrected writer gives its lines from the first item to the last, with no log entry |
| RoundTrip.WriteIsStable | common/config/src/config.c:1139-1210 | with the corrected writer, reading the written text and writing it again gives the same text |
| RoundTrip.WellFormedDropBlank | common/config/src/config.c:684-958 | leading blank lines do not affect whether a file is well formed |
| RoundTrip.AsWrittenLosesBlankLine | common/config/src/config.c:1192-1196 | for a pair with a comment on line n followed by an item on line n+2, the writer as written drops the blank line that the corrected writer keeps |
| Accessors.ToUpper | common/config/src/config.c:100 | `toupper` changes exactly the lower-case ASCII letters and maps only NUL to NUL |
| Accessors.CompareFrom | common/config/src/config.c:96-107 | the comparison loop, from any position reached with equal prefixes, is true exactly when the upper-cased first string equals the second |
| Accessors.CompareString | common/config/src/config.c:96-107 | `CF_CompareString` is true exactly when the upper-cased C string of the first equals the C string of the second |
| Accessors.FindKey | common/config/src/config.c:1022-1029 | the first pair from `k` on with the key, or none when no later pair has it |
| Accessors.SearchFrom | common/config/src/config.c:1019-1034 | the first match in section-then-pair order from section `s` on, or none when there is no match there |
| Accessors.SearchKey | common/config/src/config.c:1015-1037 | the first matching pair in section-then-pair order, including later sections with the same name, and none exactly when nothing matches |
| Accessors.SetValue | common/config/src/config.c:661-673 | only the value of that pair changes, to the C string of the new value |
| Accessors.GetString | common/config/src/config.c:1267-1275 | the stored value of the first match, or the default |
| Accessors.GetBool | common/config/src/config.c:1239-1252 | true for any-case `TRUE`, false for any-case `FALSE`, and otherwise or when missing the default |
| Accessors.DigitRun | common/config/src/config.c:1261 | the maximal leading run of digits that `atoi` reads |
| Accessors.SkipSpace | common/config/src/config.c:1261 | the suffix left after `atoi` skips leading white space |
| Accessors.GetInt | common/config/src/config.c:1254-1265 | `atoi` of the value, or the default when the key is missing or `atoi` gives 0 |
| Accessors.Decimal | common/config/src/config.c:1311 | the digits `%i` prints, non-empty and without a leading zero |
| Accessors.FormatInt | common/config/src/config.c:1311 | `%i` of an `int`: NUL-free and starting with `-` exactly for negative values |
| Accessors.AtoiOfFormatInt | common/config/src/config.c:1254-1265 | `atoi` reads back every 32-bit value `%i` prints |
| Accessors.SetText | common/config/src/config.c:1317-1324 | a setter fails and changes nothing when the key is missing, and otherwise changes only the found pair's value |
| Accessors.SetString | common/config/src/config.c:1317-1324 | fails and changes nothing for a missing key, and otherwise stores the C string of the value in the first match only |
| Accessors.SetBool | common/config/src/config.c:1292-1302 | fails and changes nothing for a missing key, and otherwise stores `TRUE` or `FALSE` in the first match only |
| Accessors.SetInt | common/config/src/config.c:1304-1315 | fails and changes nothing for a missing key, and otherwise stores the printed value in the first match only |
| Accessors.SearchAfterChange | common/config/src/config.c:1015-1037 | changing a value never changes which pair any search finds |
| Accessors.GetStringAfterSetString | common/config/src/config.c:1267-1324 | after a successful `CF_SetString`, `CF_GetString` gives the stored value; after a failed one, the default |
| Accessors.GetBoolAfterSetBool | common/config/src/config.c:1239-1302 | after a successful `CF_SetBool(b)`, `CF_GetBool` gives `b`; after a failed one, the default |
| Accessors.GetIntAfterSetInt | common/config/src/config.c:1254-1315 | after a successful `CF_SetInt(v)`, `CF_GetInt` gives `v` unless `v` is 0; otherwise the default |
| Accessors.SetLeavesOtherKeys | common/config/src/config.c:1015-1037 | setting one key leaves the value every other lookup finds unchanged |
| Encoding.SwapBytesW | encoding/src/encoding.c:31-33 | the two bytes of a word exchange places |
| Encoding.SwapBytesWInvolution | encoding/src/encoding.c:31-33 | swapping a word twice gives it back |
| Encoding.SwapUCS4Bytes | encoding/src/encoding.c:35-38 | byte `i` of the result is byte `3 - i` of the character |
| Encoding.SwapUCS4BytesInvolution | encoding/src/encoding.c:35-38 | swapping a character twice gives it back |
| Encoding.ReadWordBytes | encoding/src/encoding.c:97 | a word laid out in machine byte order is read back unchanged |
| Encoding.Put | encoding/src/encoding.c:358-360 | writing bytes at the stream position stores exactly them there, moves the position past them, and changes no other byte |
| Encoding.HighSurrogate | encoding/src/encoding.c:375-377 | the first word of a pair lies in `0xD800..0xDBFF` |
| Encoding.LowSurrogate | encoding/src/encoding.c:376-378 | the second word of a pair lies in `0xDC00..0xDFFF` |
| Encoding.UTF16Bytes | encoding/src/encoding.c:353-384 | a BMP character takes two bytes and any other encodable one four |
| Encoding.UCS4ToUTF16 | encoding/src/encoding.c:342-385 | characters above `0x10FFFF` or in `0xD800..0xDFFF` are refused with the stream untouched; without room `eob` is set; otherwise the encoded bytes are written and the position moves past them |
| Encoding.Combine | encoding/src/encoding.c:130-131 | a surrogate pair decodes to a character in `0x10000..0x10FFFF` |
| Encoding.UTF16ToUCS4AsWritten | encoding/src/encoding.c:86-136 | as written, the decoder never applies the byte swap, whatever `swap` says |
| Encoding.UTF16ToUCS4 | encoding/src/encoding.c:86-136 | a non-surrogate word decodes to itself and moves the position by 2; a high then low surrogate decodes to their combination and moves it by 4; a lone or misplaced surrogate fails with the position unchanged; too few bytes set `eob` |
| Encoding.PairRoundTrip | encoding/src/encoding.c:369-378 | combining the pair the encoder builds for any supplementary character gives the character back |
| Encoding.CombineRoundTrip | encoding/src/encoding.c:130-131 | splitting the combination of a high and a low surrogate gives the pair back |
| Encoding.SupplementaryRoundTrip | encoding/src/encoding.c:342-385 | decoding what the encoder wrote for a supplementary character gives the character and the encoder's final position |
| Encoding.BmpRoundTrip | encoding/src/encoding.c:353-363 | the encoder writes a BMP character high byte first, so a decoder swapping on little-endian machines reads it back |
| Encoding.AsWrittenIgnoresSwap | encoding/src/encoding.c:98-100 | the as-written decoder gives the same result with and without `swap` |
| Encoding.AsWrittenMisreadsSwappedStream | encoding/src/encoding.c:98-100 | for the bytes `00 41` on a little-endian machine with `swap`, the as-written decoder gives `0x4100` and the corrected one `0x41` |
| Encoding.Classify | encoding/src/encoding.c:206-245 | the four-byte marks: never UTF-8, and any other result's mark starts the four bytes |
| Encoding.SearchEncoding | encoding/src/encoding.c:181-246 | leaves the buffer alone; a recognised mark starts the stream and the position moves past it; an unknown one leaves the position; the UTF-8 mark is recognised whenever 3 bytes are left, and with exactly 3 bytes nothing else is; `eob` is set exactly when fewer than 3 bytes, or 3 bytes without the UTF-8 mark, are left |
| Encoding.SearchFindsBom | encoding/src/encoding.c:181-246 | with four bytes left, a stream starting with a mark is recognised as that encoding, except that a UTF-16 mark followed by `00 00` is taken as the UCS-4 mark |
| Encoding.Utf8Count | encoding/src/encoding.c:271-289 | the byte count chosen is between 1 and 6 |
| Encoding.UCS4ToUTF8Room | encoding/src/encoding.c:268-294 | characters above `0x7FFFFFFF` are refused; otherwise the count is chosen, `eob` is set when fewer bytes are free, and on success the position moves by the count |
| Encoding.Utf8CountIsShortest | encoding/src/encoding.c:271-289 | the chosen count is the shortest UTF-8 sequence of section 2 of RFC 2279 whose payload holds the character |
| Encoding.LeadByteMarksLength | encoding/src/encoding.c:308 | the lead byte computed for an n-byte sequence is n one bits followed by a zero bit; it reaches the output only for n = 6 (see `Encoding.UCS4ToUTF8Room` under "## Left out") |

## Left out

- File handling is not modelled: `fopen`, `fread`/`feof`, `fwrite`, `fclose`, `CF_ReadConfigFile` and the file parts of `CF_Write`. Reading takes a sequence of buffers, and writing gives the byte string the loop would write. The file defines `CF_ReadConfigFile` twice. The model takes the buffer loop at common/config/src/config.c:970-1004 as the reader.
- Allocation is not modelled: `CF_New*`, `CF_Free*`, `CF_CleanLog`, and every path where `malloc` returns NULL.
- Log text is not modelled. `sprintf` of the messages and `CF_GetLogType` are left out, so a log entry is a kind, a message identifier, a line and a column.
- `CF_GetDouble` and `CF_SetDouble` are left out because they rely on floating point, `atof`, `errno` and `%g`.
- Accessors.Atoi: returns the mathematical value of the digits. Overflow of `int`, which C leaves undefined, is not modelled.
- Accessors.ToUpper: only ASCII letters are mapped. Locale-dependent `toupper` for bytes 0x80 and above is not modelled.
- Slicing.ReadRunFacts: a `strncpy` that reads beyond the current buffer is reported as a `ReadPastData` hazard rather than given the bytes that happen to follow in memory.
- Scanner.ProcessLine: at the end of a buffer the code only sets the partial flags. A token split across two buffers is therefore not reassembled in the C either. `Reading` proves results only for a file read in one buffer.
- Scanner.OnOther: the scanner classifies bytes with the corrected searches of the first two Findings rows. In the C, `CF_IsValueChar` first calls `CF_FindCommonChar`, whose search reads index 127 of its 64-byte table for every byte that compares below `0` as a signed `char`: `! " $ % & ' ( ) * + - . /` and every byte from 0x80 (`Classifier.CommonSearchWrapsBelowZero`). Values such as `-1`, `1.5` or `/x`, and keys such as `a-b`, are therefore undefined behaviour in the C; the model accepts or refuses them as the corrected searches do, rather than reporting a hazard.
- Reading.LinesRead: the grammar covers only names of 1 to 63 bytes, values without blanks, no blanks around `=`, and comments that follow a blank and contain no `#`. Outside it, the scanner's behaviour is stated per byte instead: `[]` adds a section with an empty name and a warning (`Scanner.SectionNameBetweenBrackets`), a value ended by a line feed keeps its trailing and inner blanks (`Scanner.ValueRunsToLineEnd`), a value ended by blanks and `#` keeps its inner blanks and drops the trailing ones (`Reading.ValueEndsAtLastNonBlank`), a blank between a key and `=` followed by an empty value makes the key's bytes the value (`Scanner.BlankEndedKeyEmptyValue`), and a second `#` empties the comment (`Reading.SecondHashEmptiesComment`). Blanks inside or after a value are left out of the grammar because the comment start `pcb` is cleared only by `#` and by the end of a comment (`Scanner.StaleCommentStart`), so the comment stored after such a value can begin with bytes of the value's line.
- Scanner.ClosePair: a pair completed before any section dereferences NULL in the C. It is modelled as the `NoCurrentSection` hazard rather than given a behaviour.
- Writer.Items: the C builds each written line in a stack buffer of `MAX_FILE_LINE_LENGTH` (3072) bytes with `sprintf` and `strcat` (common/config/src/config.c:13, 1091-1118), while `CF_SetValue` stores a value of any length (common/config/src/config.c:661-673). A line longer than the buffer overflows it in the C. `Write` returns the whole text instead and has no length limit.
- Writer.Items: an index entry that points nowhere gives an empty text. `CF_GetItemText` would return NULL there, but every document the scanner builds has only valid entries (`Writer.BuildRefsValid`).
- Writer.WriteBuilt: the text written omits the leading and trailing blank lines of the file, because the index records no blank lines before the first item or after the last.
- Encoding.UCS4ToUTF8Room: states only the position and `eob`, and says the bytes are unchanged. The C builds the sequence in `u[0..by - 1]` of its six-byte work array (encoding/src/encoding.c:298, 302-308), but its final `memcpy` copies `u[6 - by..5]` (encoding/src/encoding.c:323). For fewer than six bytes what it writes is therefore not the encoding: an ASCII character writes the single byte `u[5]`, which is 0. It also writes to the start of the buffer, ignoring the position. The bit-filling loop (encoding/src/encoding.c:309-320) is not modelled either. Only the length selection, the room check and the lead byte are.
- `ENSwapUCS4Uoo2143` and `EN_SwapUCS4Uoo3412` are not modelled. They combine their shifts with logical `||` and so return 0 or 1.
- `EN_ReadUCS4` is not modelled because it ignores the stream position.
- `EN_NewStream` is not modelled because it frees the stream it builds and returns NULL.
- `EN_UTF8ToUCS4` is not modelled. Its operator-precedence errors mean it does not decode.
- `EN_UTF16LeToUCS4`, `EN_UTF16BeToUCS4` and `EN_ReadUCS4*` are thin wrappers around the parts that are left out or are modelled by `Encoding.UTF16ToUCS4`.
- Encoding.UCS4ToUTF16: the stream must be valid (position within the buffer). The C computes the free space with unsigned subtraction, which would wrap for an invalid stream.
- Encoding.Decode16: requires a valid stream, for the same reason (encoding/src/encoding.c:90, 114).
- Encoding.UTF16ToUCS4AsWritten: requires a valid stream, for the same reason (encoding/src/encoding.c:90, 114).
- Encoding.UTF16ToUCS4: requires a valid stream, for the same reason (encoding/src/encoding.c:90, 114).
- Encoding.SearchEncoding: requires a valid stream, for the same reason (encoding/src/encoding.c:185, 201).
- Encoding.UCS4ToUTF8Room: requires a valid stream, for the same reason (encoding/src/encoding.c:291).
- Encoding.UCS4ToUTF16: the `#ifdef` choice of machine byte order is the `bigEndian` parameter. On a machine of either order, a surrogate word is laid out by `memcpy`.
- The BMP loader (bitmap/src/bitmap.c), the logger (common/log/src/log.c) and the system helpers (system/src/sys.c) are not modelled. They consist of file access, wall-clock time and process exit.

## Findings

| source | as written | input that shows it | evidently intended | confidence | as-written member | corrected member |
|---|---|---|---|---|---|---|
| common/config/src/config.c:587-598 | the binary search keeps `m` and `s` in `unsigned char`, so `s = m - 1` wraps to 255 after a probe at index 0 and the next probe reads index 127, past the 63-entry table | the byte `.` (0x2E) given to `CF_FindCommonChar` | a search that stops and answers "not found" | not executed | Classifier.CommonSearchWrapsOnDot | Classifier.Search |
| common/config/src/config.c:67-69 | the value table is declared sorted but lists the acute accent (signed -76) between `+` and `-`; the binary search then misses `)`, which is listed | the byte `)` (0x29) given to `CF_FindValueChar` | `)` accepted as a value byte | not executed | Classifier.ListedValueTableMissesParen | Classifier.IsValueExtraChar |
| common/config/src/config.c:1192-1196 | after an item and its same-line comment, the writer emits `j->line - i->line - 1` blank lines, which is -1, so the gap up to the next item is lost | a line `k=v #c`, a blank line, then `[s]` | the blank line written back | not executed | RoundTrip.AsWrittenLosesBlankLine | Writer.WriteBuilt |
| encoding/src/encoding.c:98-100, 120-122 | `EN_SwapBytesW(w1)` is called for its result and the result is discarded, so `swap` has no effect | bytes `00 41` on a little-endian machine, decoded with `swap` | the character `0x41` | not executed | Encoding.AsWrittenMisreadsSwappedStream | Encoding.BmpRoundTrip |

=== FILE: accessors.dfy ===
/**
 Looking values up and changing them once a document has been read:
 `CF_SearchKey`, `CF_CompareString`, `CF_SetValue` and the typed getters and
 setters built on them.

 Arguments that are C strings (section and key names, new values) are
 given as the bytes before their terminating NUL. A stored value is read
 the way C reads it, up to its first NUL.
 */
module Accessors {
  import opened Bytes
  import opened Document

  /** `toupper` in the C locale: only the 26 lower-case ASCII letters change. */
  function ToUpper(b: byte): (r: byte)
    ensures (0x61 <= b <= 0x7A) <==> r != b
    ensures r == NUL <==> b == NUL
  {
    if 0x61 <= b <= 0x7A then b - 0x20 else b
  }

  function Upper(s: seq<byte>): (r: seq<byte>)
    ensures |r| == |s| && forall k :: 0 <= k < |s| ==> r[k] == ToUpper(s[k])
  {
    seq(|s|, k requires 0 <= k < |s| => ToUpper(s[k]))
  }

  /** Byte `i` of the C string held in `s`: past the end, the terminating NUL. */
  function CharAt(s: seq<byte>, i: nat): byte
  {
    if i < |s| then s[i] else NUL
  }

  /** The loop of `CF_CompareString` from position `i` on, once the first `i` bytes matched. */
  function CompareFrom(toupp: seq<byte>, upper: seq<byte>, i: nat): (r: bool)
    requires i <= |toupp| && i <= |upper|
    requires forall k :: 0 <= k < i ==> toupp[k] != NUL && ToUpper(toupp[k]) == upper[k]
    ensures r <==> Upper(CStr(toupp)) == CStr(upper)
    decreases |toupp| - i
  {
    CStrAfterPrefix(toupp, i);
    forall k | 0 <= k < i ensures upper[k] != NUL {
      assert toupp[k] != NUL && ToUpper(toupp[k]) == upper[k];
    }
    CStrAfterPrefix(upper, i);
    if ToUpper(CharAt(toupp, i)) == CharAt(upper, i) && CharAt(toupp, i) != NUL && CharAt(upper, i) != NUL then
      CompareFrom(toupp, upper, i + 1)
    else
      CharAt(toupp, i) == NUL && CharAt(upper, i) == NUL
  }

  /**
   The C string of `s` is at least as long as a NUL-free prefix of `s`, and
   agrees with `s` on it; it ends right there when `s` does or holds a NUL.
   */
  lemma CStrAfterPrefix(s: seq<byte>, i: nat)
    requires i <= |s| && forall k :: 0 <= k < i ==> s[k] != NUL
    ensures i <= |CStr(s)| && CStr(s)[..i] == s[..i]
    ensures CharAt(s, i) == NUL <==> |CStr(s)| == i
    ensures i < |CStr(s)| ==> CStr(s)[i] == s[i]
  {
  }

  /**
   `CF_CompareString(toupp, upper)`: the C strings have the same length and
   `toupper` of each byte of the first is the byte of the second.
   */
  function CompareString(toupp: seq<byte>, upper: seq<byte>): (r: bool)
    ensures r <==> Upper(CStr(toupp)) == CStr(upper)
  {
    CompareFrom(toupp, upper, 0)
  }

  /** The literals `TRUESTRING` and `FALSESTRING`. */
  const TrueString: seq<byte> := [0x54, 0x52, 0x55, 0x45]
  const FalseString: seq<byte> := [0x46, 0x41, 0x4C, 0x53, 0x45]

  /** Where a key-value pair sits: its section and its place in that section. */
  datatype Position = Position(section: nat, pair: nat)

  /** Section `s` is named `section` and its pair `k` has key `key`. */
  predicate Matches(secs: seq<Section>, section: seq<byte>, key: seq<byte>, s: nat, k: nat)
  {
    s < |secs| && secs[s].name == section && k < |secs[s].pairs| && secs[s].pairs[k].key == key
  }

  /** `p` comes no later than `(s, k)` in section-then-pair order. */
  predicate NotAfter(p: Position, s: nat, k: nat)
  {
    p.section < s || (p.section == s && p.pair <= k)
  }

  /** The inner loop of `CF_SearchKey`: the first pair from `k` on whose key is `key`. */
  function FindKey(pairs: seq<KeyValue>, key: seq<byte>, k: nat): (r: Option<nat>)
    requires k <= |pairs|
    ensures r.Some? ==> k <= r.value < |pairs| && pairs[r.value].key == key
    ensures r.Some? ==> forall j :: k <= j < r.value ==> pairs[j].key != key
    ensures r.None? ==> forall j :: k <= j < |pairs| ==> pairs[j].key != key
    decreases |pairs| - k
  {
    if k == |pairs| then None
    else if pairs[k].key == key then Some(k)
    else FindKey(pairs, key, k + 1)
  }

  /**
   The outer loop of `CF_SearchKey` from section `s` on: every section with
   the requested name is searched, not only the first.
   */
  function SearchFrom(secs: seq<Section>, section: seq<byte>, key: seq<byte>, s: nat): (r: Option<Position>)
    requires s <= |secs|
    ensures r.Some? ==> s <= r.value.section && Matches(secs, section, key, r.value.section, r.value.pair)
    ensures r.Some? ==> forall t, k :: s <= t && Matches(secs, section, key, t, k) ==> NotAfter(r.value, t, k)
    ensures r.None? ==> forall t, k :: s <= t ==> !Matches(secs, section, key, t, k)
    decreases |secs| - s
  {
    if s == |secs| then None
    else if secs[s].name == section then
      match FindKey(secs[s].pairs, key, 0)
      case Some(k) => Some(Position(s, k))
      case None => SearchFrom(secs, section, key, s + 1)
    else SearchFrom(secs, section, key, s + 1)
  }

  /**
   `CF_SearchKey`: the first pair, in section order and then pair order,
   whose section has the requested name and whose key is the requested key;
   None (a NULL pointer) when there is none.
   */
  function SearchKey(secs: seq<Section>, section: seq<byte>, key: seq<byte>): (r: Option<Position>)
    ensures r.Some? ==> Matches(secs, section, key, r.value.section, r.value.pair)
    ensures r.Some? ==> forall t, k :: Matches(secs, section, key, t, k) ==> NotAfter(r.value, t, k)
    ensures r.None? <==> forall t, k :: !Matches(secs, section, key, t, k)
  {
    SearchFrom(secs, section, key, 0)
  }

  predicate ValidPosition(c: Config, p: Position)
  {
    p.section < |c.sections| && p.pair < |c.sections[p.section].pairs|
  }

  function ValueAt(c: Config, p: Position): seq<byte>
    requires ValidPosition(c, p)
  {
    c.sections[p.section].pairs[p.pair].value
  }

  /** `b` is `a` with the value of the pair at `p` replaced by `v`, and nothing else changed. */
  predicate OnlyValueChanged(a: Config, b: Config, p: Position, v: seq<byte>)
  {
    && ValidPosition(a, p)
    && |b.sections| == |a.sections|
    && (forall s :: 0 <= s < |a.sections| ==>
          b.sections[s].name == a.sections[s].name && |b.sections[s].pairs| == |a.sections[s].pairs|)
    && (forall s, k :: 0 <= s < |a.sections| && 0 <= k < |a.sections[s].pairs| && (s, k) != (p.section, p.pair) ==>
          b.sections[s].pairs[k] == a.sections[s].pairs[k])
    && b.sections[p.section].pairs[p.pair] == KeyValue(a.sections[p.section].pairs[p.pair].key, v)
    && b.comments == a.comments && b.index == a.index
  }

  /** `CF_SetValue`: the pair at `p` gets a copy of the C string `value` (`strcpy`). */
  function SetValue(c: Config, p: Position, value: seq<byte>): (r: Config)
    requires ValidPosition(c, p)
    ensures OnlyValueChanged(c, r, p, CStr(value))
  {
    var sec := c.sections[p.section];
    var kv := sec.pairs[p.pair].(value := CStr(value));
    c.(sections := c.sections[p.section := sec.(pairs := sec.pairs[p.pair := kv])])
  }

  /** The result of a setter: TRUE or FALSE, and the document afterwards. */
  datatype Update = Update(ok: bool, config: Config)

  /** `CF_GetString`: the stored value, or the default when the key is missing. */
  function GetString(c: Config, section: seq<byte>, key: seq<byte>, default: seq<byte>): (r: seq<byte>)
    ensures SearchKey(c.sections, section, key).None? ==> r == default
    ensures SearchKey(c.sections, section, key).Some? ==>
      var p := SearchKey(c.sections, section, key).value;
      ValidPosition(c, p) && r == ValueAt(c, p)
  {
    match SearchKey(c.sections, section, key)
    case None => default
    case Some(p) => ValueAt(c, p)
  }

  /**
   `CF_GetBool`: TRUE when the value reads "true" in any letter case, FALSE
   when it reads "false" in any letter case, the default otherwise and when
   the key is missing.
   */
  function GetBool(c: Config, section: seq<byte>, key: seq<byte>, default: bool): (r: bool)
    ensures SearchKey(c.sections, section, key).None? ==> r == default
    ensures SearchKey(c.sections, section, key).Some? ==>
      var v := CStr(ValueAt(c, SearchKey(c.sections, section, key).value));
      && (Upper(v) == TrueString ==> r)
      && (Upper(v) == FalseString ==> !r)
      && (Upper(v) != TrueString && Upper(v) != FalseString ==> r == default)
  {
    match SearchKey(c.sections, section, key)
    case None => default
    case Some(p) =>
      if CompareString(ValueAt(c, p), TrueString) then true
      else if CompareString(ValueAt(c, p), FalseString) then false
      else default
  }

  predicate IsDigit(b: byte)
  {
    0x30 <= b <= 0x39
  }

  /** The white space `isspace` accepts in the C locale. */
  predicate IsSpace(b: byte)
  {
    b == 0x20 || 0x09 <= b <= 0x0D
  }

  /** The number of leading digits of `s`. */
  function DigitRun(s: seq<byte>): (n: nat)
    ensures n <= |s| && (forall k :: 0 <= k < n ==> IsDigit(s[k])) && (n < |s| ==> !IsDigit(s[n]))
  {
    if |s| == 0 || !IsDigit(s[0]) then 0 else 1 + DigitRun(s[1..])
  }

  /** The decimal value of a run of digits, most significant first. */
  function DigitsValue(ds: seq<byte>): (v: nat)
    requires forall k :: 0 <= k < |ds| ==> IsDigit(ds[k])
  {
    if |ds| == 0 then 0
    else
      assert IsDigit(ds[|ds| - 1]);
      DigitsValue(ds[..|ds| - 1]) * 10 + (ds[|ds| - 1] - 0x30)
  }

  function SkipSpace(s: seq<byte>): (r: seq<byte>)
    ensures |r| <= |s| && r == s[|s| - |r|..]
    ensures |r| > 0 ==> !IsSpace(r[0])
  {
    if |s| > 0 && IsSpace(s[0]) then SkipSpace(s[1..]) else s
  }

  function LeadingNumber(s: seq<byte>): nat
  {
    DigitsValue(s[..DigitRun(s)])
  }

  /**
   `atoi`: white space, an optional sign, then the longest run of digits; 0
   when no digit follows. The value is not reduced to the width of `int`.
   */
  function Atoi(s: seq<byte>): (v: int)
    ensures |s| == 0 ==> v == 0
  {
    var t := SkipSpace(s);
    if |t| > 0 && t[0] == 0x2D then -(LeadingNumber(t[1..]) as int)
    else if |t| > 0 && t[0] == 0x2B then LeadingNumber(t[1..])
    else LeadingNumber(t)
  }

  /** `CF_GetInt`: the value read by `atoi`, or the default when the key is missing or `atoi` gives 0. */
  function GetInt(c: Config, section: seq<byte>, key: seq<byte>, default: int): (r: int)
    ensures SearchKey(c.sections, section, key).None? ==> r == default
    ensures SearchKey(c.sections, section, key).Some? ==>
      var n := Atoi(ValueAt(c, SearchKey(c.sections, section, key).value));
      r == if n == 0 then default else n
  {
    match SearchKey(c.sections, section, key)
    case None => default
    case Some(p) =>
      var n := Atoi(ValueAt(c, p));
      if n == 0 then default else n
  }

  /** The values of a C `int`. */
  type Int32 = x: int | -0x8000_0000 <= x < 0x8000_0000

  /** The decimal digits of `n`, most significant first, without leading zeros. */
  function Decimal(n: nat): (r: seq<byte>)
    ensures |r| > 0 && forall k :: 0 <= k < |r| ==> IsDigit(r[k])
    ensures |r| > 1 ==> r[0] != 0x30
  {
    if n < 10 then [0x30 + n] else Decimal(n / 10) + [0x30 + n % 10]
  }

  /** `sprintf(v, "%i", value)`. */
  function FormatInt(i: Int32): (r: seq<byte>)
    ensures |r| > 0 && NoNul(r)
    ensures (r[0] == 0x2D) <==> i < 0
  {
    if i < 0 then [0x2D] + Decimal(-(i as int)) else Decimal(i)
  }

  /** Reading the digits of `n` back gives `n`. */
  lemma {:induction false} DecimalValue(n: nat)
    ensures DigitsValue(Decimal(n)) == n
  {
    var d := Decimal(n);
    if n >= 10 {
      DecimalValue(n / 10);
      assert d[..|d| - 1] == Decimal(n / 10);
    }
  }

  lemma LeadingNumberOfDecimal(n: nat)
    ensures LeadingNumber(Decimal(n)) == n
  {
    var d := Decimal(n);
    assert d[..|d|] == d;
    DecimalValue(n);
  }

  /** `atoi` reads back what `sprintf("%i")` wrote. */
  lemma AtoiOfFormatInt(i: Int32)
    ensures Atoi(FormatInt(i)) == i
  {
    var r := FormatInt(i);
    if i < 0 {
      assert r[1..] == Decimal(-(i as int));
      LeadingNumberOfDecimal(-(i as int));
    } else {
      LeadingNumberOfDecimal(i);
    }
  }

  /** `CF_SetString`, `CF_SetBool` and `CF_SetInt` once the new value text is known. */
  function SetText(c: Config, section: seq<byte>, key: seq<byte>, value: seq<byte>): (r: Update)
    ensures r.ok <==> SearchKey(c.sections, section, key).Some?
    ensures !r.ok ==> r.config == c
    ensures r.ok ==> OnlyValueChanged(c, r.config, SearchKey(c.sections, section, key).value, CStr(value))
  {
    match SearchKey(c.sections, section, key)
    case None => Update(false, c)
    case Some(p) => Update(true, SetValue(c, p, value))
  }

  /** `CF_SetString`: FALSE and no change when the key is missing; otherwise the pair gets the new value. */
  function SetString(c: Config, section: seq<byte>, key: seq<byte>, value: seq<byte>): (r: Update)
    ensures r.ok <==> SearchKey(c.sections, section, key).Some?
    ensures !r.ok ==> r.config == c
    ensures r.ok ==> OnlyValueChanged(c, r.config, SearchKey(c.sections, section, key).value, CStr(value))
  {
    SetText(c, section, key, value)
  }

  /** `CF_SetBool`: stores `TRUE` or `FALSE`. */
  function SetBool(c: Config, section: seq<byte>, key: seq<byte>, value: bool): (r: Update)
    ensures r.ok <==> SearchKey(c.sections, section, key).Some?
    ensures !r.ok ==> r.config == c
    ensures r.ok ==> OnlyValueChanged(c, r.config, SearchKey(c.sections, section, key).value,
                                      if value then TrueString else FalseString)
  {
    var r := SetText(c, section, key, if value then TrueString else FalseString);
    CStrOfNoNul(TrueString);
    CStrOfNoNul(FalseString);
    r
  }

  /** `CF_SetInt`: stores the decimal text of `value`. */
  function SetInt(c: Config, section: seq<byte>, key: seq<byte>, value: Int32): (r: Update)
    ensures r.ok <==> SearchKey(c.sections, section, key).Some?
    ensures !r.ok ==> r.config == c
    ensures r.ok ==> OnlyValueChanged(c, r.config, SearchKey(c.sections, section, key).value, FormatInt(value))
  {
    CStrOfNoNul(FormatInt(value));
    SetText(c, section, key, FormatInt(value))
  }

  /** Changing a value leaves every name and key, and so every search result, as it was. */
  lemma SearchAfterChange(a: Config, b: Config, p: Position, v: seq<byte>, section: seq<byte>, key: seq<byte>)
    requires OnlyValueChanged(a, b, p, v)
    ensures SearchKey(b.sections, section, key) == SearchKey(a.sections, section, key)
  {
    forall t: nat, k: nat ensures Matches(b.sections, section, key, t, k) == Matches(a.sections, section, key, t, k) {
      if t < |a.sections| && k < |a.sections[t].pairs| && (t, k) != (p.section, p.pair) {
        assert b.sections[t].pairs[k] == a.sections[t].pairs[k];
      }
    }
    var ra, rb := SearchKey(a.sections, section, key), SearchKey(b.sections, section, key);
    if ra.Some? && rb.Some? {
      assert NotAfter(ra.value, rb.value.section, rb.value.pair);
      assert NotAfter(rb.value, ra.value.section, ra.value.pair);
    }
  }

  /** `CF_GetString` after `CF_SetString` gives the new value, when the key exists. */
  lemma GetStringAfterSetString(c: Config, section: seq<byte>, key: seq<byte>, value: seq<byte>, default: seq<byte>)
    ensures var u := SetString(c, section, key, value);
      GetString(u.config, section, key, default) == if u.ok then CStr(value) else default
  {
    var u := SetString(c, section, key, value);
    if u.ok {
      SearchAfterChange(c, u.config, SearchKey(c.sections, section, key).value, CStr(value), section, key);
    }
  }

  /** `CF_GetBool` after `CF_SetBool(b)` gives `b`, when the key exists. */
  lemma GetBoolAfterSetBool(c: Config, section: seq<byte>, key: seq<byte>, value: bool, default: bool)
    ensures var u := SetBool(c, section, key, value);
      GetBool(u.config, section, key, default) == if u.ok then value else default
  {
    var u := SetBool(c, section, key, value);
    if u.ok {
      var v := if value then TrueString else FalseString;
      SearchAfterChange(c, u.config, SearchKey(c.sections, section, key).value, v, section, key);
      CStrOfNoNul(v);
      BoolLiterals();
    }
  }

  /** Both literals are upper case already, and they differ. */
  lemma BoolLiterals()
    ensures Upper(TrueString) == TrueString && Upper(FalseString) == FalseString
    ensures Upper(TrueString) != FalseString
  {
    assert Upper(TrueString) == TrueString;
    assert Upper(FalseString) == FalseString;
  }

  /** `CF_GetInt` after `CF_SetInt(i)` gives `i`, except that 0 reads as the default. */
  lemma GetIntAfterSetInt(c: Config, section: seq<byte>, key: seq<byte>, value: Int32, default: int)
    ensures var u := SetInt(c, section, key, value);
      GetInt(u.config, section, key, default) == if u.ok && value != 0 then value as int else default
  {
    var u := SetInt(c, section, key, value);
    if u.ok {
      SearchAfterChange(c, u.config, SearchKey(c.sections, section, key).value, FormatInt(value), section, key);
      AtoiOfFormatInt(value);
    }
  }

  /** A setter leaves the value of every other pair as it was. */
  lemma SetLeavesOtherKeys(c: Config, section: seq<byte>, key: seq<byte>, value: seq<byte>,
                           section': seq<byte>, key': seq<byte>, default: seq<byte>)
    requires SearchKey(c.sections, section', key') != SearchKey(c.sections, section, key)
    ensures GetString(SetString(c, section, key, value).config, section', key', default) == GetString(c, section', key', default)
  {
    var u := SetString(c, section, key, value);
    if u.ok {
      SearchAfterChange(c, u.config, SearchKey(c.sections, section, key).value, CStr(value), section', key');
    }
  }
}

=== FILE: bytes.dfy ===
/**
 Bytes and C strings.

 The configuration engine works on `char` buffers read from a file, and it
 stores every name, value and comment with `strcpy`, so a stored text ends at
 its first NUL byte. This module fixes the byte type, the ASCII codes the
 scanner switches on, and the two C string operations the engine relies on:
 `strcpy` (modelled by `CStr`) and `strncpy` (modelled by `StrNCpy`).
 */
module Bytes {

  /** One byte of a buffer, as an unsigned value. */
  type byte = x: int | 0 <= x < 256

  /** A value that may be absent: a NULL pointer, a missing token, a search without a match. */
  datatype Option<T> = None | Some(value: T)

  const NUL: byte := 0x00
  const TAB: byte := 0x09
  const NEWLINE: byte := 0x0A
  const SPACE: byte := 0x20
  const HASH: byte := 0x23
  const EQUALS: byte := 0x3D
  const LBRACKET: byte := 0x5B
  const RBRACKET: byte := 0x5D

  /** The value a byte has as a C `char` on a target where `char` is signed. */
  function SignedChar(b: byte): (v: int)
    ensures -128 <= v < 128
    ensures v % 256 == b
    ensures b < 128 <==> v == b
  {
    if b < 128 then b else b - 256
  }

  /** The byte codes of an ASCII string literal. */
  function Ascii(s: string): (r: seq<byte>)
    requires forall k :: 0 <= k < |s| ==> s[k] as int < 256
    ensures |r| == |s|
    ensures forall k :: 0 <= k < |s| ==> r[k] == s[k] as int
  {
    seq(|s|, k requires 0 <= k < |s| => s[k] as int)
  }

  predicate NoNul(s: seq<byte>)
  {
    forall k :: 0 <= k < |s| ==> s[k] != NUL
  }

  /** The C string held by a byte array: everything before the first NUL. */
  function CStr(s: seq<byte>): (r: seq<byte>)
    ensures NoNul(r)
    ensures |r| <= |s| && r == s[..|r|]
    ensures |r| < |s| ==> s[|r|] == NUL
  {
    if |s| == 0 || s[0] == NUL then [] else [s[0]] + CStr(s[1..])
  }

  /**
   What `strncpy(dest, src, |s|)` leaves in `dest` when `src` holds `s`: the
   bytes of `s` up to its first NUL, then NUL padding to the same length.
   */
  function StrNCpy(s: seq<byte>): (r: seq<byte>)
    ensures |r| == |s|
    ensures r[..|CStr(s)|] == CStr(s)
    ensures forall k :: |CStr(s)| <= k < |s| ==> r[k] == NUL
  {
    if |s| == 0 then []
    else if s[0] == NUL then seq(|s|, _ => NUL)
    else [s[0]] + StrNCpy(s[1..])
  }

  lemma CStrOfNoNul(s: seq<byte>)
    requires NoNul(s)
    ensures CStr(s) == s
  {
  }

  lemma StrNCpyOfNoNul(s: seq<byte>)
    requires NoNul(s)
    ensures StrNCpy(s) == s
  {
    CStrOfNoNul(s);
  }

  /** A NUL-free prefix passes through `strcpy` unchanged. */
  lemma CStrOfNoNulPrefix(a: seq<byte>, b: seq<byte>)
    requires NoNul(a)
    ensures CStr(a + b) == a + CStr(b)
  {
    if |a| > 0 {
      assert (a + b)[1..] == a[1..] + b;
      CStrOfNoNulPrefix(a[1..], b);
    } else {
      assert a + b == b;
    }
  }

  /** `strcpy` of the `strncpy` image is `strcpy` of the source. */
  lemma CStrOfStrNCpy(s: seq<byte>)
    ensures CStr(StrNCpy(s)) == CStr(s)
  {
    var c := CStr(s);
    var r := StrNCpy(s);
    assert r == c + r[|c|..];
    CStrOfNoNulPrefix(c, r[|c|..]);
    if |c| < |s| {
      assert r[|c|] == NUL;
    } else {
      assert r[|c|..] == [];
    }
  }
}

=== FILE: classifier.dfy ===
/**
 The character classifier of the configuration engine.

 Section and key names may only hold bytes of the common table (digits,
 letters and the underscore); values may also hold the punctuation of the
 value table. Both tests are binary searches over literal tables compared as
 C `char` values, i.e. as signed bytes.

 The C searches keep their indices in `unsigned char`s: when the probe at
 index 0 is larger than the byte sought, `s = m - 1` wraps to 255 and the next
 probe reads index 127, far past both tables. `SearchAsWritten` models that
 and `Search` is the search with integer indices that the rest of the model
 uses. The value table as listed is not sorted (the acute accent sits between
 '+' and '-'), so the search misses some of its entries; `ValueTable` is the
 same set of entries in sorted order.
 */
module Classifier {
  import opened Bytes

  /** The C `char` codes of an ASCII string. */
  function Codes(s: string): (r: seq<int>)
    ensures |r| == |s|
    ensures forall k :: 0 <= k < |s| ==> r[k] == s[k] as int
  {
    seq(|s|, k requires 0 <= k < |s| => s[k] as int)
  }

  /** VALIDCOMMONCHARS: 63 entries, digits, upper-case letters, '_', lower-case letters. */
  const CommonTable: seq<int> :=
    Codes("0123456789") + Codes("ABCDEFGHIJKLMNOPQRSTUVWXYZ") + Codes("_") + Codes("abcdefghijklmnopqrstuvwxyz")

  /** The acute accent of the value table, byte 0xB4, as a signed `char`. */
  const AcuteAccent: int := -76

  /**
   VALIDVALUECHARS exactly as listed: 31 initialisers in a 32-slot array, so
   the last slot is zero, and the accent in the place ',' would take.
   */
  const ListedValueTable: seq<int> :=
    Codes("!\"#$%&'()*+") + [AcuteAccent] + Codes("-./:;<=>?@[\\]^`{|}~") + [0]

  /** The 30 ASCII punctuation bytes of the value table. */
  const ValuePunctuation: seq<byte> := Ascii("!\"#$%&'()*+-./:;<=>?@[\\]^`{|}~")

  /** The entries of the value table, sorted as signed `char`s. */
  const ValueTable: seq<int> := [AcuteAccent] + Codes("!\"#$%&'()*+-./:;<=>?@[\\]^`{|}~")

  predicate StrictlySorted(t: seq<int>)
  {
    forall i, j :: 0 <= i < j < |t| ==> t[i] < t[j]
  }

  /** ASCII digits, letters and the underscore. */
  predicate IsWordByte(b: byte)
  {
    (0x30 <= b <= 0x39) || (0x41 <= b <= 0x5A) || b == 0x5F || (0x61 <= b <= 0x7A)
  }

  /**
   The binary search of `CF_FindCommonChar` and `CF_FindValueChar` over
   `t[i..s]`, with integer indices so that `s` may reach -1.
   */
  function Search(t: seq<int>, c: int, i: int, s: int): (found: bool)
    requires 0 <= i <= s + 1 <= |t|
    ensures found ==> c in t[i..s + 1]
    ensures StrictlySorted(t) ==> (found <==> c in t[i..s + 1])
    decreases s - i
  {
    if i > s then false
    else
      var m := (i + s) / 2;
      if t[m] == c then true
      else if t[m] < c then
        var r := Search(t, c, m + 1, s);
        assert StrictlySorted(t) ==> c !in t[i..m + 1];
        assert t[i..s + 1] == t[i..m + 1] + t[m + 1..s + 1];
        r
      else
        var r := Search(t, c, i, m - 1);
        assert StrictlySorted(t) ==> c !in t[m..s + 1];
        assert t[i..s + 1] == t[i..m] + t[m..s + 1];
        r
  }

  /** Outcome of the search with `unsigned char` indices. */
  datatype Probe = Found | NotFound | OutOfBounds(index: int)

  /**
   The search exactly as written: `i`, `s` and `m` are `unsigned char`s. When
   the probe at index 0 is too large, `s = m - 1` wraps to 255, `i <= s`
   still holds and the next probe is `(0 + 255) / 2`, outside the table.
   */
  function SearchAsWritten(t: seq<int>, c: int, i: int, s: int): (r: Probe)
    requires |t| <= 127
    requires 0 <= i <= s + 1 && 0 <= s < |t|
    ensures r == Found ==> c in t[i..s + 1]
    ensures r.OutOfBounds? ==> r.index == 127 && r.index >= |t| && c < t[0]
    decreases s - i
  {
    if i > s then NotFound
    else
      var m := (i + s) / 2;
      if t[m] == c then Found
      else if t[m] < c then
        if m + 1 > s then NotFound
        else
          var r := SearchAsWritten(t, c, m + 1, s);
          assert t[i..s + 1] == t[i..m + 1] + t[m + 1..s + 1];
          r
      else if m == 0 then OutOfBounds((i + 255) / 2)
      else
        var r := SearchAsWritten(t, c, i, m - 1);
        assert t[i..s + 1] == t[i..m] + t[m..s + 1];
        r
  }

  /** Where the as-written search stays inside the table it agrees with `Search`. */
  lemma {:induction false} AsWrittenAgreesInBounds(t: seq<int>, c: int, i: int, s: int)
    requires |t| <= 127
    requires 0 <= i <= s + 1 && 0 <= s < |t|
    requires !SearchAsWritten(t, c, i, s).OutOfBounds?
    ensures SearchAsWritten(t, c, i, s) == Found <==> Search(t, c, i, s)
    decreases s - i
  {
    if i <= s {
      var m := (i + s) / 2;
      if t[m] == c {
      } else if t[m] < c {
        if m + 1 <= s {
          AsWrittenAgreesInBounds(t, c, m + 1, s);
        }
      } else if m != 0 {
        AsWrittenAgreesInBounds(t, c, i, m - 1);
      }
    }
  }

  /**
   On a sorted table the as-written search leaves the table exactly when the
   byte sought is below the first entry.
   */
  lemma {:induction false} AsWrittenWrapsExactlyBelowFirst(t: seq<int>, c: int, s: int)
    requires 1 <= |t| <= 127 && StrictlySorted(t)
    requires 0 <= s < |t|
    ensures SearchAsWritten(t, c, 0, s).OutOfBounds? <==> c < t[0]
    decreases s
  {
    if c < t[0] {
      var m := s / 2;
      assert t[0] <= t[m];
      if m != 0 {
        AsWrittenWrapsExactlyBelowFirst(t, c, m - 1);
      }
    }
  }

  lemma CommonTableEntries(k: int)
    requires 0 <= k < 63
    ensures |CommonTable| == 63
    ensures k < 10 ==> CommonTable[k] == 0x30 + k
    ensures 10 <= k < 36 ==> CommonTable[k] == 0x41 + (k - 10)
    ensures k == 36 ==> CommonTable[k] == 0x5F
    ensures 37 <= k ==> CommonTable[k] == 0x61 + (k - 37)
  {
    var d, u, l := Codes("0123456789"), Codes("ABCDEFGHIJKLMNOPQRSTUVWXYZ"), Codes("abcdefghijklmnopqrstuvwxyz");
    assert CommonTable == d + u + Codes("_") + l;
    if k < 10 {
      DigitEntries(k);
    } else if k < 36 {
      UpperEntries(k - 10);
    } else if 37 <= k {
      LowerEntries(k - 37);
    }
  }

  lemma DigitEntries(k: int)
    requires 0 <= k < 10
    ensures Codes("0123456789")[k] == 0x30 + k
  {
    assert k == 0 || k == 1 || k == 2 || k == 3 || k == 4 || k == 5 || k == 6 || k == 7 || k == 8 || k == 9;
  }

  lemma UpperEntries(k: int)
    requires 0 <= k < 26
    ensures Codes("ABCDEFGHIJKLMNOPQRSTUVWXYZ")[k] == 0x41 + k
  {
    assert k == 0 || k == 1 || k == 2 || k == 3 || k == 4 || k == 5 || k == 6 || k == 7 || k == 8 || k == 9
      || k == 10 || k == 11 || k == 12 || k == 13 || k == 14 || k == 15 || k == 16 || k == 17 || k == 18 || k == 19
      || k == 20 || k == 21 || k == 22 || k == 23 || k == 24 || k == 25;
  }

  lemma LowerEntries(k: int)
    requires 0 <= k < 26
    ensures Codes("abcdefghijklmnopqrstuvwxyz")[k] == 0x61 + k
  {
    assert k == 0 || k == 1 || k == 2 || k == 3 || k == 4 || k == 5 || k == 6 || k == 7 || k == 8 || k == 9
      || k == 10 || k == 11 || k == 12 || k == 13 || k == 14 || k == 15 || k == 16 || k == 17 || k == 18 || k == 19
      || k == 20 || k == 21 || k == 22 || k == 23 || k == 24 || k == 25;
  }

  /** VALIDCOMMONCHARS is strictly increasing, so the binary search over it is sound. */
  lemma CommonTableSorted()
    ensures |CommonTable| == 63
    ensures StrictlySorted(CommonTable)
  {
    CommonTableEntries(0);
    forall i, j | 0 <= i < j < |CommonTable| ensures CommonTable[i] < CommonTable[j] {
      CommonTableEntries(i);
      CommonTableEntries(j);
    }
  }

  /** The common table holds exactly the ASCII digits, letters and '_'. */
  lemma CommonTableMembers(b: byte)
    ensures SignedChar(b) in CommonTable <==> IsWordByte(b)
  {
    CommonTableEntries(0);
    if IsWordByte(b) {
      var k := if b <= 0x39 then b - 0x30 else if b <= 0x5A then b - 0x41 + 10 else if b == 0x5F then 36 else b - 0x61 + 37;
      CommonTableEntries(k);
      assert CommonTable[k] == SignedChar(b);
    }
    if SignedChar(b) in CommonTable {
      var k :| 0 <= k < |CommonTable| && CommonTable[k] == SignedChar(b);
      CommonTableEntries(k);
    }
  }

  lemma ValueTableEntries(k: int)
    requires 0 < k < 31
    ensures |ValueTable| == 31 && |ValuePunctuation| == 30
    ensures ValueTable[0] == AcuteAccent
    ensures ValueTable[k - 1] < ValueTable[k]
    ensures ValueTable[k] == ValuePunctuation[k - 1]
    ensures 0x21 <= ValueTable[k] <= 0x7E
  {
    assert k == 1 || k == 2 || k == 3 || k == 4 || k == 5 || k == 6 || k == 7 || k == 8 || k == 9
      || k == 10 || k == 11 || k == 12 || k == 13 || k == 14 || k == 15 || k == 16 || k == 17 || k == 18 || k == 19
      || k == 20 || k == 21 || k == 22 || k == 23 || k == 24 || k == 25 || k == 26 || k == 27 || k == 28 || k == 29
      || k == 30;
  }

  /** A table whose neighbours increase is strictly sorted. */
  lemma {:induction false} AdjacentSorted(t: seq<int>)
    requires forall k :: 0 < k < |t| ==> t[k - 1] < t[k]
    ensures StrictlySorted(t)
  {
    if |t| > 1 {
      AdjacentSorted(t[..|t| - 1]);
      forall i | 0 <= i < |t| - 1 ensures t[i] < t[|t| - 1] {
        assert t[..|t| - 1][i] == t[i];
        if i < |t| - 2 {
          assert t[..|t| - 1][|t| - 2] == t[|t| - 2];
        }
      }
    }
  }

  lemma ValueTableSorted()
    ensures |ValueTable| == 31
    ensures StrictlySorted(ValueTable)
  {
    ValueTableEntries(1);
    forall k | 0 < k < |ValueTable| ensures ValueTable[k - 1] < ValueTable[k] {
      ValueTableEntries(k);
    }
    AdjacentSorted(ValueTable);
  }

  /** The sorted value table holds the accent byte and the 30 punctuation bytes. */
  lemma ValueTableMembers(b: byte)
    ensures SignedChar(b) in ValueTable <==> b == 0xB4 || b in ValuePunctuation
  {
    ValueTableEntries(1);
    if b in ValuePunctuation {
      var k :| 0 <= k < |ValuePunctuation| && ValuePunctuation[k] == b;
      ValueTableEntries(k + 1);
    }
    if SignedChar(b) in ValueTable {
      var k :| 0 <= k < |ValueTable| && ValueTable[k] == SignedChar(b);
      if k > 0 {
        ValueTableEntries(k);
      }
    }
  }

  /** `CF_FindCommonChar` (and `CF_IsSectionChar`, `CF_IsKeyChar`): ASCII digits, letters and '_'. */
  function IsCommonChar(b: byte): (r: bool)
    ensures r <==> IsWordByte(b)
  {
    CommonTableSorted();
    CommonTableMembers(b);
    Search(CommonTable, SignedChar(b), 0, |CommonTable| - 1)
  }

  /** `CF_FindValueChar` over the sorted value table. */
  function IsValueExtraChar(b: byte): (r: bool)
    ensures r <==> b == 0xB4 || b in ValuePunctuation
  {
    ValueTableSorted();
    ValueTableMembers(b);
    Search(ValueTable, SignedChar(b), 0, |ValueTable| - 1)
  }

  /** `CF_IsValueChar`: a common byte or a value-table byte. */
  function IsValueChar(b: byte): (r: bool)
    ensures r <==> IsWordByte(b) || b == 0xB4 || b in ValuePunctuation
  {
    IsCommonChar(b) || IsValueExtraChar(b)
  }

  /**
   `CF_FindCommonChar('.')` as written probes index 127 of a 63-entry table:
   every byte below '0', among them most value punctuation, does so.
   */
  lemma CommonSearchWrapsBelowZero(b: byte)
    requires SignedChar(b) < 0x30
    ensures SearchAsWritten(CommonTable, SignedChar(b), 0, 62) == OutOfBounds(127)
  {
    CommonTableSorted();
    CommonTableEntries(0);
    AsWrittenWrapsExactlyBelowFirst(CommonTable, SignedChar(b), 62);
  }

  /** The as-written classifier reads out of bounds on the '.' of a value such as `1.5`. */
  lemma CommonSearchWrapsOnDot()
    ensures SearchAsWritten(CommonTable, SignedChar(0x2E), 0, 62) == OutOfBounds(127)
  {
    CommonSearchWrapsBelowZero(0x2E);
  }

  /**
   `CF_FindValueChar(')')` over the table as listed: the probes go ':' (15),
   '(' (7), the accent (11), '.' (13) and '-' (12) and stop, so ')' is not found
   although it is entry 8. The same happens to '*' and '+'.
   */
  lemma ListedValueTableMissesParen()
    ensures |ListedValueTable| == 32
    ensures ListedValueTable[8] == 0x29
    ensures SearchAsWritten(ListedValueTable, 0x29, 0, 31) == NotFound
    ensures !Search(ListedValueTable, 0x29, 0, 31)
    ensures IsValueExtraChar(0x29)
  {
    ListedProbes();
    ListedAsWrittenProbes();
    ListedSearchProbes();
    ParenIsValueExtra();
  }

  lemma ParenIsValueExtra()
    ensures IsValueExtraChar(0x29)
  {
    assert ValuePunctuation[8] == 0x29;
  }

  /** The entries the search for ')' probes in the table as listed. */
  lemma ListedProbes()
    ensures |ListedValueTable| == 32
    ensures var t := ListedValueTable;
      t[8] == 0x29 && t[15] == 0x3A && t[7] == 0x28 && t[11] == AcuteAccent && t[13] == 0x2E && t[12] == 0x2D
  {
  }

  lemma ListedAsWrittenProbes()
    ensures SearchAsWritten(ListedValueTable, 0x29, 0, 31) == NotFound
  {
    ListedProbes();
    var t := ListedValueTable;
    assert SearchAsWritten(t, 0x29, 12, 12) == NotFound;
    assert SearchAsWritten(t, 0x29, 12, 14) == NotFound;
    assert SearchAsWritten(t, 0x29, 8, 14) == NotFound;
    assert SearchAsWritten(t, 0x29, 0, 14) == NotFound;
  }

  lemma ListedSearchProbes()
    ensures !Search(ListedValueTable, 0x29, 0, 31)
  {
    ListedProbes();
    var t := ListedValueTable;
    assert !Search(t, 0x29, 12, 11);
    assert !Search(t, 0x29, 12, 12);
    assert !Search(t, 0x29, 12, 14);
    assert !Search(t, 0x29, 8, 14);
    assert !Search(t, 0x29, 0, 14);
  }
}

=== FILE: document.dfy ===
/**
 The document the scanner builds: sections with their key-value pairs,
 top-level comments, and the index that records, in file order, every item
 completed together with the line it was completed on.

 The C code threads these as linked lists (`section_t`, `keyvalue_t`,
 `comment_t`, `index_t`); here they are sequences and an index entry refers to
 its item by position. The three append operations are the only way the
 scanner changes a document, and each adds exactly one item and exactly one
 index entry.
 */
module Document {
  import opened Bytes

  datatype KeyValue = KeyValue(key: seq<byte>, value: seq<byte>)

  datatype Section = Section(name: seq<byte>, pairs: seq<KeyValue>)

  /** What an index entry points at (`IDXSECTION`, `IDXKEY`, `IDXCOMMENT` and the `data` pointer). */
  datatype Ref =
    | SectionRef(section: nat)
    | PairRef(section: nat, pair: nat)
    | CommentRef(comment: nat)

  datatype IndexEntry = IndexEntry(line: int, ref: Ref)

  /** `config_t` without its file handle and file name. */
  datatype Config = Config(sections: seq<Section>, comments: seq<seq<byte>>, index: seq<IndexEntry>)

  const EmptyConfig: Config := Config([], [], [])

  predicate ValidRef(c: Config, r: Ref)
  {
    match r
    case SectionRef(s) => s < |c.sections|
    case PairRef(s, k) => s < |c.sections| && k < |c.sections[s].pairs|
    case CommentRef(m) => m < |c.comments|
  }

  /** Number of key-value pairs over all sections. */
  function TotalPairs(secs: seq<Section>): nat
  {
    if |secs| == 0 then 0 else TotalPairs(secs[..|secs| - 1]) + |secs[|secs| - 1].pairs|
  }

  function ItemCount(c: Config): nat
  {
    |c.sections| + TotalPairs(c.sections) + |c.comments|
  }

  /**
   `r1` was appended before `r2`: sections, comments and the pairs of one
   section in creation order, a section before its own pairs, and the pairs
   of a section before any later section.
   */
  predicate Before(r1: Ref, r2: Ref)
  {
    match (r1, r2)
    case (SectionRef(a), SectionRef(b)) => a < b
    case (SectionRef(a), PairRef(b, _)) => a <= b
    case (PairRef(a, _), SectionRef(b)) => a < b
    case (PairRef(a, k), PairRef(b, l)) => a < b || (a == b && k < l)
    case (CommentRef(a), CommentRef(b)) => a < b
    case _ => true
  }

  /**
   The index invariant: every entry points at an existing item, entries are
   in append order (so no item is listed twice), their line numbers never
   decrease and do not exceed the scanner's current line, and there are as
   many entries as items.
   */
  predicate IndexSound(c: Config, line: int)
  {
    && (forall i :: 0 <= i < |c.index| ==> ValidRef(c, c.index[i].ref) && c.index[i].line <= line)
    && (forall i, j :: 0 <= i < j < |c.index| ==>
          c.index[i].line <= c.index[j].line && Before(c.index[i].ref, c.index[j].ref))
    && |c.index| == ItemCount(c)
  }

  predicate IsPrefix<T(==)>(a: seq<T>, b: seq<T>)
  {
    |a| <= |b| && b[..|a|] == a
  }

  /** `b` is `a` with items appended only: nothing removed, renamed or reordered. */
  predicate Extends(a: Config, b: Config)
  {
    && |a.sections| <= |b.sections|
    && (forall s :: 0 <= s < |a.sections| ==>
          b.sections[s].name == a.sections[s].name && IsPrefix(a.sections[s].pairs, b.sections[s].pairs))
    && IsPrefix(a.comments, b.comments)
    && IsPrefix(a.index, b.index)
  }

  lemma ExtendsTransitive(a: Config, b: Config, c: Config)
    requires Extends(a, b) && Extends(b, c)
    ensures Extends(a, c)
  {
    forall s | 0 <= s < |a.sections|
      ensures c.sections[s].name == a.sections[s].name && IsPrefix(a.sections[s].pairs, c.sections[s].pairs)
    {
      var p := a.sections[s].pairs;
      assert b.sections[s].pairs[..|p|] == p;
      assert c.sections[s].pairs[..|b.sections[s].pairs|] == b.sections[s].pairs;
      assert c.sections[s].pairs[..|p|] == b.sections[s].pairs[..|p|];
    }
    assert c.comments[..|b.comments|][..|a.comments|] == c.comments[..|a.comments|];
    assert c.index[..|b.index|][..|a.index|] == c.index[..|a.index|];
  }

  lemma IndexSoundLater(c: Config, line: int, line': int)
    requires IndexSound(c, line) && line <= line'
    ensures IndexSound(c, line')
  {
  }

  lemma TotalPairsAppend(secs: seq<Section>, s: Section)
    ensures TotalPairs(secs + [s]) == TotalPairs(secs) + |s.pairs|
  {
    assert (secs + [s])[..|secs|] == secs;
  }

  lemma TotalPairsGrowLast(secs: seq<Section>, s: Section)
    requires |secs| > 0 && |s.pairs| == |secs[|secs| - 1].pairs| + 1
    ensures TotalPairs(secs[|secs| - 1 := s]) == TotalPairs(secs) + 1
  {
    var n := |secs| - 1;
    assert secs[n := s][..n] == secs[..n];
  }

  /** `CF_AddSection` followed by `CF_AddIndexEntry(..., IDXSECTION)`. */
  function AddSection(c: Config, name: seq<byte>, line: int): Config
  {
    Config(c.sections + [Section(name, [])], c.comments, c.index + [IndexEntry(line, SectionRef(|c.sections|))])
  }

  /** `CF_AddKeyValue` on the current (last) section followed by `CF_AddIndexEntry(..., IDXKEY)`. */
  function AddPair(c: Config, kv: KeyValue, line: int): Config
    requires |c.sections| > 0
  {
    var s := |c.sections| - 1;
    Config(c.sections[s := c.sections[s].(pairs := c.sections[s].pairs + [kv])],
           c.comments,
           c.index + [IndexEntry(line, PairRef(s, |c.sections[s].pairs|))])
  }

  /** `CF_AddComment` followed by `CF_AddIndexEntry(..., IDXCOMMENT)`. */
  function AddComment(c: Config, text: seq<byte>, line: int): Config
  {
    Config(c.sections, c.comments + [text], c.index + [IndexEntry(line, CommentRef(|c.comments|))])
  }

  /**
   Adding a section appends one item and one index entry pointing at it, and
   keeps the index sound on the line it is recorded on.
   */
  lemma AddSectionKeepsIndex(c: Config, name: seq<byte>, line: int)
    ensures var r := AddSection(c, name, line);
      && Extends(c, r)
      && ItemCount(r) == ItemCount(c) + 1
      && r.index[|c.index|] == IndexEntry(line, SectionRef(|c.sections|))
      && r.sections[|c.sections|] == Section(name, [])
      && (IndexSound(c, line) ==> IndexSound(r, line))
  {
    var r := AddSection(c, name, line);
    TotalPairsAppend(c.sections, Section(name, []));
    assert r.index[..|c.index|] == c.index;
    assert r.comments[..|c.comments|] == c.comments;
    assert r.sections[..|c.sections|] == c.sections;
    forall s | 0 <= s < |c.sections| ensures IsPrefix(c.sections[s].pairs, r.sections[s].pairs) {
      assert r.sections[s].pairs[..|c.sections[s].pairs|] == c.sections[s].pairs;
    }
  }

  /**
   Adding a pair appends it to the last section only, with one index entry
   pointing at it, and keeps the index sound.
   */
  lemma AddPairKeepsIndex(c: Config, kv: KeyValue, line: int)
    requires |c.sections| > 0
    ensures var r := AddPair(c, kv, line); var s := |c.sections| - 1;
      && Extends(c, r)
      && ItemCount(r) == ItemCount(c) + 1
      && r.index[|c.index|] == IndexEntry(line, PairRef(s, |c.sections[s].pairs|))
      && r.sections[s].pairs == c.sections[s].pairs + [kv]
      && (forall t :: 0 <= t < s ==> r.sections[t] == c.sections[t])
      && (IndexSound(c, line) ==> IndexSound(r, line))
  {
    var r := AddPair(c, kv, line);
    var s := |c.sections| - 1;
    TotalPairsGrowLast(c.sections, r.sections[s]);
    assert r.index[..|c.index|] == c.index;
    assert r.comments[..|c.comments|] == c.comments;
    assert r.sections[s].pairs[..|c.sections[s].pairs|] == c.sections[s].pairs;
    forall t | 0 <= t < s ensures IsPrefix(c.sections[t].pairs, r.sections[t].pairs) {
      assert r.sections[t].pairs[..|c.sections[t].pairs|] == c.sections[t].pairs;
    }
  }

  /** Adding a comment appends it and one index entry pointing at it, and keeps the index sound. */
  lemma AddCommentKeepsIndex(c: Config, text: seq<byte>, line: int)
    ensures var r := AddComment(c, text, line);
      && Extends(c, r)
      && ItemCount(r) == ItemCount(c) + 1
      && r.index[|c.index|] == IndexEntry(line, CommentRef(|c.comments|))
      && r.comments == c.comments + [text]
      && (IndexSound(c, line) ==> IndexSound(r, line))
  {
    var r := AddComment(c, text, line);
    assert r.index[..|c.index|] == c.index;
    assert r.comments[..|c.comments|] == c.comments;
    forall s | 0 <= s < |c.sections| ensures IsPrefix(c.sections[s].pairs, r.sections[s].pairs) {
      assert r.sections[s].pairs[..|c.sections[s].pairs|] == c.sections[s].pairs;
    }
  }

  /** `b` is `a` with one new, empty section named by its last section's name. */
  predicate SectionAdded(a: Config, b: Config, line: int)
  {
    |b.sections| == |a.sections| + 1 && b == AddSection(a, b.sections[|a.sections|].name, line)
  }

  /** `b` is `a` with one new pair, the last pair of its last section, appended to that section. */
  predicate PairAdded(a: Config, b: Config, line: int)
  {
    && |a.sections| > 0 && |b.sections| == |a.sections|
    && |b.sections[|a.sections| - 1].pairs| > 0
    && b == AddPair(a, Last(b.sections[|a.sections| - 1].pairs), line)
  }

  /** `b` is `a` with one new comment, its last one. */
  predicate CommentAdded(a: Config, b: Config, line: int)
  {
    |b.comments| > 0 && b == AddComment(a, Last(b.comments), line)
  }

  /** What one byte of input may do to the document: nothing, or one append on `line`. */
  predicate DocStep(a: Config, b: Config, line: int)
  {
    b == a || SectionAdded(a, b, line) || PairAdded(a, b, line) || CommentAdded(a, b, line)
  }

  /** The three appends and "no change" are told apart by their effect. */
  lemma NoChangeEffect(a: Config, line: int)
    ensures DocStep(a, a, line)
    ensures !SectionAdded(a, a, line) && !PairAdded(a, a, line) && !CommentAdded(a, a, line)
  {
    if |a.sections| > 0 && |a.sections[|a.sections| - 1].pairs| > 0 {
      assert |AddPair(a, Last(a.sections[|a.sections| - 1].pairs), line).index| == |a.index| + 1;
    }
    if |a.comments| > 0 {
      assert |AddComment(a, Last(a.comments), line).index| == |a.index| + 1;
    }
  }

  lemma AddSectionEffect(a: Config, name: seq<byte>, line: int)
    ensures var b := AddSection(a, name, line);
      DocStep(a, b, line) && SectionAdded(a, b, line) && !PairAdded(a, b, line) && !CommentAdded(a, b, line)
  {
  }

  lemma AddPairEffect(a: Config, kv: KeyValue, line: int)
    requires |a.sections| > 0
    ensures var b := AddPair(a, kv, line);
      DocStep(a, b, line) && PairAdded(a, b, line) && !SectionAdded(a, b, line) && !CommentAdded(a, b, line)
  {
    var b := AddPair(a, kv, line);
    assert Last(b.sections[|a.sections| - 1].pairs) == kv;
    if |b.comments| > 0 {
      assert |AddComment(a, Last(b.comments), line).comments| == |a.comments| + 1;
    }
  }

  lemma AddCommentEffect(a: Config, text: seq<byte>, line: int)
    ensures var b := AddComment(a, text, line);
      DocStep(a, b, line) && CommentAdded(a, b, line) && !SectionAdded(a, b, line) && !PairAdded(a, b, line)
  {
    var b := AddComment(a, text, line);
    assert Last(b.comments) == text;
    if |a.sections| > 0 && |b.sections[|a.sections| - 1].pairs| > 0 {
      var p := AddPair(a, Last(b.sections[|a.sections| - 1].pairs), line);
      assert |p.sections[|a.sections| - 1].pairs| == |a.sections[|a.sections| - 1].pairs| + 1;
    }
  }

  function Last<T>(s: seq<T>): T
    requires |s| > 0
  {
    s[|s| - 1]
  }

  lemma ExtendsReflexive(a: Config)
    ensures Extends(a, a)
  {
    assert a.comments[..|a.comments|] == a.comments;
    assert a.index[..|a.index|] == a.index;
    forall s | 0 <= s < |a.sections| ensures IsPrefix(a.sections[s].pairs, a.sections[s].pairs) {
      assert a.sections[s].pairs[..|a.sections[s].pairs|] == a.sections[s].pairs;
    }
  }

  lemma DocStepExtends(a: Config, b: Config, line: int)
    requires DocStep(a, b, line)
    ensures Extends(a, b)
    ensures |b.index| <= |a.index| + 1
  {
    if b == a {
      ExtendsReflexive(a);
    } else if SectionAdded(a, b, line) {
      AddSectionKeepsIndex(a, b.sections[|a.sections|].name, line);
    } else if PairAdded(a, b, line) {
      AddPairKeepsIndex(a, Last(b.sections[|a.sections| - 1].pairs), line);
    } else {
      AddCommentKeepsIndex(a, Last(b.comments), line);
    }
  }

  lemma DocStepKeepsIndexSound(a: Config, b: Config, line: int)
    requires DocStep(a, b, line) && IndexSound(a, line)
    ensures IndexSound(b, line)
  {
    if b == a {
    } else if SectionAdded(a, b, line) {
      AddSectionKeepsIndex(a, b.sections[|a.sections|].name, line);
    } else if PairAdded(a, b, line) {
      AddPairKeepsIndex(a, Last(b.sections[|a.sections| - 1].pairs), line);
    } else {
      AddCommentKeepsIndex(a, Last(b.comments), line);
    }
  }
}

=== FILE: encoding.dfy ===
/**
 The Unicode helpers of the encoding library: byte swaps, UTF-16 encoding
 and decoding of UCS-4 characters (section 2 of RFC 2781), byte-order-mark
 detection, and the UTF-8 length classes of section 2 of RFC 2279.

 Words and characters are the unsigned values of their C types. The masks
 and shifts of the C code select disjoint bit fields, so they are written
 here as division, remainder and multiplication by powers of two, and `|`
 of disjoint fields as addition. Integers rather than `bv16`/`bv32` keep
 every round trip below in integer arithmetic, where the solver splits and
 joins these fields directly instead of reasoning bit by bit.

 An `ENCSTREAM` is a buffer, a position in it and an end-of-buffer flag;
 the buffer's `size` is the length of the sequence. Words that the C code
 moves with `memcpy` are laid out in the byte order of the machine, which
 is the `bigEndian` parameter.
 */
module Encoding {
  import opened Bytes

  /** `WORD`, an `unsigned short`. */
  type Word = x: int | 0 <= x < 0x1_0000

  /** `UCS4`, an `unsigned int`. */
  type UCS4 = x: int | 0 <= x < 0x1_0000_0000

  /** `EN_SwapBytesW`: the low byte moves up, the high byte down. */
  function SwapBytesW(w: Word): (r: Word)
    ensures r % 0x100 == w / 0x100 && r / 0x100 == w % 0x100
  {
    (w % 0x100) * 0x100 + w / 0x100
  }

  lemma SwapBytesWInvolution(w: Word)
    ensures SwapBytesW(SwapBytesW(w)) == w
  {
  }

  /** Byte `k` of `c`, counting from the least significant. */
  function ByteOf(c: UCS4, k: nat): byte
    requires k < 4
  {
    match k
    case 0 => c % 0x100
    case 1 => c / 0x100 % 0x100
    case 2 => c / 0x100 / 0x100 % 0x100
    case _ => c / 0x100 / 0x100 / 0x100
  }

  /** The character whose bytes, from the least significant, are `b0` to `b3`. */
  function FromBytes(b0: byte, b1: byte, b2: byte, b3: byte): UCS4
  {
    b0 + 0x100 * (b1 + 0x100 * (b2 + 0x100 * b3))
  }

  lemma DivMod256(a: int, q: nat)
    requires 0 <= a < 0x100
    ensures (a + 0x100 * q) / 0x100 == q && (a + 0x100 * q) % 0x100 == a
  {
  }

  lemma BytesOfFromBytes(b0: byte, b1: byte, b2: byte, b3: byte)
    ensures var c := FromBytes(b0, b1, b2, b3);
      ByteOf(c, 0) == b0 && ByteOf(c, 1) == b1 && ByteOf(c, 2) == b2 && ByteOf(c, 3) == b3
  {
    DivMod256(b2, b3);
    DivMod256(b1, b2 + 0x100 * b3);
    DivMod256(b0, b1 + 0x100 * (b2 + 0x100 * b3));
  }

  lemma FromBytesOfBytes(c: UCS4)
    ensures FromBytes(ByteOf(c, 0), ByteOf(c, 1), ByteOf(c, 2), ByteOf(c, 3)) == c
  {
    var q1 := c / 0x100;
    var q2 := q1 / 0x100;
    var q3 := q2 / 0x100;
    assert c == c % 0x100 + 0x100 * q1;
    assert q1 == q1 % 0x100 + 0x100 * q2;
    assert q2 == q2 % 0x100 + 0x100 * q3;
  }

  /** `EN_SwapUCS4Bytes`: the four bytes in reverse order. */
  function SwapUCS4Bytes(c: UCS4): (r: UCS4)
    ensures ByteOf(r, 0) == ByteOf(c, 3) && ByteOf(r, 1) == ByteOf(c, 2)
    ensures ByteOf(r, 2) == ByteOf(c, 1) && ByteOf(r, 3) == ByteOf(c, 0)
  {
    BytesOfFromBytes(ByteOf(c, 3), ByteOf(c, 2), ByteOf(c, 1), ByteOf(c, 0));
    FromBytes(ByteOf(c, 3), ByteOf(c, 2), ByteOf(c, 1), ByteOf(c, 0))
  }

  lemma SwapUCS4BytesInvolution(c: UCS4)
    ensures SwapUCS4Bytes(SwapUCS4Bytes(c)) == c
  {
    FromBytesOfBytes(c);
  }

  /** `struct ENCSTREAM`; `size` is `|buffer|`. */
  datatype Stream = Stream(buffer: seq<byte>, index: nat, eob: bool)

  /** The position lies within the buffer, so `size - index` does not wrap. */
  predicate Valid(s: Stream)
  {
    s.index <= |s.buffer|
  }

  function Free(s: Stream): nat
    requires Valid(s)
  {
    |s.buffer| - s.index
  }

  function Hi(w: Word): byte
  {
    w / 0x100
  }

  function Lo(w: Word): byte
  {
    w % 0x100
  }

  /** The two bytes `memcpy` stores for a word. */
  function WordBytes(w: Word, bigEndian: bool): (r: seq<byte>)
    ensures |r| == 2
  {
    if bigEndian then [Hi(w), Lo(w)] else [Lo(w), Hi(w)]
  }

  /** The word `memcpy` loads from `buf[i]` and `buf[i + 1]`. */
  function ReadWord(buf: seq<byte>, i: nat, bigEndian: bool): Word
    requires i + 2 <= |buf|
  {
    if bigEndian then buf[i] as int * 0x100 + buf[i + 1] else buf[i + 1] as int * 0x100 + buf[i]
  }

  lemma ReadWordBytes(w: Word, bigEndian: bool)
    ensures ReadWord(WordBytes(w, bigEndian), 0, bigEndian) == w
  {
  }

  /** `s` with `bytes` stored at its position and the position moved past them. */
  function Put(s: Stream, bytes: seq<byte>): (r: Stream)
    requires Valid(s) && |bytes| <= Free(s)
    ensures Valid(r) && r.index == s.index + |bytes| && |r.buffer| == |s.buffer| && r.eob == s.eob
    ensures r.buffer[s.index..r.index] == bytes
    ensures forall k :: 0 <= k < |s.buffer| && !(s.index <= k < r.index) ==> r.buffer[k] == s.buffer[k]
  {
    s.(buffer := s.buffer[..s.index] + bytes + s.buffer[s.index + |bytes|..], index := s.index + |bytes|)
  }

  predicate IsSurrogate(c: UCS4)
  {
    0xD800 <= c <= 0xDFFF
  }

  /** The first word of a surrogate pair. */
  predicate IsHighSurrogate(w: Word)
  {
    0xD800 <= w <= 0xDBFF
  }

  /** The second word of a surrogate pair. */
  predicate IsLowSurrogate(w: Word)
  {
    0xDC00 <= w <= 0xDFFF
  }

  /** A character `EN_UCS4ToUTF16` accepts. */
  predicate Encodable(c: UCS4)
  {
    c <= 0x10FFFF && !IsSurrogate(c)
  }

  /** The result of an encoder: TRUE or FALSE, and the stream afterwards. */
  datatype Coded = Coded(ok: bool, stream: Stream)

  /** The first word of the pair for `c`: `0xD800` with the high ten bits of `c - 0x10000`. */
  function HighSurrogate(c: UCS4): (w: Word)
    requires 0x10000 <= c <= 0x10FFFF
    ensures IsHighSurrogate(w)
  {
    0xD800 + (c - 0x10000) / 0x400
  }

  /** The second word of the pair for `c`: `0xDC00` with the low ten bits of `c - 0x10000`. */
  function LowSurrogate(c: UCS4): (w: Word)
    requires 0x10000 <= c <= 0x10FFFF
    ensures IsLowSurrogate(w)
  {
    0xDC00 + (c - 0x10000) % 0x400
  }

  /**
   The bytes `EN_UCS4ToUTF16` stores for an encodable character: a BMP
   character as two bytes, high byte first; any other as its two surrogate
   words in machine order.
   */
  function UTF16Bytes(c: UCS4, bigEndian: bool): (r: seq<byte>)
    requires Encodable(c)
    ensures |r| == if c < 0x10000 then 2 else 4
  {
    if c < 0x00010000 then [c / 0x100 % 0x100, c % 0x100]
    else WordBytes(HighSurrogate(c), bigEndian) + WordBytes(LowSurrogate(c), bigEndian)
  }

  /**
   `EN_UCS4ToUTF16`. A character beyond `0x10FFFF` or in the surrogate range
   is refused with the stream untouched; otherwise its bytes are stored at
   the position, or, without room for them, the end-of-buffer flag is set.
   */
  function UCS4ToUTF16(c: UCS4, s: Stream, bigEndian: bool): (r: Coded)
    requires Valid(s)
    ensures !Encodable(c) ==> r == Coded(false, s)
    ensures Encodable(c) && Free(s) < |UTF16Bytes(c, bigEndian)| ==> r == Coded(false, s.(eob := true))
    ensures Encodable(c) && Free(s) >= |UTF16Bytes(c, bigEndian)| ==> r == Coded(true, Put(s, UTF16Bytes(c, bigEndian)))
  {
    if c > 0x0010FFFF then Coded(false, s)
    else if 0xD800 <= c <= 0xDFFF then Coded(false, s)
    else if c < 0x00010000 then
      if Free(s) < 2 then Coded(false, s.(eob := true)) else Coded(true, Put(s, UTF16Bytes(c, bigEndian)))
    else if Free(s) < 4 then Coded(false, s.(eob := true))
    else Coded(true, Put(s, UTF16Bytes(c, bigEndian)))
  }

  /** The result of the decoder: TRUE or FALSE, the character output, and the stream afterwards. */
  datatype Decoded = Decoded(ok: bool, c: UCS4, stream: Stream)

  /** The character a surrogate pair stands for: ten bits from each word, plus `0x10000`. */
  function Combine(w1: Word, w2: Word): (c: UCS4)
    ensures 0x10000 <= c <= 0x10FFFF
  {
    (w1 % 0x400) * 0x400 + w2 % 0x400 + 0x00010000
  }

  /** The word at the stream position plus `offset`, byte-swapped when `swap` is applied. */
  function WordAt(s: Stream, offset: nat, swap: bool, bigEndian: bool): Word
    requires s.index + offset + 2 <= |s.buffer|
  {
    var w := ReadWord(s.buffer, s.index + offset, bigEndian);
    if swap then SwapBytesW(w) else w
  }

  /**
   The steps of `EN_UTF16ToUCS4`, with the words byte-swapped exactly when
   `swap` is true. `c` is the character variable before the call: it is
   cleared once two bytes are available.
   */
  function Decode16(s: Stream, swap: bool, bigEndian: bool, c: UCS4): (r: Decoded)
    requires Valid(s)
  {
    if Free(s) < 2 then Decoded(false, c, s.(eob := true))
    else
      var w1 := WordAt(s, 0, swap, bigEndian);
      if w1 < 0xD800 || w1 > 0xDFFF then Decoded(true, w1, s.(index := s.index + 2))
      else if w1 > 0xDBFF then Decoded(false, 0, s)
      else if Free(s) < 4 then Decoded(false, 0, s.(eob := true))
      else
        var w2 := WordAt(s, 2, swap, bigEndian);
        if w2 < 0xDC00 || w2 > 0xDFFF then Decoded(false, 0, s)
        else Decoded(true, Combine(w1, w2), s.(index := s.index + 4))
  }

  /**
   `EN_UTF16ToUCS4` as written: the values returned by `EN_SwapBytesW` are
   discarded, so the words are used as loaded whatever `swap` says.
   */
  function UTF16ToUCS4AsWritten(s: Stream, swap: bool, bigEndian: bool, c: UCS4): (r: Decoded)
    requires Valid(s)
    ensures r == UTF16ToUCS4(s, false, bigEndian, c)
  {
    Decode16(s, false, bigEndian, c)
  }

  /**
   `EN_UTF16ToUCS4` with the swapped words kept, as the `swap` flag promises
   (section 2.2 of RFC 2781). A word outside the surrogate range is the
   character; a high surrogate followed by a low one is a pair; anything
   else fails with the position unchanged. Without the bytes needed the
   end-of-buffer flag is set.
   */
  function UTF16ToUCS4(s: Stream, swap: bool, bigEndian: bool, c: UCS4): (r: Decoded)
    requires Valid(s)
    ensures Free(s) < 2 ==> r == Decoded(false, c, s.(eob := true))
    ensures Free(s) >= 2 && !IsSurrogate(WordAt(s, 0, swap, bigEndian)) ==>
      r == Decoded(true, WordAt(s, 0, swap, bigEndian), s.(index := s.index + 2))
    ensures Free(s) >= 2 && IsLowSurrogate(WordAt(s, 0, swap, bigEndian)) ==> r == Decoded(false, 0, s)
    ensures 2 <= Free(s) < 4 && IsHighSurrogate(WordAt(s, 0, swap, bigEndian)) ==> r == Decoded(false, 0, s.(eob := true))
    ensures Free(s) >= 4 && IsHighSurrogate(WordAt(s, 0, swap, bigEndian)) ==>
      r == if IsLowSurrogate(WordAt(s, 2, swap, bigEndian))
           then Decoded(true, Combine(WordAt(s, 0, swap, bigEndian), WordAt(s, 2, swap, bigEndian)), s.(index := s.index + 4))
           else Decoded(false, 0, s)
    ensures r.ok ==> Encodable(r.c)
  {
    Decode16(s, swap, bigEndian, c)
  }

  /** The surrogate pair of any character beyond the BMP combines back to it. */
  lemma PairRoundTrip(c: UCS4)
    requires 0x10000 <= c <= 0x10FFFF
    ensures Combine(HighSurrogate(c), LowSurrogate(c)) == c
  {
    var u := c - 0x10000;
    assert HighSurrogate(c) % 0x400 == u / 0x400;
    assert LowSurrogate(c) % 0x400 == u % 0x400;
  }

  /** A pair decodes to a character beyond the BMP whose pair it is. */
  lemma CombineRoundTrip(w1: Word, w2: Word)
    requires IsHighSurrogate(w1) && IsLowSurrogate(w2)
    ensures var c := Combine(w1, w2); HighSurrogate(c) == w1 && LowSurrogate(c) == w2
  {
  }

  /** The bytes at the stream position read back as the word they were stored from. */
  lemma WordAtBytes(s: Stream, offset: nat, w: Word, bigEndian: bool)
    requires s.index + offset + 2 <= |s.buffer|
    requires s.buffer[s.index + offset..s.index + offset + 2] == WordBytes(w, bigEndian)
    ensures WordAt(s, offset, false, bigEndian) == w
  {
    var b := WordBytes(w, bigEndian);
    assert s.buffer[s.index + offset] == b[0] && s.buffer[s.index + offset + 1] == b[1] by {
      assert s.buffer[s.index + offset..s.index + offset + 2][0] == s.buffer[s.index + offset];
      assert s.buffer[s.index + offset..s.index + offset + 2][1] == s.buffer[s.index + offset + 1];
    }
    ReadWordBytes(w, bigEndian);
  }

  /** The stream an encoder call leaves, moved back to where the call started. */
  function Rewound(c: UCS4, s: Stream, bigEndian: bool): (back: Stream)
    requires Valid(s)
    ensures Valid(back)
  {
    var e := UCS4ToUTF16(c, s, bigEndian).stream;
    e.(index := s.index)
  }

  /**
   A character beyond the BMP, encoded and then decoded from the same
   position on the same machine without swapping, comes back with the
   stream just past the pair.
   */
  lemma SupplementaryRoundTrip(c: UCS4, s: Stream, bigEndian: bool, c0: UCS4)
    requires Valid(s) && 0x10000 <= c <= 0x10FFFF && Free(s) >= 4
    ensures UTF16ToUCS4(Rewound(c, s, bigEndian), false, bigEndian, c0) == Decoded(true, c, UCS4ToUTF16(c, s, bigEndian).stream)
  {
    var w1, w2 := HighSurrogate(c), LowSurrogate(c);
    var bytes := WordBytes(w1, bigEndian) + WordBytes(w2, bigEndian);
    var e := Put(s, bytes);
    assert UCS4ToUTF16(c, s, bigEndian).stream == e;
    var back := e.(index := s.index);
    assert back.buffer[s.index..s.index + 2] == WordBytes(w1, bigEndian) by {
      assert e.buffer[s.index..s.index + 4][..2] == e.buffer[s.index..s.index + 2];
    }
    assert back.buffer[s.index + 2..s.index + 4] == WordBytes(w2, bigEndian) by {
      assert e.buffer[s.index..s.index + 4][2..] == e.buffer[s.index + 2..s.index + 4];
    }
    WordAtBytes(back, 0, w1, bigEndian);
    WordAtBytes(back, 2, w2, bigEndian);
    PairRoundTrip(c);
    assert back.(index := s.index + 4) == e;
  }

  /**
   A BMP character is stored high byte first. Read back on the same machine,
   with `swap` set exactly when the machine is little-endian, the corrected
   decoder returns it.
   */
  lemma BmpRoundTrip(c: UCS4, s: Stream, bigEndian: bool, c0: UCS4)
    requires Valid(s) && c < 0x10000 && !IsSurrogate(c) && Free(s) >= 2
    ensures UTF16ToUCS4(Rewound(c, s, bigEndian), !bigEndian, bigEndian, c0) == Decoded(true, c, UCS4ToUTF16(c, s, bigEndian).stream)
  {
    var e := Put(s, [Hi(c), Lo(c)]);
    assert UCS4ToUTF16(c, s, bigEndian).stream == e;
    var back := e.(index := s.index);
    assert back.buffer[s.index..s.index + 2] == [Hi(c), Lo(c)];
    if bigEndian {
      WordAtBytes(back, 0, c, true);
    } else {
      WordAtBytes(back, 0, SwapBytesW(c), false);
      SwapBytesWInvolution(c);
    }
    assert back.(index := s.index + 2) == e;
  }

  /** The as-written decoder returns the same whatever the `swap` flag. */
  lemma AsWrittenIgnoresSwap(s: Stream, bigEndian: bool, c: UCS4)
    requires Valid(s)
    ensures UTF16ToUCS4AsWritten(s, true, bigEndian, c) == UTF16ToUCS4AsWritten(s, false, bigEndian, c)
  {
  }

  /**
   On a little-endian machine, the bytes `00 41` (the character `A` as the
   encoder stores it) read with `swap` set: the decoder as written returns
   `0x4100`, the corrected one `0x41`.
   */
  lemma AsWrittenMisreadsSwappedStream()
    ensures var s := Stream([0x00, 0x41], 0, false);
      && UTF16ToUCS4AsWritten(s, true, false, 0).c == 0x4100
      && UTF16ToUCS4(s, true, false, 0).c == 0x41
  {
    var s := Stream([0x00, 0x41], 0, false);
    assert WordAt(s, 0, false, false) == 0x4100;
    assert WordAt(s, 0, true, false) == 0x41;
  }

  /** `enum ENCODING`. */
  datatype Encoding = Unknown | UTF8 | UTF16LE | UTF16BE | UCS4LE | UCS4BE | UCS4Uoo3412 | UCS4Uoo2143

  /** The byte-order mark each encoding starts with. */
  function Bom(e: Encoding): seq<byte>
  {
    match e
    case Unknown => []
    case UTF8 => [0xEF, 0xBB, 0xBF]
    case UTF16LE => [0xFF, 0xFE]
    case UTF16BE => [0xFE, 0xFF]
    case UCS4LE => [0xFF, 0xFE, 0x00, 0x00]
    case UCS4BE => [0x00, 0x00, 0xFE, 0xFF]
    case UCS4Uoo3412 => [0xFE, 0xFF, 0x00, 0x00]
    case UCS4Uoo2143 => [0x00, 0x00, 0xFF, 0xFE]
  }

  datatype Sniffed = Sniffed(encoding: Encoding, stream: Stream)

  /** The stream holds `bytes` at its position. */
  predicate StartsWith(s: Stream, bytes: seq<byte>)
  {
    s.index + |bytes| <= |s.buffer| && s.buffer[s.index..s.index + |bytes|] == bytes
  }

  /**
   The encoding the four bytes `w x y z` announce when they are not the
   UTF-8 mark: the two UCS-4 marks starting with zero bytes, then the
   little-endian and big-endian marks, where two zero bytes after `FF FE` or
   `FE FF` make it a UCS-4 mark.
   */
  function Classify(w: byte, x: byte, y: byte, z: byte): (e: Encoding)
    ensures e != UTF8
    ensures e != Unknown ==> [w, x, y, z][..|Bom(e)|] == Bom(e)
  {
    if w == 0x00 && x == 0x00 && y == 0xFF && z == 0xFE then UCS4Uoo2143
    else if w == 0x00 && x == 0x00 && y == 0xFE && z == 0xFF then UCS4BE
    else if w == 0xFF && x == 0xFE then
      if y == 0x00 && z == 0x00 then UCS4LE else UTF16LE
    else if w == 0xFE && x == 0xFF then
      if y == 0x00 && z == 0x00 then UCS4Uoo3412 else UTF16BE
    else Unknown
  }

  /**
   `EN_SearchEncoding`: recognises a byte-order mark at the stream position
   and moves past it. Three bytes are needed to look for the UTF-8 mark and
   four for any other, even a two-byte UTF-16 mark; with fewer the
   end-of-buffer flag is set.
   */
  function SearchEncoding(s: Stream): (r: Sniffed)
    requires Valid(s)
    ensures Valid(r.stream) && r.stream.buffer == s.buffer
    ensures r.encoding == Unknown ==> r.stream.index == s.index
    ensures r.encoding != Unknown ==> r.stream == s.(index := s.index + |Bom(r.encoding)|) && StartsWith(s, Bom(r.encoding))
    ensures r.stream.eob <==> s.eob || Free(s) < 3 || (Free(s) == 3 && r.encoding == Unknown)
    ensures Free(s) >= 3 && StartsWith(s, Bom(UTF8)) ==> r.encoding == UTF8
    ensures Free(s) == 3 && !StartsWith(s, Bom(UTF8)) ==> r.encoding == Unknown
  {
    if Free(s) < 3 then Sniffed(Unknown, s.(eob := true))
    else if StartsWith(s, Bom(UTF8)) then Sniffed(UTF8, s.(index := s.index + 3))
    else if Free(s) < 4 then Sniffed(Unknown, s.(eob := true))
    else SearchFourBytes(s)
  }

  /** The four-byte tests of `EN_SearchEncoding`, once the UTF-8 mark is ruled out. */
  function SearchFourBytes(s: Stream): (r: Sniffed)
    requires Valid(s) && Free(s) >= 4
    ensures r.encoding != UTF8
    ensures r.encoding == Unknown ==> r.stream == s
    ensures r.encoding != Unknown ==> r.stream == s.(index := s.index + |Bom(r.encoding)|) && StartsWith(s, Bom(r.encoding))
  {
    var b := s.buffer;
    var i := s.index;
    var e := Classify(b[i], b[i + 1], b[i + 2], b[i + 3]);
    assert b[i..i + 4] == [b[i], b[i + 1], b[i + 2], b[i + 3]];
    if e == Unknown then Sniffed(Unknown, s)
    else
      assert b[i..i + |Bom(e)|] == b[i..i + 4][..|Bom(e)|];
      Sniffed(e, s.(index := i + |Bom(e)|))
  }

  /**
   With four bytes available, a stream starting with an encoding's mark is
   recognised as that encoding, except that a UTF-16 mark followed by two
   zero bytes is taken for the UCS-4 mark it begins.
   */
  lemma SearchFindsBom(s: Stream, e: Encoding)
    requires Valid(s) && Free(s) >= 4 && e != Unknown && StartsWith(s, Bom(e))
    ensures var r := SearchEncoding(s).encoding;
      r == e || (e == UTF16LE && r == UCS4LE) || (e == UTF16BE && r == UCS4Uoo3412)
  {
    if e != UTF8 {
      var m, b, i := Bom(e), s.buffer, s.index;
      StartsWithByte(s, m, 0);
      StartsWithByte(s, m, 1);
      if |m| > 2 {
        StartsWithByte(s, m, 2);
      }
      if |m| > 3 {
        StartsWithByte(s, m, 3);
      }
      assert !StartsWith(s, Bom(UTF8)) by {
        assert b[i..i + 3][0] == b[i] != 0xEF;
      }
      assert SearchEncoding(s).encoding == Classify(b[i], b[i + 1], b[i + 2], b[i + 3]);
    }
  }

  lemma StartsWithByte(s: Stream, bytes: seq<byte>, k: nat)
    requires StartsWith(s, bytes) && k < |bytes|
    ensures s.buffer[s.index + k] == bytes[k]
  {
    assert s.buffer[s.index..s.index + |bytes|][k] == s.buffer[s.index + k];
  }

  /** The UTF-8 length classes of `EN_UCS4ToUFT8`. */
  datatype Utf8Room = TooLarge | NoRoom(count: nat) | Room(count: nat)

  /** The number of bytes `EN_UCS4ToUFT8` chooses for a character up to `0x7FFFFFFF`. */
  function Utf8Count(c: UCS4): (n: nat)
    requires c <= 0x7FFFFFFF
    ensures 1 <= n <= 6
  {
    if c >= 0x04000000 then 6
    else if c >= 0x00200000 then 5
    else if c >= 0x00010000 then 4
    else if c >= 0x00000800 then 3
    else if c >= 0x00000080 then 2
    else 1
  }

  /**
   The checks `EN_UCS4ToUFT8` makes before it writes: characters beyond
   `0x7FFFFFFF` are refused; otherwise the byte count is chosen, and without
   room for it the end-of-buffer flag is set. On success the position moves
   on by the count.
   */
  function UCS4ToUTF8Room(c: UCS4, s: Stream): (r: (Utf8Room, Stream))
    requires Valid(s)
    ensures c > 0x7FFFFFFF <==> r.0 == TooLarge
    ensures r.0 == TooLarge ==> r.1 == s
    ensures r.0.NoRoom? ==> r.0.count > Free(s) && r.1 == s.(eob := true)
    ensures r.0.Room? ==> r.0.count <= Free(s) && r.1 == s.(index := s.index + r.0.count)
    ensures !r.0.TooLarge? ==> r.0.count == Utf8Count(c)
  {
    if c > 0x7FFFFFFF then (TooLarge, s)
    else
      var n := Utf8Count(c);
      if Free(s) < n then (NoRoom(n), s.(eob := true)) else (Room(n), s.(index := s.index + n))
  }

  function Pow2(k: nat): (r: nat)
    ensures r >= 1
  {
    if k == 0 then 1 else 2 * Pow2(k - 1)
  }

  /** Section 2 of RFC 2279: a sequence of `n` bytes carries 7 bits when `n` is 1, and `5n + 1` bits otherwise. */
  function PayloadBits(n: nat): nat
  {
    if n == 1 then 7 else 5 * n + 1
  }

  lemma Pow2Values()
    ensures Pow2(7) == 0x80 && Pow2(11) == 0x800 && Pow2(16) == 0x10000
    ensures Pow2(21) == 0x200000 && Pow2(26) == 0x4000000 && Pow2(31) == 0x80000000
  {
    assert Pow2(7) == 0x80;
    assert Pow2(11) == 0x800;
    assert Pow2(16) == 0x10000;
    assert Pow2(21) == 0x200000;
    assert Pow2(26) == 0x4000000;
    assert Pow2(31) == 0x80000000;
  }

  /**
   The count chosen is the shortest sequence whose payload holds the
   character: it fits in `Utf8Count(c)` bytes and would not fit in one fewer.
   */
  lemma Utf8CountIsShortest(c: UCS4)
    requires c <= 0x7FFFFFFF
    ensures var n := Utf8Count(c);
      && c < Pow2(PayloadBits(n))
      && (n > 1 ==> c >= Pow2(PayloadBits(n - 1)))
  {
    Pow2Values();
  }

  /** The first byte `EN_UCS4ToUFT8` prepares for an `n`-byte sequence, truncated to a byte. */
  function LeadByte(n: nat): byte
    requires 2 <= n <= 6
  {
    ((Pow2(n + 1) - 1) * Pow2(8 - n)) % 256
  }

  /** The lead byte is `n` one bits followed by a zero bit, as section 2 of RFC 2279 requires. */
  lemma LeadByteMarksLength(n: nat)
    requires 2 <= n <= 6
    ensures LeadByte(n) == 256 - Pow2(8 - n)
  {
    assert Pow2(2) == 4 && Pow2(3) == 8 && Pow2(4) == 16 && Pow2(5) == 32;
    assert Pow2(6) == 64 && Pow2(7) == 128;
    if n == 2 {
      assert LeadByte(n) == (7 * 64) % 256;
    } else if n == 3 {
      assert LeadByte(n) == (15 * 32) % 256;
    } else if n == 4 {
      assert LeadByte(n) == (31 * 16) % 256;
    } else if n == 5 {
      assert LeadByte(n) == (63 * 8) % 256;
    } else {
      assert LeadByte(n) == (127 * 4) % 256;
    }
  }
}

=== FILE: lines.dfy ===
/**
 The line grammar of a configuration file as the engine writes it back.

 A line holds at most one head item, a section header `[name]` or an
 assignment `key=value`, followed by at most one note, and ends in a line
 feed. A note is a comment as the scanner stores it: the blanks that
 precede the `#`, the `#` itself and the rest of the line, so that writing the
 stored text after the head item reproduces the line. A line with neither
 is blank.

 `Build` is the document such a file is meant to describe: every head item
 and every note appended, in file order, on the line it stands on.
 */
module Lines {
  import opened Bytes
  import opened Classifier
  import opened Slicing
  import opened Document

  datatype Head = NoHead | SectionHead(name: seq<byte>) | Assignment(key: seq<byte>, value: seq<byte>)

  /** A comment after optional head text: `indent` blanks, `#`, then `text`. */
  datatype Note = Note(indent: seq<byte>, text: seq<byte>)

  datatype Line = Line(head: Head, note: Option<Note>)

  predicate IsBlank(c: byte)
  {
    c == SPACE || c == TAB
  }

  /** The bytes the scanner switches on before looking at character classes. */
  predicate Special(c: byte)
  {
    c == LBRACKET || c == RBRACKET || c == HASH || c == TAB || c == SPACE || c == EQUALS || c == NEWLINE
  }

  /**
   A byte that may stand inside a value: a value-class byte the scanner does
   not switch on (`ValueByteIsValueChar`), listed by range.
   */
  predicate ValueByte(c: byte)
  {
    || IsWordByte(c) || c == 0xB4
    || c == 0x21 || c == 0x22 || (0x24 <= c <= 0x2B) || (0x2D <= c <= 0x2F)
    || (0x3A <= c <= 0x3C) || (0x3E <= c <= 0x40) || c == 0x5C || c == 0x5E || c == 0x60 || (0x7B <= c <= 0x7E)
  }

  lemma ValueByteIsValueChar(c: byte)
    ensures ValueByte(c) <==> IsValueChar(c) && !Special(c)
  {
    if c in ValuePunctuation {
      var k :| 0 <= k < |ValuePunctuation| && ValuePunctuation[k] == c;
      PunctuationEntries(k);
    }
    if ValueByte(c) && !IsWordByte(c) && c != 0xB4 {
      PunctuationListed(c);
    }
  }

  lemma PunctuationEntries(k: nat)
    requires k < |ValuePunctuation|
    ensures var c := ValuePunctuation[k]; ValueByte(c) || c == HASH || c == EQUALS || c == LBRACKET || c == RBRACKET
  {
    assert k == 0 || k == 1 || k == 2 || k == 3 || k == 4 || k == 5 || k == 6 || k == 7 || k == 8 || k == 9
      || k == 10 || k == 11 || k == 12 || k == 13 || k == 14 || k == 15 || k == 16 || k == 17 || k == 18 || k == 19
      || k == 20 || k == 21 || k == 22 || k == 23 || k == 24 || k == 25 || k == 26 || k == 27 || k == 28 || k == 29;
  }

  /** Where each listed punctuation byte stands in the value table's punctuation. */
  lemma PunctuationListed(c: byte)
    requires ValueByte(c) && !IsWordByte(c) && c != 0xB4
    ensures c in ValuePunctuation
  {
    var k :=
      if c <= 0x2B then c - 0x21
      else if c <= 0x2F then c - 0x22
      else if c <= 0x40 then c - 0x2C
      else if c == 0x5C then 22
      else if c == 0x5E then 24
      else if c == 0x60 then 25
      else c - 0x61;
    assert ValuePunctuation[k] == c;
  }

  /** A byte that may stand inside a comment after its `#`. */
  predicate NoteByte(c: byte)
  {
    c != HASH && c != NEWLINE && c != NUL
  }

  /** A section or key name: 1 to 63 letters, digits or underscores. */
  predicate IsName(n: seq<byte>)
  {
    1 <= |n| <= 63 && forall k :: 0 <= k < |n| ==> IsWordByte(n[k])
  }

  predicate IsValue(v: seq<byte>)
  {
    |v| <= 1023 && forall k :: 0 <= k < |v| ==> ValueByte(v[k])
  }

  predicate IsNote(n: Note)
  {
    && 1 <= |n.indent|
    && |n.indent| + 1 + |n.text| <= 1023
    && (forall k :: 0 <= k < |n.indent| ==> IsBlank(n.indent[k]))
    && (forall k :: 0 <= k < |n.text| ==> NoteByte(n.text[k]))
  }

  function HeadText(h: Head): seq<byte>
  {
    match h
    case NoHead => []
    case SectionHead(name) => [LBRACKET] + name + [RBRACKET]
    case Assignment(key, value) => key + [EQUALS] + value
  }

  /** The comment text the scanner stores for a note, and the bytes the note occupies. */
  function NoteText(n: Note): seq<byte>
  {
    n.indent + [HASH] + n.text
  }

  function OptionalNoteText(n: Option<Note>): seq<byte>
  {
    match n
    case None => []
    case Some(note) => NoteText(note)
  }

  function LineText(l: Line): seq<byte>
  {
    HeadText(l.head) + OptionalNoteText(l.note) + [NEWLINE]
  }

  function FileText(lines: seq<Line>): seq<byte>
  {
    if |lines| == 0 then [] else FileText(lines[..|lines| - 1]) + LineText(Last(lines))
  }

  /**
   A line the scanner reads back as written: names and values from their
   character classes within the accumulators' capacities, and a value before
   a note not empty (an assignment with an empty value followed by a note is
   dropped by the scanner).
   */
  predicate WellFormedLine(l: Line)
  {
    && (match l.head
        case NoHead => true
        case SectionHead(name) => IsName(name)
        case Assignment(key, value) => IsName(key) && IsValue(value) && (l.note.Some? ==> |value| > 0))
    && (l.note.Some? ==> IsNote(l.note.value))
  }

  /** Some line of `lines` is a section header. */
  predicate HasSection(lines: seq<Line>)
  {
    |lines| > 0 && (Last(lines).head.SectionHead? || HasSection(lines[..|lines| - 1]))
  }

  /** Well-formed lines, with every assignment after some section header. */
  predicate WellFormedFile(lines: seq<Line>)
  {
    |lines| == 0 ||
    (&& WellFormedFile(lines[..|lines| - 1])
     && WellFormedLine(Last(lines))
     && (Last(lines).head.Assignment? ==> HasSection(lines[..|lines| - 1])))
  }

  function ApplyHead(c: Config, h: Head, n: int): Config
  {
    match h
    case NoHead => c
    case SectionHead(name) => AddSection(c, name, n)
    case Assignment(key, value) => if |c.sections| > 0 then AddPair(c, KeyValue(key, value), n) else c
  }

  /** The document after line `l`, read on line `n`: its head item, then its note. */
  function Apply(c: Config, l: Line, n: int): Config
  {
    var c1 := ApplyHead(c, l.head, n);
    match l.note
    case None => c1
    case Some(note) => AddComment(c1, NoteText(note), n)
  }

  /** The document `lines` describe, appended to `c`, with the first line numbered `n`. */
  function Build(c: Config, lines: seq<Line>, n: int): Config
  {
    if |lines| == 0 then c
    else Apply(Build(c, lines[..|lines| - 1], n), Last(lines), n + |lines| - 1)
  }

  /** Once a section header has been read, the document has a current section. */
  lemma {:induction false} BuildHasSection(c: Config, lines: seq<Line>, n: int)
    requires HasSection(lines)
    ensures |Build(c, lines, n).sections| > 0
  {
    var init := lines[..|lines| - 1];
    if !Last(lines).head.SectionHead? {
      BuildHasSection(c, init, n);
    }
  }

  lemma BuildAppend(c: Config, lines: seq<Line>, l: Line, n: int)
    ensures Build(c, lines + [l], n) == Apply(Build(c, lines, n), l, n + |lines|)
  {
    assert (lines + [l])[..|lines|] == lines;
  }

  lemma BuildNext(c: Config, lines: seq<Line>, prev: Config, n: int)
    requires |lines| > 0 && prev == Build(c, lines[..|lines| - 1], n)
    ensures Apply(prev, Last(lines), n + |lines| - 1) == Build(c, lines, n)
  {
  }

  lemma FileTextAppend(lines: seq<Line>, l: Line)
    ensures FileText(lines + [l]) == FileText(lines) + LineText(l)
  {
    assert (lines + [l])[..|lines|] == lines;
  }

  lemma NamesHaveNoNul(n: seq<byte>)
    requires IsName(n)
    ensures NoNul(n)
  {
  }

  lemma ValuesHaveNoNul(v: seq<byte>)
    requires IsValue(v)
    ensures NoNul(v)
  {
  }

  lemma NotesHaveNoNul(n: Note)
    requires IsNote(n)
    ensures NoNul(NoteText(n))
  {
    var t := NoteText(n);
    forall k | 0 <= k < |t| ensures t[k] != NUL {
      if k < |n.indent| {
        assert t[k] == n.indent[k];
      } else if k > |n.indent| {
        assert t[k] == n.text[k - |n.indent| - 1];
      }
    }
  }
}

=== FILE: reading.dfy ===
/**
 What the scanner makes of well-formed lines.

 The lemmas here follow the scanner byte by byte through the lines of the
 grammar in `Lines`: a stretch of bytes that only moves the column, the
 bytes that open and close tokens, then whole lines and whole files. The
 main results are `LinesRead`, that the bytes of well-formed lines build
 exactly the document `Build` describes, and `ReadConfigOfFileText`, the same
 for a whole file read in one buffer. The other lemmas record what the
 scanner does with lines outside the grammar.
 */
module Reading {
  import opened Bytes
  import opened Classifier
  import opened Slicing
  import opened Document
  import opened Scanner
  import opened Lines

  /** The scanner between two lines: no token open, no position marked. */
  predicate Idle(st: ScanState)
  {
    && st.begin == -1 && st.end == -1 && st.lvc == -1 && st.pcb == -1
    && !st.psection && !st.pkey && !st.pvalue && !st.pcomment
    && !st.procsection && !st.prockey && !st.procvalue && !st.equal && !st.proccomment
  }

  /** `s` with the column moved on by `n`. */
  function Advance(s: Session, n: int): Session
  {
    s.(st := s.st.(character := s.st.character + n))
  }

  /** The rest of a fold from position `m`, when the first part carried on. */
  function Continue(o: Outcome, step: (Session, nat) --> Outcome, m: nat, stop: nat): Outcome
    requires m <= stop
    requires forall t, i :: m <= i < stop ==> step.requires(t, i)
  {
    match o
    case Next(t) => Fold(step, t, m, stop)
    case other => other
  }

  lemma {:induction false} FoldSplit(step: (Session, nat) --> Outcome, s: Session, start: nat, m: nat, stop: nat)
    requires start <= m <= stop
    requires forall t, i :: start <= i < stop ==> step.requires(t, i)
    decreases stop
    ensures Fold(step, s, start, stop) == Continue(Fold(step, s, start, m), step, m, stop)
  {
    if stop > m {
      FoldSplit(step, s, start, m, stop - 1);
    }
  }

  /** A stretch of the buffer is read as its first part followed by the rest. */
  lemma RunSplit(s: Session, buf: seq<byte>, start: nat, m: nat, stop: nat)
    requires start <= m <= stop <= |buf|
    ensures Run(s, buf, start, stop) ==
      match Run(s, buf, start, m)
      case Next(t) => Run(t, buf, m, stop)
      case other => other
  {
    FoldSplit(StepOn(buf), s, start, m, stop);
  }

  /**
   A byte that changes nothing but the column: anything but `#` and a line
   feed inside a comment, a name byte inside a section name or key, a value
   byte inside a value, and a blank after the first one.
   */
  predicate Quiet(st: ScanState, c: byte)
  {
    && c != HASH && c != NEWLINE
    && (|| st.proccomment
        || (st.procsection && !st.psection && IsWordByte(c))
        || (!st.procsection && !st.psection && st.prockey && !st.equal && IsWordByte(c))
        || (!st.procsection && !st.psection && !st.prockey && st.equal && st.procvalue && st.lvc == -1 && ValueByte(c))
        || (!st.procsection && !st.prockey && IsBlank(c) && st.pcb != -1 && (st.procvalue ==> st.lvc != -1)))
  }

  /** The session after a line feed moves the counters to the next line. */
  function NextLine(s: Session): Session
  {
    s.(st := s.st.(line := s.st.line + 1, character := 1, equal := false))
  }

  /*
   What one turn of the scanner loop does with the bytes of well-formed lines
   in the states those lines lead to, one predicate per byte class: `r` is the
   outcome of the turn on `buf[i]` in session `t`.
   */

  /** A quiet byte moves the column only. */
  predicate QuietFact(t: Session, buf: seq<byte>, i: nat, r: Outcome)
    requires i < |buf|
  {
    Quiet(t.st, buf[i]) ==> r == Next(Advance(t, 1))
  }

  /** `[` outside a comment starts a section name on the next byte. */
  predicate OpenFact(t: Session, buf: seq<byte>, i: nat, r: Outcome)
    requires i < |buf|
  {
    buf[i] == LBRACKET && !t.st.proccomment ==>
      r == Next(Advance(t.(st := t.st.(begin := i + 1, procsection := true)), 1))
  }

  /** `]` ending a section name adds the section. */
  predicate CloseFact(t: Session, buf: seq<byte>, i: nat, r: Outcome)
    requires i < |buf|
  {
    var st := t.st;
    buf[i] == RBRACKET && !st.proccomment && st.procsection && st.begin <= i - 1 ==>
      r == match Fill(SectionName, st.psection, st.sectionName, buf, st.begin, i - 1)
           case Broken(h) => Undefined(h)
           case Filled(name) =>
             Next(Advance(Session(st.(sectionName := [], begin := -1, end := -1, psection := false, procsection := false),
                                  AddSection(t.cfg, CStr(name), st.line), t.log), 1))
  }

  /** A name byte at the start of a line's content starts a key. */
  predicate KeyFact(t: Session, buf: seq<byte>, i: nat, r: Outcome)
    requires i < |buf|
  {
    var st := t.st;
    IsWordByte(buf[i]) && !st.proccomment && !st.psection && !st.procsection && !st.equal && !st.prockey ==>
      r == Next(Advance(t.(st := st.(begin := i, prockey := true)), 1))
  }

  /** `=` right after a key ends the key. */
  predicate EqualsFact(t: Session, buf: seq<byte>, i: nat, r: Outcome)
    requires i < |buf|
  {
    var st := t.st;
    buf[i] == EQUALS && !st.proccomment && !st.procsection && st.prockey && !st.equal && st.end == -1 ==>
      r == match Fill(KeyName, st.pkey, st.keyName, buf, st.begin, i - 1)
           case Broken(h) => Undefined(h)
           case Filled(key) =>
             Next(Advance(t.(st := st.(keyName := key, pkey := false, begin := -1, end := -1, prockey := false, equal := true)), 1))
  }

  /** A value byte after `=` starts the value. */
  predicate ValueFact(t: Session, buf: seq<byte>, i: nat, r: Outcome)
    requires i < |buf|
  {
    var st := t.st;
    ValueByte(buf[i]) && !st.proccomment && !st.psection && !st.procsection && st.equal && !st.procvalue ==>
      r == Next(Advance(t.(st := st.(begin := i, procvalue := true, lvc := -1)), 1))
  }

  /** The first blank outside a name marks where a comment may start, and ends a value. */
  predicate BlankFact(t: Session, buf: seq<byte>, i: nat, r: Outcome)
    requires i < |buf|
  {
    var st := t.st;
    IsBlank(buf[i]) && !st.proccomment && !st.procsection && !st.prockey && st.pcb == -1 ==>
      r == Next(Advance(t.(st := st.(lvc := if st.procvalue && st.lvc == -1 then i - 1 else st.lvc, pcb := i)), 1))
  }

  /** `#` outside a name starts a comment, after completing a value in progress. */
  predicate HashFact(t: Session, buf: seq<byte>, i: nat, r: Outcome)
    requires i < |buf|
  {
    var st := t.st;
    && (buf[i] == HASH && !st.procsection && !st.prockey && !st.procvalue ==>
          r == Next(Advance(t.(st := st.(begin := st.pcb, pcb := -1, proccomment := true)), 1)))
    && (buf[i] == HASH && !st.procsection && !st.prockey && st.procvalue ==>
          r == match ClosePair(t, buf, st.lvc)
               case Next(u) => Next(Advance(u.(st := u.st.(lvc := -1, begin := u.st.pcb, pcb := -1, proccomment := true)), 1))
               case other => other)
  }

  /** A line feed completes a comment or a pair, or only moves to the next line. */
  predicate NewlineFact(t: Session, buf: seq<byte>, i: nat, r: Outcome)
    requires i < |buf|
  {
    var st := t.st;
    && (buf[i] == NEWLINE && st.proccomment ==>
          r == match Fill(CommentText, st.pcomment, st.comment, buf, st.begin, i - 1)
               case Broken(h) => Undefined(h)
               case Filled(text) =>
                 Next(NextLine(Session(st.(pcomment := false, comment := [], begin := -1, end := -1, pcb := -1, proccomment := false),
                                       AddComment(t.cfg, CStr(text), st.line), t.log))))
    && (buf[i] == NEWLINE && !st.proccomment && !st.procsection && !st.prockey && !st.equal ==> r == Next(NextLine(t)))
    && (buf[i] == NEWLINE && !st.proccomment && !st.procsection && !st.prockey && st.equal ==>
          r == match ClosePair(t, buf, if st.begin != -1 then i - 1 else st.end)
               case Next(u) => Next(NextLine(u))
               case other => other)
  }

  ghost predicate Total(step: (Session, nat) --> Outcome, buf: seq<byte>)
  {
    forall t, i :: 0 <= i < |buf| ==> step.requires(t, i)
  }

  ghost predicate QuietScans(step: (Session, nat) --> Outcome, buf: seq<byte>)
    requires Total(step, buf)
  {
    forall t, i {:trigger QuietFact(t, buf, i, step(t, i))} :: 0 <= i < |buf| ==> QuietFact(t, buf, i, step(t, i))
  }

  ghost predicate OpenScans(step: (Session, nat) --> Outcome, buf: seq<byte>)
    requires Total(step, buf)
  {
    forall t, i {:trigger OpenFact(t, buf, i, step(t, i))} :: 0 <= i < |buf| ==> OpenFact(t, buf, i, step(t, i))
  }

  ghost predicate CloseScans(step: (Session, nat) --> Outcome, buf: seq<byte>)
    requires Total(step, buf)
  {
    forall t, i {:trigger CloseFact(t, buf, i, step(t, i))} :: 0 <= i < |buf| ==> CloseFact(t, buf, i, step(t, i))
  }

  ghost predicate KeyScans(step: (Session, nat) --> Outcome, buf: seq<byte>)
    requires Total(step, buf)
  {
    forall t, i {:trigger KeyFact(t, buf, i, step(t, i))} :: 0 <= i < |buf| ==> KeyFact(t, buf, i, step(t, i))
  }

  ghost predicate EqualsScans(step: (Session, nat) --> Outcome, buf: seq<byte>)
    requires Total(step, buf)
  {
    forall t, i {:trigger EqualsFact(t, buf, i, step(t, i))} :: 0 <= i < |buf| ==> EqualsFact(t, buf, i, step(t, i))
  }

  ghost predicate ValueScans(step: (Session, nat) --> Outcome, buf: seq<byte>)
    requires Total(step, buf)
  {
    forall t, i {:trigger ValueFact(t, buf, i, step(t, i))} :: 0 <= i < |buf| ==> ValueFact(t, buf, i, step(t, i))
  }

  ghost predicate BlankScans(step: (Session, nat) --> Outcome, buf: seq<byte>)
    requires Total(step, buf)
  {
    forall t, i {:trigger BlankFact(t, buf, i, step(t, i))} :: 0 <= i < |buf| ==> BlankFact(t, buf, i, step(t, i))
  }

  ghost predicate HashScans(step: (Session, nat) --> Outcome, buf: seq<byte>)
    requires Total(step, buf)
  {
    forall t, i {:trigger HashFact(t, buf, i, step(t, i))} :: 0 <= i < |buf| ==> HashFact(t, buf, i, step(t, i))
  }

  ghost predicate NewlineScans(step: (Session, nat) --> Outcome, buf: seq<byte>)
    requires Total(step, buf)
  {
    forall t, i {:trigger NewlineFact(t, buf, i, step(t, i))} :: 0 <= i < |buf| ==> NewlineFact(t, buf, i, step(t, i))
  }

  /** `step` behaves as the scanner loop does on every byte of `buf`. */
  ghost predicate Scans(step: (Session, nat) --> Outcome, buf: seq<byte>)
  {
    Total(step, buf) && QuietScans(step, buf) && OpenScans(step, buf) && CloseScans(step, buf) && KeyScans(step, buf) && EqualsScans(step, buf) && ValueScans(step, buf) && BlankScans(step, buf) && HashScans(step, buf) && NewlineScans(step, buf)
  }

  predicate StepFacts(t: Session, buf: seq<byte>, i: nat, r: Outcome)
    requires i < |buf|
  {
    QuietFact(t, buf, i, r) && OpenFact(t, buf, i, r) && CloseFact(t, buf, i, r) && KeyFact(t, buf, i, r) && EqualsFact(t, buf, i, r) && ValueFact(t, buf, i, r) && BlankFact(t, buf, i, r) && HashFact(t, buf, i, r) && NewlineFact(t, buf, i, r)
  }

  lemma StepHasFacts(t: Session, buf: seq<byte>, i: nat)
    requires i < |buf|
    ensures StepFacts(t, buf, i, Step(t, buf, i))
  {
    var c := buf[i];
    IsWordByteNotSpecial(c);
    if c == HASH {
      HashStepFacts(t, buf, i);
    } else if c == NEWLINE {
      NewlineStepFacts(t, buf, i);
    } else if c == LBRACKET || c == RBRACKET {
      BracketStepFacts(t, buf, i);
    } else if c == EQUALS {
      EqualsStepFacts(t, buf, i);
    } else if IsBlank(c) {
      BlankStepFacts(t, buf, i);
    } else {
      OtherStepFacts(t, buf, i);
    }
  }

  lemma HashStepFacts(t: Session, buf: seq<byte>, i: nat)
    requires i < |buf| && buf[i] == HASH
    ensures StepFacts(t, buf, i, Step(t, buf, i))
  {
    HashOnHash(t, buf, i);
  }

  lemma NewlineStepFacts(t: Session, buf: seq<byte>, i: nat)
    requires i < |buf| && buf[i] == NEWLINE
    ensures StepFacts(t, buf, i, Step(t, buf, i))
  {
    NewlineOnNewline(t, buf, i);
  }

  lemma BracketStepFacts(t: Session, buf: seq<byte>, i: nat)
    requires i < |buf| && (buf[i] == LBRACKET || buf[i] == RBRACKET)
    ensures StepFacts(t, buf, i, Step(t, buf, i))
  {
    QuietOnBracket(t, buf, i);
    OpenOnBracket(t, buf, i);
    CloseOnBracket(t, buf, i);
  }

  lemma EqualsStepFacts(t: Session, buf: seq<byte>, i: nat)
    requires i < |buf| && buf[i] == EQUALS
    ensures StepFacts(t, buf, i, Step(t, buf, i))
  {
    QuietOnEquals(t, buf, i);
    EqualsOnEquals(t, buf, i);
  }

  lemma BlankStepFacts(t: Session, buf: seq<byte>, i: nat)
    requires i < |buf| && IsBlank(buf[i])
    ensures StepFacts(t, buf, i, Step(t, buf, i))
  {
    QuietOnBlank(t, buf, i);
    BlankOnBlank(t, buf, i);
  }

  lemma OtherStepFacts(t: Session, buf: seq<byte>, i: nat)
    requires i < |buf| && !Special(buf[i])
    ensures StepFacts(t, buf, i, Step(t, buf, i))
  {
    IsWordByteNotSpecial(buf[i]);
    ValueByteIsValueChar(buf[i]);
    QuietOnOther(t, buf, i);
    KeyOnOther(t, buf, i);
    ValueOnOther(t, buf, i);
  }

  lemma HashOnHash(t: Session, buf: seq<byte>, i: nat)
    requires i < |buf| && buf[i] == HASH
    ensures HashFact(t, buf, i, Step(t, buf, i))
  {
  }

  lemma NewlineOnNewline(t: Session, buf: seq<byte>, i: nat)
    requires i < |buf| && buf[i] == NEWLINE
    ensures NewlineFact(t, buf, i, Step(t, buf, i))
  {
  }

  lemma QuietOnBracket(t: Session, buf: seq<byte>, i: nat)
    requires i < |buf| && (buf[i] == LBRACKET || buf[i] == RBRACKET)
    ensures QuietFact(t, buf, i, Step(t, buf, i))
  {
  }

  lemma OpenOnBracket(t: Session, buf: seq<byte>, i: nat)
    requires i < |buf| && (buf[i] == LBRACKET || buf[i] == RBRACKET)
    ensures OpenFact(t, buf, i, Step(t, buf, i))
  {
  }

  lemma CloseOnBracket(t: Session, buf: seq<byte>, i: nat)
    requires i < |buf| && (buf[i] == LBRACKET || buf[i] == RBRACKET)
    ensures CloseFact(t, buf, i, Step(t, buf, i))
  {
  }

  lemma QuietOnEquals(t: Session, buf: seq<byte>, i: nat)
    requires i < |buf| && buf[i] == EQUALS
    ensures QuietFact(t, buf, i, Step(t, buf, i))
  {
  }

  lemma EqualsOnEquals(t: Session, buf: seq<byte>, i: nat)
    requires i < |buf| && buf[i] == EQUALS
    ensures EqualsFact(t, buf, i, Step(t, buf, i))
  {
  }

  lemma QuietOnBlank(t: Session, buf: seq<byte>, i: nat)
    requires i < |buf| && IsBlank(buf[i])
    ensures QuietFact(t, buf, i, Step(t, buf, i))
  {
  }

  lemma BlankOnBlank(t: Session, buf: seq<byte>, i: nat)
    requires i < |buf| && IsBlank(buf[i])
    ensures BlankFact(t, buf, i, Step(t, buf, i))
  {
  }

  lemma QuietOnOther(t: Session, buf: seq<byte>, i: nat)
    requires i < |buf| && !Special(buf[i])
    ensures QuietFact(t, buf, i, Step(t, buf, i))
  {
    IsWordByteNotSpecial(buf[i]);
    ValueByteIsValueChar(buf[i]);
  }

  lemma KeyOnOther(t: Session, buf: seq<byte>, i: nat)
    requires i < |buf| && !Special(buf[i])
    ensures KeyFact(t, buf, i, Step(t, buf, i))
  {
    IsWordByteNotSpecial(buf[i]);
    ValueByteIsValueChar(buf[i]);
  }

  lemma ValueOnOther(t: Session, buf: seq<byte>, i: nat)
    requires i < |buf| && !Special(buf[i])
    ensures ValueFact(t, buf, i, Step(t, buf, i))
  {
    IsWordByteNotSpecial(buf[i]);
    ValueByteIsValueChar(buf[i]);
  }

  lemma IsWordByteNotSpecial(c: byte)
    ensures IsWordByte(c) ==> !Special(c) && IsCommonChar(c)
  {
  }

  /** The scanner loop meets `Scans` on every buffer. */
  lemma StepOnScans(buf: seq<byte>)
    ensures Scans(StepOn(buf), buf)
  {
    forall t, i | 0 <= i < |buf| ensures StepFacts(t, buf, i, StepOn(buf)(t, i)) {
      StepHasFacts(t, buf, i);
    }
  }

  lemma FoldOne(step: (Session, nat) --> Outcome, buf: seq<byte>, s: Session, i: nat)
    requires i < |buf| && Total(step, buf)
    ensures Fold(step, s, i, i + 1) == step(s, i)
  {
    assert Fold(step, s, i, i) == Next(s);
  }

  /** A stretch of quiet bytes only moves the column on by its length. */
  lemma {:induction false} QuietFold(step: (Session, nat) --> Outcome, buf: seq<byte>, s: Session, start: nat, stop: nat)
    requires start <= stop <= |buf| && Total(step, buf) && QuietScans(step, buf)
    requires forall i :: start <= i < stop ==> Quiet(s.st, buf[i])
    decreases stop
    ensures Fold(step, s, start, stop) == Next(Advance(s, stop - start))
  {
    if stop > start {
      QuietFold(step, buf, s, start, stop - 1);
      var t := Advance(s, stop - 1 - start);
      assert Quiet(t.st, buf[stop - 1]);
      assert QuietFact(t, buf, stop - 1, step(t, stop - 1));
      assert Advance(t, 1) == Advance(s, stop - start);
    } else {
      assert Advance(s, 0) == s;
    }
  }

  /** `buf[p..]` starts with `text`. */
  predicate At(buf: seq<byte>, p: nat, text: seq<byte>)
  {
    p + |text| <= |buf| && buf[p..p + |text|] == text
  }

  lemma AtParts(buf: seq<byte>, p: nat, a: seq<byte>, b: seq<byte>)
    requires At(buf, p, a + b)
    ensures At(buf, p, a) && At(buf, p + |a|, b)
  {
    assert buf[p..p + |a|] == buf[p..p + |a + b|][..|a|];
    assert buf[p + |a|..p + |a| + |b|] == buf[p..p + |a + b|][|a|..];
  }

  lemma AtByte(buf: seq<byte>, p: nat, text: seq<byte>, k: nat)
    requires At(buf, p, text) && k < |text|
    ensures buf[p + k] == text[k]
  {
    assert buf[p..p + |text|][k] == buf[p + k];
  }

  /** `CF_Copy` of a token that stands in the buffer, fits its accumulator and holds no NUL stores the token. */
  lemma CopyToken(into: Accumulator, buf: seq<byte>, p: nat, text: seq<byte>)
    requires At(buf, p, text) && NoNul(text)
    requires 1 <= |text| <= Capacity(into) && p + |text| >= 2
    ensures Copy(into, buf, p, p + |text| - 1).Filled?
    ensures CStr(Copy(into, buf, p, p + |text| - 1).text) == text
  {
    CopyFacts(into, buf, p, p + |text| - 1);
  }

  /** Reading on from where a first stretch left off. */
  lemma FoldChain(step: (Session, nat) --> Outcome, buf: seq<byte>, s: Session, t: Session, start: nat, m: nat, stop: nat)
    requires start <= m <= stop <= |buf| && Total(step, buf)
    requires Fold(step, s, start, m) == Next(t)
    ensures Fold(step, s, start, stop) == Fold(step, t, m, stop)
  {
    FoldSplit(step, s, start, m, stop);
  }

  lemma OpenStep(step: (Session, nat) --> Outcome, buf: seq<byte>, s: Session, p: nat)
    requires Total(step, buf) && OpenScans(step, buf)
    requires p < |buf| && buf[p] == LBRACKET && !s.st.proccomment
    ensures Fold(step, s, p, p + 1) == Next(Advance(s.(st := s.st.(begin := p + 1, procsection := true)), 1))
  {
    FoldOne(step, buf, s, p);
    assert OpenFact(s, buf, p, step(s, p));
  }

  /** A stretch of quiet bytes `text` at position `p`. */
  lemma QuietText(step: (Session, nat) --> Outcome, buf: seq<byte>, s: Session, p: nat, text: seq<byte>)
    requires Total(step, buf) && QuietScans(step, buf)
    requires At(buf, p, text) && forall k :: 0 <= k < |text| ==> Quiet(s.st, text[k])
    ensures Fold(step, s, p, p + |text|) == Next(Advance(s, |text|))
  {
    forall i | p <= i < p + |text| ensures Quiet(s.st, buf[i]) {
      AtByte(buf, p, text, i - p);
    }
    QuietFold(step, buf, s, p, p + |text|);
  }

  lemma CloseStep(step: (Session, nat) --> Outcome, buf: seq<byte>, s: Session, name: seq<byte>)
    requires Total(step, buf) && CloseScans(step, buf)
    requires IsName(name) && s.st.begin >= 1 && At(buf, s.st.begin, name + [RBRACKET])
    requires s.st.procsection && !s.st.psection && !s.st.proccomment
    ensures var i := s.st.begin + |name|;
      Fold(step, s, i, i + 1) ==
        Next(Advance(Session(s.st.(sectionName := [], begin := -1, end := -1, psection := false, procsection := false),
                             AddSection(s.cfg, name, s.st.line), s.log), 1))
  {
    var i := s.st.begin + |name|;
    AtParts(buf, s.st.begin, name, [RBRACKET]);
    AtByte(buf, i, [RBRACKET], 0);
    FoldOne(step, buf, s, i);
    assert CloseFact(s, buf, i, step(s, i));
    NamesHaveNoNul(name);
    CopyToken(SectionName, buf, s.st.begin, name);
  }

  /**
   `[name]` read between two lines: the section is added on the current line
   and the scanner is idle again.
   */
  lemma SectionHeadFold(step: (Session, nat) --> Outcome, buf: seq<byte>, s: Session, p: nat, name: seq<byte>)
    requires Total(step, buf) && QuietScans(step, buf) && OpenScans(step, buf) && CloseScans(step, buf)
    requires Idle(s.st) && IsName(name) && At(buf, p, HeadText(SectionHead(name)))
    ensures var r := Fold(step, s, p, p + |name| + 2);
      && r.Next? && r.s.cfg == AddSection(s.cfg, name, s.st.line) && r.s.log == s.log
      && Idle(r.s.st) && r.s.st.line == s.st.line
  {
    var n := |name|;
    AtParts(buf, p, [LBRACKET], name + [RBRACKET]);
    AtParts(buf, p + 1, name, [RBRACKET]);
    AtByte(buf, p, [LBRACKET], 0);
    OpenStep(step, buf, s, p);
    var s1 := Advance(s.(st := s.st.(begin := p + 1, procsection := true)), 1);
    FoldChain(step, buf, s, s1, p, p + 1, p + n + 2);
    QuietText(step, buf, s1, p + 1, name);
    var s2 := Advance(s1, n);
    FoldChain(step, buf, s1, s2, p + 1, p + 1 + n, p + n + 2);
    CloseStep(step, buf, s2, name);
  }

  lemma KeyStartStep(step: (Session, nat) --> Outcome, buf: seq<byte>, s: Session, p: nat)
    requires Total(step, buf) && KeyScans(step, buf)
    requires p < |buf| && IsWordByte(buf[p])
    requires !s.st.proccomment && !s.st.psection && !s.st.procsection && !s.st.equal && !s.st.prockey
    ensures Fold(step, s, p, p + 1) == Next(Advance(s.(st := s.st.(begin := p, prockey := true)), 1))
  {
    FoldOne(step, buf, s, p);
    assert KeyFact(s, buf, p, step(s, p));
  }

  /** `=` after a key: the key is stored, and the scanner waits for a value. */
  lemma EqualsStep(step: (Session, nat) --> Outcome, buf: seq<byte>, s: Session, key: seq<byte>)
    requires Total(step, buf) && EqualsScans(step, buf)
    requires IsName(key) && s.st.begin >= 0 && s.st.begin + |key| >= 2 && At(buf, s.st.begin, key + [EQUALS])
    requires s.st.prockey && !s.st.pkey && !s.st.procsection && !s.st.proccomment && !s.st.equal && s.st.end == -1
    ensures var i := s.st.begin + |key|; var r := Fold(step, s, i, i + 1);
      && r.Next? && CStr(r.s.st.keyName) == key
      && r.s == Advance(s.(st := s.st.(keyName := r.s.st.keyName, pkey := false, begin := -1, end := -1,
                                       prockey := false, equal := true)), 1)
  {
    var i := s.st.begin + |key|;
    AtParts(buf, s.st.begin, key, [EQUALS]);
    AtByte(buf, i, [EQUALS], 0);
    FoldOne(step, buf, s, i);
    assert EqualsFact(s, buf, i, step(s, i));
    NamesHaveNoNul(key);
    CopyToken(KeyName, buf, s.st.begin, key);
  }

  lemma ValueStartStep(step: (Session, nat) --> Outcome, buf: seq<byte>, s: Session, q: nat)
    requires Total(step, buf) && ValueScans(step, buf)
    requires q < |buf| && ValueByte(buf[q])
    requires !s.st.proccomment && !s.st.psection && !s.st.procsection && s.st.equal && !s.st.procvalue
    ensures Fold(step, s, q, q + 1) == Next(Advance(s.(st := s.st.(begin := q, procvalue := true, lvc := -1)), 1))
  {
    FoldOne(step, buf, s, q);
    assert ValueFact(s, buf, q, step(s, q));
  }

  /**
   After the head text of an assignment: the key is stored, the `=` seen, and
   a value starting at `q` is in progress unless it is empty.
   */
  predicate Pending(st: ScanState, key: seq<byte>, value: seq<byte>, q: int)
  {
    && st.equal && !st.prockey && !st.procsection && !st.psection && !st.proccomment
    && !st.pkey && !st.pvalue && !st.pcomment
    && st.pcb == -1 && st.lvc == -1 && CStr(st.keyName) == key
    && (if |value| > 0 then st.procvalue && st.begin == q else !st.procvalue && st.begin == -1 && st.end == -1)
  }

  /** After `key=`: the key stored, the `=` seen, nothing else open. */
  predicate AfterKey(st: ScanState, key: seq<byte>)
  {
    && st.equal && CStr(st.keyName) == key
    && st.begin == -1 && st.end == -1 && st.lvc == -1 && st.pcb == -1
    && !st.psection && !st.pkey && !st.pvalue && !st.pcomment
    && !st.procsection && !st.prockey && !st.procvalue && !st.proccomment
  }

  /** The bytes of `text` after its first, when they are quiet. */
  lemma QuietTail(step: (Session, nat) --> Outcome, buf: seq<byte>, s: Session, p: nat, text: seq<byte>)
    requires Total(step, buf) && QuietScans(step, buf)
    requires At(buf, p, text) && 1 <= |text| && forall k :: 1 <= k < |text| ==> Quiet(s.st, text[k])
    ensures Fold(step, s, p + 1, p + |text|) == Next(Advance(s, |text| - 1))
  {
    forall i | p + 1 <= i < p + |text| ensures Quiet(s.st, buf[i]) {
      AtByte(buf, p, text, i - p);
    }
    QuietFold(step, buf, s, p + 1, p + |text|);
  }

  /** Inside a key, name bytes only move the column. */
  lemma KeyBytesQuiet(st: ScanState, key: seq<byte>)
    requires IsName(key) && st.prockey && !st.procsection && !st.psection && !st.equal
    ensures forall k :: 1 <= k < |key| ==> Quiet(st, key[k])
  {
    forall k | 1 <= k < |key| ensures Quiet(st, key[k]) {
      IsWordByteNotSpecial(key[k]);
    }
  }

  /** The bytes of a key, read between two lines: the key is in progress from `p`. */
  lemma KeyTextFold(step: (Session, nat) --> Outcome, buf: seq<byte>, s: Session, p: nat, key: seq<byte>)
    requires Total(step, buf) && QuietScans(step, buf) && KeyScans(step, buf)
    requires Idle(s.st) && IsName(key) && At(buf, p, key)
    ensures Fold(step, s, p, p + |key|) == Next(Advance(s.(st := s.st.(begin := p, prockey := true)), |key|))
  {
    AtByte(buf, p, key, 0);
    KeyStartStep(step, buf, s, p);
    var s1 := Advance(s.(st := s.st.(begin := p, prockey := true)), 1);
    FoldChain(step, buf, s, s1, p, p + 1, p + |key|);
    KeyBytesQuiet(s1.st, key);
    QuietTail(step, buf, s1, p, key);
  }

  /** A key and its `=`, read between two lines. */
  lemma KeyFold(step: (Session, nat) --> Outcome, buf: seq<byte>, s: Session, p: nat, key: seq<byte>)
    requires Total(step, buf) && QuietScans(step, buf) && KeyScans(step, buf) && EqualsScans(step, buf)
    requires Idle(s.st) && IsName(key) && p + |key| >= 2 && At(buf, p, key + [EQUALS])
    ensures var r := Fold(step, s, p, p + |key| + 1);
      && r.Next? && r.s.cfg == s.cfg && r.s.log == s.log && r.s.st.line == s.st.line
      && AfterKey(r.s.st, key)
  {
    AtParts(buf, p, key, [EQUALS]);
    KeyTextFold(step, buf, s, p, key);
    var s2 := Advance(s.(st := s.st.(begin := p, prockey := true)), |key|);
    FoldChain(step, buf, s, s2, p, p + |key|, p + |key| + 1);
    EqualsStep(step, buf, s2, key);
  }

  /** A value after `key=`, up to the byte that ends it. */
  lemma ValueFold(step: (Session, nat) --> Outcome, buf: seq<byte>, s: Session, q: nat, key: seq<byte>, value: seq<byte>)
    requires Total(step, buf) && QuietScans(step, buf) && ValueScans(step, buf)
    requires AfterKey(s.st, key) && IsValue(value) && At(buf, q, value)
    ensures var r := Fold(step, s, q, q + |value|);
      && r.Next? && r.s.cfg == s.cfg && r.s.log == s.log && r.s.st.line == s.st.line
      && Pending(r.s.st, key, value, q)
  {
    if |value| > 0 {
      AtParts(buf, q, [value[0]], value[1..]);
      assert [value[0]] + value[1..] == value;
      AtByte(buf, q, value, 0);
      ValueStartStep(step, buf, s, q);
      var s1 := Advance(s.(st := s.st.(begin := q, procvalue := true, lvc := -1)), 1);
      FoldChain(step, buf, s, s1, q, q + 1, q + |value|);
      forall k | 0 <= k < |value[1..]| ensures Quiet(s1.st, value[1..][k]) {
      }
      QuietText(step, buf, s1, q + 1, value[1..]);
    } else {
      assert Fold(step, s, q, q) == Next(s);
    }
  }

  /** The bytes of a key, then `=`, then a value, read between two lines. */
  lemma AssignmentFold(step: (Session, nat) --> Outcome, buf: seq<byte>, s: Session, p: nat, key: seq<byte>, value: seq<byte>)
    requires Total(step, buf) && QuietScans(step, buf) && KeyScans(step, buf) && EqualsScans(step, buf) && ValueScans(step, buf)
    requires Idle(s.st) && IsName(key) && IsValue(value) && p + |key| >= 2
    requires At(buf, p, HeadText(Assignment(key, value)))
    ensures var r := Fold(step, s, p, p + |key| + 1 + |value|);
      && r.Next? && r.s.cfg == s.cfg && r.s.log == s.log && r.s.st.line == s.st.line
      && Pending(r.s.st, key, value, p + |key| + 1)
  {
    var q := p + |key| + 1;
    AtParts(buf, p, key + [EQUALS], value);
    KeyFold(step, buf, s, p, key);
    var s1 := Fold(step, s, p, q).s;
    FoldChain(step, buf, s, s1, p, q, q + |value|);
    ValueFold(step, buf, s1, q, key, value);
  }

  /** A line feed outside any token only moves to the next line. */
  lemma NewlineStep(step: (Session, nat) --> Outcome, buf: seq<byte>, s: Session, i: nat)
    requires Total(step, buf) && NewlineScans(step, buf)
    requires i < |buf| && buf[i] == NEWLINE
    requires !s.st.proccomment && !s.st.procsection && !s.st.prockey && !s.st.equal
    ensures Fold(step, s, i, i + 1) == Next(NextLine(s))
  {
    FoldOne(step, buf, s, i);
    assert NewlineFact(s, buf, i, step(s, i));
  }

  /** The marks the first blank at `i` sets: where a note may start, and the end of a value in progress. */
  function MarkBlank(s: Session, i: int): Session
  {
    s.(st := s.st.(lvc := if s.st.procvalue && s.st.lvc == -1 then i - 1 else s.st.lvc, pcb := i))
  }

  /** The first blank outside a name marks where a note may start; a value in progress ends before it. */
  lemma BlankStartStep(step: (Session, nat) --> Outcome, buf: seq<byte>, s: Session, i: nat)
    requires Total(step, buf) && BlankScans(step, buf)
    requires i < |buf| && IsBlank(buf[i])
    requires !s.st.proccomment && !s.st.procsection && !s.st.prockey && s.st.pcb == -1
    ensures Fold(step, s, i, i + 1) == Next(Advance(MarkBlank(s, i), 1))
  {
    FoldOne(step, buf, s, i);
    assert BlankFact(s, buf, i, step(s, i));
  }

  lemma BlanksQuiet(st: ScanState, indent: seq<byte>)
    requires forall k :: 0 <= k < |indent| ==> IsBlank(indent[k])
    requires !st.procsection && !st.prockey && st.pcb != -1 && (st.procvalue ==> st.lvc != -1)
    ensures forall k :: 1 <= k < |indent| ==> Quiet(st, indent[k])
  {
  }

  /** The blanks before a note: the first marks the note's start, the rest only move the column. */
  lemma IndentFold(step: (Session, nat) --> Outcome, buf: seq<byte>, s: Session, p: nat, indent: seq<byte>)
    requires Total(step, buf) && QuietScans(step, buf) && BlankScans(step, buf)
    requires 1 <= |indent| && At(buf, p, indent) && forall k :: 0 <= k < |indent| ==> IsBlank(indent[k])
    requires !s.st.proccomment && !s.st.procsection && !s.st.prockey && s.st.pcb == -1
    requires s.st.procvalue ==> p >= 1
    ensures Fold(step, s, p, p + |indent|) == Next(Advance(MarkBlank(s, p), |indent|))
  {
    AtByte(buf, p, indent, 0);
    BlankStartStep(step, buf, s, p);
    var s1 := Advance(MarkBlank(s, p), 1);
    FoldChain(step, buf, s, s1, p, p + 1, p + |indent|);
    BlanksQuiet(s1.st, indent);
    QuietTail(step, buf, s1, p, indent);
  }

  /** `#` with no value in progress starts a comment at the first blank before it. */
  lemma HashStep(step: (Session, nat) --> Outcome, buf: seq<byte>, s: Session, i: nat)
    requires Total(step, buf) && HashScans(step, buf)
    requires i < |buf| && buf[i] == HASH
    requires !s.st.procsection && !s.st.prockey && !s.st.procvalue
    ensures Fold(step, s, i, i + 1) == Next(Advance(s.(st := s.st.(begin := s.st.pcb, pcb := -1, proccomment := true)), 1))
  {
    FoldOne(step, buf, s, i);
    assert HashFact(s, buf, i, step(s, i));
  }

  /** The session after a line feed ends the comment `text` (an `AddComment` on the current line). */
  function CommentAdded(s: Session, text: seq<byte>): Session
  {
    NextLine(Session(s.st.(pcomment := false, comment := [], begin := -1, end := -1, pcb := -1, proccomment := false),
                     AddComment(s.cfg, text, s.st.line), s.log))
  }

  /** The line feed after a comment that started at `b` adds the comment. */
  lemma CommentEndStep(step: (Session, nat) --> Outcome, buf: seq<byte>, t: Session, b: nat, text: seq<byte>)
    requires Total(step, buf) && NewlineScans(step, buf)
    requires At(buf, b, text + [NEWLINE]) && NoNul(text) && 2 <= |text| <= 1023
    requires t.st.proccomment && !t.st.pcomment && t.st.begin == b
    ensures Fold(step, t, b + |text|, b + |text| + 1) == Next(CommentAdded(t, text))
  {
    var e := b + |text|;
    AtParts(buf, b, text, [NEWLINE]);
    AtByte(buf, e, [NEWLINE], 0);
    FoldOne(step, buf, t, e);
    CopyToken(CommentText, buf, b, text);
    var f := Copy(CommentText, buf, b, e - 1);
    assert Fill(CommentText, t.st.pcomment, t.st.comment, buf, t.st.begin, e - 1) == f;
    assert NewlineFact(t, buf, e, step(t, e));
    assert step(t, e) == Next(NextLine(Session(t.st.(pcomment := false, comment := [], begin := -1, end := -1, pcb := -1, proccomment := false),
                                               AddComment(t.cfg, CStr(f.text), t.st.line), t.log)));
  }

  /**
   A note's text and the line feed after it: the comment, from the first
   blank before its `#` (at `b`) to the end of the line, is added on the
   current line.
   */
  lemma CommentFold(step: (Session, nat) --> Outcome, buf: seq<byte>, s: Session, b: nat, note: Note)
    requires Total(step, buf) && QuietScans(step, buf) && NewlineScans(step, buf)
    requires IsNote(note) && At(buf, b, NoteText(note) + [NEWLINE])
    requires s.st.proccomment && !s.st.pcomment && s.st.begin == b
    ensures var i := b + |note.indent| + 1;
      Fold(step, s, i, i + |note.text| + 1) == Next(CommentAdded(s, NoteText(note)))
  {
    var text := NoteText(note);
    var i := b + |note.indent| + 1;
    var e := i + |note.text|;
    AtParts(buf, b, text, [NEWLINE]);
    AtParts(buf, b, note.indent + [HASH], note.text);
    QuietText(step, buf, s, i, note.text);
    var t := Advance(s, |note.text|);
    FoldChain(step, buf, s, t, i, e, e + 1);
    NotesHaveNoNul(note);
    CommentEndStep(step, buf, t, b, text);
    assert CommentAdded(t, text) == CommentAdded(s, text);
  }

  /** A note and its line feed, read with no token open. */
  lemma NoteFold(step: (Session, nat) --> Outcome, buf: seq<byte>, s: Session, p: nat, note: Note, stop: nat, c1: Config, n1: int)
    requires Total(step, buf) && QuietScans(step, buf) && BlankScans(step, buf) && HashScans(step, buf) && NewlineScans(step, buf)
    requires Idle(s.st) && IsNote(note) && At(buf, p, NoteText(note) + [NEWLINE])
    requires stop == p + |NoteText(note)| + 1 && c1 == AddComment(s.cfg, NoteText(note), s.st.line) && n1 == s.st.line + 1
    ensures Landed(Fold(step, s, p, stop), c1, s.log, n1)
  {
    var n := |note.indent|;
    NoteStart(step, buf, s, p, note);
    var s2 := NoteOpened(s, p, n);
    FoldChain(step, buf, s, s2, p, p + n + 1, stop);
    CommentFold(step, buf, s2, p, note);
    NoteEnds(s, p, n, NoteText(note), c1, n1);
  }

  /** The session once the blanks and `#` of a note at `p`, with `n` blanks, have been read from an idle state. */
  function NoteOpened(s: Session, p: int, n: int): Session
  {
    var s1 := Advance(MarkBlank(s, p), n);
    Advance(s1.(st := s1.st.(begin := p, pcb := -1, proccomment := true)), 1)
  }

  /** The blanks and `#` that open a note, read with no token open. */
  lemma NoteStart(step: (Session, nat) --> Outcome, buf: seq<byte>, s: Session, p: nat, note: Note)
    requires Total(step, buf) && QuietScans(step, buf) && BlankScans(step, buf) && HashScans(step, buf)
    requires Idle(s.st) && IsNote(note) && At(buf, p, NoteText(note) + [NEWLINE])
    ensures p + |note.indent| + 1 <= |buf|
    ensures Fold(step, s, p, p + |note.indent| + 1) == Next(NoteOpened(s, p, |note.indent|))
  {
    var n := |note.indent|;
    AtParts(buf, p, NoteText(note), [NEWLINE]);
    AtParts(buf, p, note.indent + [HASH], note.text);
    AtParts(buf, p, note.indent, [HASH]);
    IndentFold(step, buf, s, p, note.indent);
    var s1 := Advance(MarkBlank(s, p), n);
    FoldChain(step, buf, s, s1, p, p + n, p + n + 1);
    AtByte(buf, p + n, [HASH], 0);
    HashStep(step, buf, s1, p + n);
  }

  lemma NoteEnds(s: Session, p: int, n: int, text: seq<byte>, c1: Config, n1: int)
    requires Idle(s.st) && c1 == AddComment(s.cfg, text, s.st.line) && n1 == s.st.line + 1
    ensures Landed(Next(CommentAdded(NoteOpened(s, p, n), text)), c1, s.log, n1)
  {
  }

  /** The session after the pending pair is completed with `value` and added on the current line. */
  function PairClosed(s: Session, value: seq<byte>): Session
    requires |s.cfg.sections| > 0
  {
    Session(s.st.(procvalue := false, keyName := [], valueName := [], begin := -1, end := -1),
            AddPair(s.cfg, KeyValue(CStr(s.st.keyName), value), s.st.line), s.log)
  }

  /**
   Completing a pair whose value stands at `q` (or, for an empty value, was
   never started) stores that value under the pending key.
   */
  lemma ValueClose(s: Session, buf: seq<byte>, q: nat, value: seq<byte>, e: int)
    requires !s.st.pvalue && |s.cfg.sections| > 0 && IsValue(value)
    requires if |value| > 0 then s.st.begin == q && At(buf, q, value) && q + |value| >= 2 && e == q + |value| - 1
             else s.st.begin == -1 && e == -1
    ensures ClosePair(s, buf, e) == Next(PairClosed(s, value))
  {
    if |value| > 0 {
      ValuesHaveNoNul(value);
      CopyToken(ValueName, buf, q, value);
    }
  }

  /** `#` with a value in progress completes the pair, then starts a comment at the first blank before it. */
  lemma HashPairStep(step: (Session, nat) --> Outcome, buf: seq<byte>, t: Session, i: nat)
    requires Total(step, buf) && HashScans(step, buf)
    requires i < |buf| && buf[i] == HASH
    requires !t.st.procsection && !t.st.prockey && t.st.procvalue
    ensures Fold(step, t, i, i + 1) ==
      match ClosePair(t, buf, t.st.lvc)
      case Next(u) => Next(Advance(u.(st := u.st.(lvc := -1, begin := u.st.pcb, pcb := -1, proccomment := true)), 1))
      case other => other
  {
    FoldOne(step, buf, t, i);
    assert HashFact(t, buf, i, step(t, i));
  }

  /** The first blank after a value byte marks the value's last byte and, if unmarked, where a comment may start. */
  lemma ValueBlankStep(buf: seq<byte>, s: Session, j: nat)
    requires j < |buf| && IsBlank(buf[j])
    requires !s.st.proccomment && !s.st.procsection && !s.st.prockey && s.st.procvalue && s.st.lvc == -1
    ensures Fold(StepOn(buf), s, j, j + 1) ==
      Next(Advance(s.(st := s.st.(lvc := j - 1, pcb := if s.st.pcb == -1 then j else s.st.pcb)), 1))
  {
    assert Total(StepOn(buf), buf);
    FoldOne(StepOn(buf), buf, s, j);
    assert Dispatch(s, buf, j) == OnBlank(s, buf, j);
  }

  /**
   Blanks after a value whose last byte is marked at `e`, then `#`: the
   blanks only move the column, and `#` adds the pair with the value up to `e`.
   */
  lemma BlanksThenHash(step: (Session, nat) --> Outcome, buf: seq<byte>, s1: Session, e: nat, i: nat)
    requires Total(step, buf) && QuietScans(step, buf) && HashScans(step, buf)
    requires e + 2 <= i < |buf| && buf[i] == HASH
    requires forall k :: e + 2 <= k < i ==> IsBlank(buf[k])
    requires !s1.st.proccomment && !s1.st.procsection && !s1.st.prockey && s1.st.procvalue && !s1.st.pvalue
    requires s1.st.lvc == e && s1.st.pcb != -1
    requires 1 <= e && 0 <= s1.st.begin <= e && NoNul(buf[s1.st.begin..e + 1]) && e + 1 - s1.st.begin <= Capacity(ValueName)
    requires |s1.cfg.sections| > 0
    ensures var r := Fold(step, s1, e + 2, i + 1);
      && r.Next?
      && r.s.cfg == AddPair(s1.cfg, KeyValue(CStr(s1.st.keyName), buf[s1.st.begin..e + 1]), s1.st.line)
      && r.s.log == s1.log
      && r.s.st.proccomment
      && r.s.st.begin == s1.st.pcb
  {
    QuietFold(step, buf, s1, e + 2, i);
    var s2 := Advance(s1, i - e - 2);
    FoldChain(step, buf, s1, s2, e + 2, i, i + 1);
    HashPairStep(step, buf, s2, i);
    CopyFacts(ValueName, buf, s2.st.begin, e);
  }

  /** `ValueEndsAtLastNonBlank` for any loop step that scans as the scanner does and reads the first blank as it does. */
  lemma ValueEndsAtLastNonBlankBy(step: (Session, nat) --> Outcome, buf: seq<byte>, s: Session, s1: Session, e: nat, i: nat)
    requires Total(step, buf) && QuietScans(step, buf) && HashScans(step, buf)
    requires 1 <= e && e + 1 < i < |buf| && buf[i] == HASH
    requires forall k :: e < k < i ==> IsBlank(buf[k])
    requires !s.st.proccomment && !s.st.procsection && !s.st.prockey && s.st.procvalue && !s.st.pvalue
    requires 0 <= s.st.begin <= e && NoNul(buf[s.st.begin..e + 1]) && e + 1 - s.st.begin <= Capacity(ValueName)
    requires |s.cfg.sections| > 0
    requires s1 == Advance(s.(st := s.st.(lvc := e, pcb := if s.st.pcb == -1 then e + 1 else s.st.pcb)), 1)
    requires Fold(step, s, e + 1, e + 2) == Next(s1)
    ensures var r := Fold(step, s, e + 1, i + 1);
      && r.Next?
      && r.s.cfg == AddPair(s.cfg, KeyValue(CStr(s.st.keyName), buf[s.st.begin..e + 1]), s.st.line)
      && r.s.log == s.log
      && r.s.st.proccomment
      && r.s.st.begin == (if s.st.pcb == -1 then e + 1 else s.st.pcb)
  {
    BlanksThenHash(step, buf, s1, e, i);
    FoldChain(step, buf, s, s1, e + 1, e + 2, i + 1);
  }

  /** The scanner loop meets the facts `ValueEndsAtLastNonBlankBy` needs of its step. */
  lemma StepOnScansQuietHash(buf: seq<byte>)
    ensures Total(StepOn(buf), buf) && QuietScans(StepOn(buf), buf) && HashScans(StepOn(buf), buf)
  {
    StepOnScans(buf);
  }

  /**
   `#` after a value and a run of blanks: the value stored is every byte from
   its first to the last one before the blanks, inner blanks included, and the
   comment starts at the first blank seen since the last comment.
   */
  lemma ValueEndsAtLastNonBlank(s: Session, buf: seq<byte>, e: nat, i: nat)
    requires 1 <= e && e + 1 < i < |buf| && buf[i] == HASH
    requires forall k :: e < k < i ==> IsBlank(buf[k])
    requires !s.st.proccomment && !s.st.procsection && !s.st.prockey && s.st.equal
    requires s.st.procvalue && !s.st.pvalue && s.st.lvc == -1
    requires 0 <= s.st.begin <= e && NoNul(buf[s.st.begin..e + 1]) && e + 1 - s.st.begin <= Capacity(ValueName)
    requires |s.cfg.sections| > 0
    ensures var r := Run(s, buf, e + 1, i + 1);
      && r.Next?
      && r.s.cfg == AddPair(s.cfg, KeyValue(CStr(s.st.keyName), buf[s.st.begin..e + 1]), s.st.line)
      && r.s.log == s.log
      && r.s.st.proccomment
      && r.s.st.begin == (if s.st.pcb == -1 then e + 1 else s.st.pcb)
  {
    ValueBlankStep(buf, s, e + 1);
    StepOnScansQuietHash(buf);
    ValueEndsAtLastNonBlankBy(StepOn(buf), buf, s, Advance(s.(st := s.st.(lvc := e, pcb := if s.st.pcb == -1 then e + 1 else s.st.pcb)), 1), e, i);
  }

  /**
   `SecondHashEmptiesComment` for any loop step that scans as the scanner
   does.
   */
  lemma SecondHashEmptiesCommentBy(step: (Session, nat) --> Outcome, buf: seq<byte>, s: Session, i: nat, j: nat)
    requires Total(step, buf) && QuietScans(step, buf) && HashScans(step, buf) && NewlineScans(step, buf)
    requires i < j < |buf| && buf[i] == HASH && buf[j] == NEWLINE
    requires forall k :: i < k < j ==> buf[k] != HASH && buf[k] != NEWLINE
    requires s.st.proccomment && !s.st.pcomment && !s.st.procsection && !s.st.prockey && !s.st.procvalue && s.st.pcb == -1
    ensures var r := Fold(step, s, i, j + 1);
      && r.Next?
      && r.s.cfg == AddComment(s.cfg, [], s.st.line)
      && r.s.log == s.log
      && !r.s.st.proccomment
  {
    HashStep(step, buf, s, i);
    var s1 := Advance(s.(st := s.st.(begin := -1, pcb := -1, proccomment := true)), 1);
    QuietFold(step, buf, s1, i + 1, j);
    var s2 := Advance(s1, j - i - 1);
    FoldChain(step, buf, s, s1, i, i + 1, j + 1);
    FoldChain(step, buf, s1, s2, i + 1, j, j + 1);
    FoldOne(step, buf, s2, j);
    assert NewlineFact(s2, buf, j, step(s2, j));
    CopyFacts(CommentText, buf, -1, j - 1);
    assert CStr([]) == [];
  }

  /** The scanner loop meets the facts `SecondHashEmptiesCommentBy` needs of its step. */
  lemma StepOnScansComment(buf: seq<byte>)
    ensures Total(StepOn(buf), buf) && QuietScans(StepOn(buf), buf) && HashScans(StepOn(buf), buf) && NewlineScans(StepOn(buf), buf)
  {
    StepOnScans(buf);
  }

  /**
   A second `#` in a comment empties it. Blanks inside a comment do not mark
   `pcb`, and every `#` clears it, so a later `#` restarts the comment at
   position -1; the line feed then copies from -1, which gives an empty text.
   `k=v #see #3` therefore stores the pair and an empty comment.
   */
  lemma SecondHashEmptiesComment(s: Session, buf: seq<byte>, i: nat, j: nat)
    requires i < j < |buf| && buf[i] == HASH && buf[j] == NEWLINE
    requires forall k :: i < k < j ==> buf[k] != HASH && buf[k] != NEWLINE
    requires s.st.proccomment && !s.st.pcomment && !s.st.procsection && !s.st.prockey && !s.st.procvalue && s.st.pcb == -1
    ensures var r := Run(s, buf, i, j + 1);
      && r.Next?
      && r.s.cfg == AddComment(s.cfg, [], s.st.line)
      && r.s.log == s.log
      && !r.s.st.proccomment
  {
    StepOnScansComment(buf);
    SecondHashEmptiesCommentBy(StepOn(buf), buf, s, i, j);
  }

  /** The line feed after a pair's value completes the pair. */
  lemma PairNewlineStep(step: (Session, nat) --> Outcome, buf: seq<byte>, s: Session, q: nat, key: seq<byte>, value: seq<byte>)
    requires Total(step, buf) && NewlineScans(step, buf)
    requires Pending(s.st, key, value, q) && IsValue(value) && |s.cfg.sections| > 0
    requires At(buf, q, value + [NEWLINE]) && q + |value| >= 2
    ensures Fold(step, s, q + |value|, q + |value| + 1) == Next(NextLine(PairClosed(s, value)))
  {
    var i := q + |value|;
    AtParts(buf, q, value, [NEWLINE]);
    AtByte(buf, i, [NEWLINE], 0);
    FoldOne(step, buf, s, i);
    assert NewlineFact(s, buf, i, step(s, i));
    ValueClose(s, buf, q, value, if s.st.begin != -1 then i - 1 else s.st.end);
  }

  /** An assignment's line feed: the pair is added and the scanner is idle on the next line. */
  lemma PairLineEnd(step: (Session, nat) --> Outcome, buf: seq<byte>, s: Session, q: nat, key: seq<byte>, value: seq<byte>,
                    stop: nat, c1: Config, n1: int)
    requires Total(step, buf) && NewlineScans(step, buf)
    requires Pending(s.st, key, value, q) && IsValue(value) && |s.cfg.sections| > 0
    requires At(buf, q, value + [NEWLINE]) && q + |value| >= 2
    requires stop == q + |value| + 1 && c1 == AddPair(s.cfg, KeyValue(key, value), s.st.line) && n1 == s.st.line + 1
    ensures Landed(Fold(step, s, q + |value|, stop), c1, s.log, n1)
  {
    PairNewlineStep(step, buf, s, q, key, value);
  }

  /** The session once the `#` of a note after a value has completed the pair and opened the comment. */
  function PairNoteOpened(s: Session, value: seq<byte>, p: int, n: int): Session
    requires |s.cfg.sections| > 0
  {
    var u := PairClosed(Advance(MarkBlank(s, p), n), value);
    Advance(u.(st := u.st.(lvc := -1, begin := p, pcb := -1, proccomment := true)), 1)
  }

  /** The blanks and `#` of a note after a non-empty value at `q`. */
  lemma PairNoteStart(step: (Session, nat) --> Outcome, buf: seq<byte>, s: Session, q: nat, key: seq<byte>, value: seq<byte>, note: Note)
    requires Total(step, buf) && QuietScans(step, buf) && BlankScans(step, buf) && HashScans(step, buf)
    requires Pending(s.st, key, value, q) && IsValue(value) && |value| > 0 && q + |value| >= 2 && |s.cfg.sections| > 0
    requires IsNote(note) && At(buf, q, value + (note.indent + [HASH]))
    ensures var p := q + |value|; var n := |note.indent|;
      Fold(step, s, p, p + n + 1) == Next(PairNoteOpened(s, value, p, n))
  {
    var p := q + |value|;
    var n := |note.indent|;
    AtParts(buf, q, value, note.indent + [HASH]);
    AtParts(buf, p, note.indent, [HASH]);
    IndentFold(step, buf, s, p, note.indent);
    var s1 := Advance(MarkBlank(s, p), n);
    FoldChain(step, buf, s, s1, p, p + n, p + n + 1);
    AtByte(buf, p + n, [HASH], 0);
    PairHashStep(step, buf, s, q, key, value, p, n);
  }

  /** The `#` after the blanks that ended a non-empty value completes the pair and opens the comment. */
  lemma PairHashStep(step: (Session, nat) --> Outcome, buf: seq<byte>, s: Session, q: nat, key: seq<byte>, value: seq<byte>,
                     p: nat, n: nat)
    requires Total(step, buf) && HashScans(step, buf)
    requires Pending(s.st, key, value, q) && IsValue(value) && |value| > 0 && |s.cfg.sections| > 0
    requires p == q + |value| && p >= 2 && At(buf, q, value) && p + n < |buf| && buf[p + n] == HASH
    ensures Fold(step, Advance(MarkBlank(s, p), n), p + n, p + n + 1) == Next(PairNoteOpened(s, value, p, n))
  {
    var s1 := Advance(MarkBlank(s, p), n);
    HashPairStep(step, buf, s1, p + n);
    assert s1.st.lvc == p - 1;
    ValueClose(s1, buf, q, value, p - 1);
    var u := PairClosed(s1, value);
    assert ClosePair(s1, buf, s1.st.lvc) == Next(u);
    assert u.st.pcb == p;
    assert Fold(step, s1, p + n, p + n + 1) == Next(Advance(u.(st := u.st.(lvc := -1, begin := u.st.pcb, pcb := -1, proccomment := true)), 1));
  }

  /**
   A note after a non-empty value: the first blank ends the value, `#`
   completes the pair and starts the comment, and the line feed adds it.
   */
  lemma PairNoteFold(step: (Session, nat) --> Outcome, buf: seq<byte>, s: Session, q: nat, key: seq<byte>, value: seq<byte>, note: Note,
                     stop: nat, c1: Config, n1: int)
    requires Total(step, buf) && QuietScans(step, buf) && BlankScans(step, buf) && HashScans(step, buf) && NewlineScans(step, buf)
    requires Pending(s.st, key, value, q) && IsValue(value) && |value| > 0 && q + |value| >= 2 && |s.cfg.sections| > 0
    requires IsNote(note) && At(buf, q, value + (NoteText(note) + [NEWLINE]))
    requires stop == q + |value| + |NoteText(note)| + 1 && n1 == s.st.line + 1
    requires c1 == AddComment(AddPair(s.cfg, KeyValue(key, value), s.st.line), NoteText(note), s.st.line)
    ensures Landed(Fold(step, s, q + |value|, stop), c1, s.log, n1)
  {
    var p := q + |value|;
    var n := |note.indent|;
    NoteAfterValue(buf, q, value, note);
    PairNoteStart(step, buf, s, q, key, value, note);
    var s2 := PairNoteOpened(s, value, p, n);
    FoldChain(step, buf, s, s2, p, p + n + 1, stop);
    CommentFold(step, buf, s2, p, note);
    PairNoteEnds(s, key, value, p, n, NoteText(note), c1, n1);
  }

  lemma NoteAfterValue(buf: seq<byte>, q: nat, value: seq<byte>, note: Note)
    requires At(buf, q, value + (NoteText(note) + [NEWLINE]))
    ensures At(buf, q, value + (note.indent + [HASH]))
    ensures At(buf, q + |value|, NoteText(note) + [NEWLINE])
  {
    AtParts(buf, q, value, NoteText(note) + [NEWLINE]);
    assert value + (note.indent + [HASH]) == (value + (NoteText(note) + [NEWLINE]))[..|value| + |note.indent| + 1];
  }

  lemma PairNoteEnds(s: Session, key: seq<byte>, value: seq<byte>, p: int, n: int, text: seq<byte>, c1: Config, n1: int)
    requires Pending(s.st, key, value, p - |value|) && |value| > 0 && |s.cfg.sections| > 0
    requires c1 == AddComment(AddPair(s.cfg, KeyValue(key, value), s.st.line), text, s.st.line) && n1 == s.st.line + 1
    ensures Landed(Next(CommentAdded(PairNoteOpened(s, value, p, n), text)), c1, s.log, n1)
  {
  }

  /** What a line's optional note adds to `c` on line `n`. */
  function NoteEffect(c: Config, note: Option<Note>, n: int): Config
  {
    match note
    case None => c
    case Some(nt) => AddComment(c, NoteText(nt), n)
  }

  lemma ApplyIsHeadThenNote(c: Config, l: Line, n: int)
    ensures Apply(c, l, n) == NoteEffect(ApplyHead(c, l.head, n), l.note, n)
  {
  }

  /** The end of a line after its head item, read with no token open: the note, if any, then the line feed. */
  lemma LineRestFold(step: (Session, nat) --> Outcome, buf: seq<byte>, s: Session, p: nat, note: Option<Note>,
                     stop: nat, c1: Config, n1: int)
    requires Total(step, buf) && QuietScans(step, buf) && BlankScans(step, buf) && HashScans(step, buf) && NewlineScans(step, buf)
    requires Idle(s.st) && (note.Some? ==> IsNote(note.value)) && At(buf, p, OptionalNoteText(note) + [NEWLINE])
    requires stop == p + |OptionalNoteText(note)| + 1 && c1 == NoteEffect(s.cfg, note, s.st.line) && n1 == s.st.line + 1
    ensures Landed(Fold(step, s, p, stop), c1, s.log, n1)
  {
    match note
    case None =>
      AtByte(buf, p, [NEWLINE], 0);
      NewlineStep(step, buf, s, p);
    case Some(nt) =>
      NoteFold(step, buf, s, p, nt, stop, c1, n1);
  }

  /** A section header line. */
  lemma SectionLineFold(step: (Session, nat) --> Outcome, buf: seq<byte>, s: Session, p: nat, name: seq<byte>, note: Option<Note>,
                        stop: nat, c1: Config, n1: int)
    requires Scans(step, buf)
    requires Idle(s.st) && IsName(name) && (note.Some? ==> IsNote(note.value))
    requires At(buf, p, HeadText(SectionHead(name)) + (OptionalNoteText(note) + [NEWLINE]))
    requires stop == p + |name| + 2 + |OptionalNoteText(note)| + 1 && n1 == s.st.line + 1
    requires c1 == NoteEffect(AddSection(s.cfg, name, s.st.line), note, s.st.line)
    ensures Landed(Fold(step, s, p, stop), c1, s.log, n1)
  {
    var h := HeadText(SectionHead(name));
    AtParts(buf, p, h, OptionalNoteText(note) + [NEWLINE]);
    SectionHeadFold(step, buf, s, p, name);
    var s1 := Fold(step, s, p, p + |h|).s;
    FoldChain(step, buf, s, s1, p, p + |h|, stop);
    LineRestFold(step, buf, s1, p + |h|, note, stop, c1, n1);
  }

  /** The rest of an assignment line after its head text. */
  lemma PairRestFold(step: (Session, nat) --> Outcome, buf: seq<byte>, s: Session, q: nat, key: seq<byte>, value: seq<byte>, note: Option<Note>,
                     stop: nat, c1: Config, n1: int)
    requires Total(step, buf) && QuietScans(step, buf) && BlankScans(step, buf) && HashScans(step, buf) && NewlineScans(step, buf)
    requires Pending(s.st, key, value, q) && IsValue(value) && q + |value| >= 2 && |s.cfg.sections| > 0
    requires note.Some? ==> IsNote(note.value) && |value| > 0
    requires At(buf, q, value + (OptionalNoteText(note) + [NEWLINE]))
    requires stop == q + |value| + |OptionalNoteText(note)| + 1 && n1 == s.st.line + 1
    requires c1 == NoteEffect(AddPair(s.cfg, KeyValue(key, value), s.st.line), note, s.st.line)
    ensures Landed(Fold(step, s, q + |value|, stop), c1, s.log, n1)
  {
    match note
    case None =>
      assert value + (OptionalNoteText(note) + [NEWLINE]) == value + [NEWLINE];
      PairLineEnd(step, buf, s, q, key, value, stop, c1, n1);
    case Some(nt) =>
      PairNoteFold(step, buf, s, q, key, value, nt, stop, c1, n1);
  }

  /** An assignment line, under a current section. */
  lemma AssignmentLineFold(step: (Session, nat) --> Outcome, buf: seq<byte>, s: Session, p: nat, key: seq<byte>, value: seq<byte>,
                           note: Option<Note>, stop: nat, c1: Config, n1: int)
    requires Scans(step, buf)
    requires Idle(s.st) && IsName(key) && IsValue(value) && p >= 1 && |s.cfg.sections| > 0
    requires note.Some? ==> IsNote(note.value) && |value| > 0
    requires At(buf, p, HeadText(Assignment(key, value)) + (OptionalNoteText(note) + [NEWLINE]))
    requires stop == p + |key| + 1 + |value| + |OptionalNoteText(note)| + 1 && n1 == s.st.line + 1
    requires c1 == NoteEffect(AddPair(s.cfg, KeyValue(key, value), s.st.line), note, s.st.line)
    ensures Landed(Fold(step, s, p, stop), c1, s.log, n1)
  {
    var q := p + |key| + 1;
    var rest := OptionalNoteText(note) + [NEWLINE];
    AtParts(buf, p, HeadText(Assignment(key, value)), rest);
    AssignmentFold(step, buf, s, p, key, value);
    var s1 := Fold(step, s, p, q + |value|).s;
    FoldChain(step, buf, s, s1, p, q + |value|, stop);
    AssignmentRest(buf, p, key, value, rest);
    PairRestFold(step, buf, s1, q, key, value, note, stop, c1, n1);
  }

  lemma AssignmentRest(buf: seq<byte>, p: nat, key: seq<byte>, value: seq<byte>, rest: seq<byte>)
    requires At(buf, p, HeadText(Assignment(key, value)) + rest)
    ensures At(buf, p + |key| + 1, value + rest)
  {
    assert HeadText(Assignment(key, value)) + rest == (key + [EQUALS]) + (value + rest);
    AtParts(buf, p, key + [EQUALS], value + rest);
  }

  /** One well-formed line, read with no token open: the document grows as `Apply` says. */
  lemma LineFold(step: (Session, nat) --> Outcome, buf: seq<byte>, s: Session, p: nat, l: Line)
    requires Scans(step, buf)
    requires Idle(s.st) && WellFormedLine(l) && At(buf, p, LineText(l))
    requires l.head.Assignment? ==> p >= 1 && |s.cfg.sections| > 0
    ensures Landed(Fold(step, s, p, p + |LineText(l)|), Apply(s.cfg, l, s.st.line), s.log, s.st.line + 1)
  {
    var rest := OptionalNoteText(l.note) + [NEWLINE];
    var stop, c1, n1 := p + |LineText(l)|, Apply(s.cfg, l, s.st.line), s.st.line + 1;
    assert LineText(l) == HeadText(l.head) + rest;
    ApplyIsHeadThenNote(s.cfg, l, s.st.line);
    match l.head
    case NoHead =>
      assert LineText(l) == rest;
      LineRestFold(step, buf, s, p, l.note, stop, c1, n1);
    case SectionHead(name) =>
      SectionLineFold(step, buf, s, p, name, l.note, stop, c1, n1);
    case Assignment(key, value) =>
      AssignmentLineFold(step, buf, s, p, key, value, l.note, stop, c1, n1);
  }

  lemma {:induction false} FileTextLength(lines: seq<Line>)
    ensures |FileText(lines)| >= |lines|
  {
    if |lines| > 0 {
      FileTextLength(lines[..|lines| - 1]);
    }
  }

  /**
   Reading `buf[p..stop]` from `s` carries on, builds the document `c`, adds no
   message, and ends idle on line `line`.
   */
  ghost predicate ReadsTo(step: (Session, nat) --> Outcome, buf: seq<byte>, s: Session, p: nat, stop: nat, c: Config, line: int)
  {
    p <= stop <= |buf| && Total(step, buf) && Landed(Fold(step, s, p, stop), c, s.log, line)
  }

  /** The scanner carried on and stopped idle on line `line`, with document `c` and log `log`. */
  predicate Landed(r: Outcome, c: Config, log: seq<LogEntry>, line: int)
  {
    r.Next? && r.s.cfg == c && r.s.log == log && Idle(r.s.st) && r.s.st.line == line
  }

  /** Reading the well-formed line `l` at `m` from an idle session builds what `Apply` says. */
  ghost predicate LineReads(step: (Session, nat) --> Outcome, buf: seq<byte>, s: Session, m: nat, l: Line)
  {
    (Idle(s.st) && WellFormedLine(l) && At(buf, m, LineText(l)) && (l.head.Assignment? ==> m >= 1 && |s.cfg.sections| > 0))
      ==> ReadsTo(step, buf, s, m, m + |LineText(l)|, Apply(s.cfg, l, s.st.line), s.st.line + 1)
  }

  /** `step` reads every well-formed line of `buf` as `LineFold` says. */
  ghost predicate LinesScan(step: (Session, nat) --> Outcome, buf: seq<byte>)
  {
    Total(step, buf) && forall s, m, l {:trigger LineReads(step, buf, s, m, l)} :: LineReads(step, buf, s, m, l)
  }

  lemma ScansLines(step: (Session, nat) --> Outcome, buf: seq<byte>)
    requires Scans(step, buf)
    ensures LinesScan(step, buf)
  {
    forall s, m, l ensures LineReads(step, buf, s, m, l) {
      if Idle(s.st) && WellFormedLine(l) && At(buf, m, LineText(l)) && (l.head.Assignment? ==> m >= 1 && |s.cfg.sections| > 0) {
        LineFold(step, buf, s, m, l);
      }
    }
  }

  /** Reading on through one more line, to `stop`, building `c1`, ending on line `n1`. */
  lemma NextLineFold(step: (Session, nat) --> Outcome, buf: seq<byte>, s: Session, p: nat, m: nat, l: Line, c: Config, n: int,
                     stop: nat, c1: Config, n1: int)
    requires LinesScan(step, buf) && ReadsTo(step, buf, s, p, m, c, n)
    requires WellFormedLine(l) && At(buf, m, LineText(l))
    requires l.head.Assignment? ==> m >= 1 && |c.sections| > 0
    requires stop == m + |LineText(l)| && c1 == Apply(c, l, n) && n1 == n + 1
    ensures ReadsTo(step, buf, s, p, stop, c1, n1)
  {
    var t := Fold(step, s, p, m).s;
    assert LineReads(step, buf, t, m, l);
    FoldChain(step, buf, s, t, p, m, m + |LineText(l)|);
  }

  /**
   Well-formed lines, read from the start of a line with no token open: the
   document grows as `Build` says, one line at a time.
   */
  lemma {:induction false} FileFold(step: (Session, nat) --> Outcome, buf: seq<byte>, s: Session, p: nat, lines: seq<Line>,
                                    stop: nat, c: Config, n: int)
    requires LinesScan(step, buf)
    requires Idle(s.st) && WellFormedFile(lines) && At(buf, p, FileText(lines))
    requires stop == p + |FileText(lines)| && c == Build(s.cfg, lines, s.st.line) && n == s.st.line + |lines|
    ensures ReadsTo(step, buf, s, p, stop, c, n)
  {
    if |lines| == 0 {
      NoLinesFold(step, buf, s, p, stop, c, n);
    } else {
      var init := lines[..|lines| - 1];
      var m, c0, n0 := p + |FileText(init)|, Build(s.cfg, init, s.st.line), s.st.line + |init|;
      SplitFile(buf, p, lines, s.cfg, s.st.line);
      FileFold(step, buf, s, p, init, m, c0, n0);
      assert LinesScan(step, buf) && |lines| > 0;
      assert ReadsTo(step, buf, s, p, m, c0, n0);
      assert m == p + |FileText(lines[..|lines| - 1])| && c0 == Build(s.cfg, lines[..|lines| - 1], s.st.line);
      assert n0 == s.st.line + |lines| - 1;
      assert WellFormedLine(Last(lines)) && At(buf, m, LineText(Last(lines)));
      assert m + |LineText(Last(lines))| == p + |FileText(lines)|;
      assert Last(lines).head.Assignment? ==> m >= 1 && |c0.sections| > 0;
      assert stop == p + |FileText(lines)| && c == Build(s.cfg, lines, s.st.line) && n == s.st.line + |lines|;
      LastLineFold(step, buf, s, p, lines, m, c0, n0, stop, c, n);
    }
  }

  /** The last of well-formed lines: where it stands, and the document before and after it. */
  lemma SplitFile(buf: seq<byte>, p: nat, lines: seq<Line>, c: Config, n: int)
    requires WellFormedFile(lines) && At(buf, p, FileText(lines)) && |lines| > 0
    ensures var init := lines[..|lines| - 1]; var m := p + |FileText(init)|;
      && WellFormedFile(init) && At(buf, p, FileText(init))
      && WellFormedLine(Last(lines)) && At(buf, m, LineText(Last(lines)))
      && m + |LineText(Last(lines))| == p + |FileText(lines)|
      && (Last(lines).head.Assignment? ==> m >= 1 && |Build(c, init, n).sections| > 0)
  {
    var init := lines[..|lines| - 1];
    AtParts(buf, p, FileText(init), LineText(Last(lines)));
    if Last(lines).head.Assignment? {
      FileTextLength(init);
      BuildHasSection(c, init, n);
    }
  }

  /**
   The inductive step of `FileFold`: having read `lines[..|lines| - 1]` up to
   `m`, building `c` and reaching line `n`, one more line is read.
   */
  lemma LastLineFold(step: (Session, nat) --> Outcome, buf: seq<byte>, s: Session, p: nat, lines: seq<Line>,
                     m: nat, c: Config, n: int, stop: nat, c1: Config, n1: int)
    requires LinesScan(step, buf) && |lines| > 0
    requires ReadsTo(step, buf, s, p, m, c, n)
    requires m == p + |FileText(lines[..|lines| - 1])| && c == Build(s.cfg, lines[..|lines| - 1], s.st.line)
    requires n == s.st.line + |lines| - 1
    requires WellFormedLine(Last(lines)) && At(buf, m, LineText(Last(lines)))
    requires m + |LineText(Last(lines))| == p + |FileText(lines)|
    requires Last(lines).head.Assignment? ==> m >= 1 && |c.sections| > 0
    requires stop == p + |FileText(lines)| && c1 == Build(s.cfg, lines, s.st.line) && n1 == s.st.line + |lines|
    ensures ReadsTo(step, buf, s, p, stop, c1, n1)
  {
    BuildNext(s.cfg, lines, c, s.st.line);
    assert c1 == Apply(c, Last(lines), n);
    assert stop == m + |LineText(Last(lines))|;
    NextLineFold(step, buf, s, p, m, Last(lines), c, n, stop, c1, n1);
  }

  lemma NoLinesFold(step: (Session, nat) --> Outcome, buf: seq<byte>, s: Session, p: nat, stop: nat, c: Config, n: int)
    requires Total(step, buf) && Idle(s.st) && p == stop <= |buf| && c == s.cfg && n == s.st.line
    ensures ReadsTo(step, buf, s, p, stop, c, n)
  {
    assert Fold(step, s, p, p) == Next(s);
  }

  /** Well-formed lines, read by a step that reads lines as `LineFold` says, from the initial state. */
  lemma LinesReadBy(step: (Session, nat) --> Outcome, buf: seq<byte>, lines: seq<Line>, c: Config, n: int)
    requires LinesScan(step, buf) && WellFormedFile(lines) && buf == FileText(lines)
    requires c == Build(EmptyConfig, lines, 1) && n == 1 + |lines|
    ensures Landed(Fold(step, InitialSession, 0, |buf|), c, [], n)
  {
    assert At(buf, 0, FileText(lines));
    FileFold(step, buf, InitialSession, 0, lines, |buf|, c, n);
  }

  /** The bytes of well-formed lines, scanned from the initial state, build the document they describe. */
  lemma LinesRead(lines: seq<Line>)
    requires WellFormedFile(lines)
    ensures var text := FileText(lines);
      Landed(Run(InitialSession, text, 0, |text|), Build(EmptyConfig, lines, 1), [], 1 + |lines|)
  {
    var text := FileText(lines);
    StepOnReadsLines(text);
    LinesReadBy(StepOn(text), text, lines, Build(EmptyConfig, lines, 1), 1 + |lines|);
  }

  lemma StepOnReadsLines(buf: seq<byte>)
    ensures LinesScan(StepOn(buf), buf)
  {
    StepOnScans(buf);
    ScansLines(StepOn(buf), buf);
  }

  /** A buffer whose loop stops idle needs no partial-token flags: `CF_ProcessLine` ends where the loop does. */
  lemma ProcessLineLands(s: Session, buf: seq<byte>, c: Config, log: seq<LogEntry>, line: int)
    requires Landed(Run(s, buf, 0, |buf|), c, log, line)
    ensures Landed(ProcessLine(s, buf), c, log, line)
  {
  }

  lemma ReadConfigOne(buf: seq<byte>)
    ensures ReadConfig([buf]) == ProcessLine(InitialSession, buf)
  {
    var none: seq<seq<byte>> := [];
    assert [buf][..0] == none;
    assert ReadFrom(InitialSession, none) == Next(InitialSession);
  }

  /**
   `CF_ReadConfigFile` on a file holding well-formed lines, delivered in one
   buffer: the document is the one the lines describe, with no messages, and
   the scanner ends idle on the line after the last.
   */
  lemma ReadConfigOfFileText(lines: seq<Line>)
    requires WellFormedFile(lines)
    ensures Landed(ReadConfig([FileText(lines)]), Build(EmptyConfig, lines, 1), [], 1 + |lines|)
  {
    var text := FileText(lines);
    LinesRead(lines);
    ProcessLineLands(InitialSession, text, Build(EmptyConfig, lines, 1), [], 1 + |lines|);
    ReadConfigOne(text);
  }
}

=== FILE: roundtrip.dfy ===
/**
 Reading a configuration file and writing the document back.

 For a well-formed file, the text the writer produces is the file without
 its leading and trailing blank lines, and reading that text and writing it
 again produces it unchanged. The writer as written loses the blank lines
 that follow a line holding both an assignment and a comment.
 */
module RoundTrip {
  import opened Bytes
  import opened Document
  import opened Lines
  import opened Scanner
  import opened Reading
  import opened Writer

  predicate AllBlank(lines: seq<Line>)
  {
    forall k :: 0 <= k < |lines| ==> IsBlankLine(lines[k])
  }

  /**
   Reading a well-formed file in one buffer and writing the document gives
   the lines from the first with an item to the last, without a message.
   */
  lemma WriteReadBack(lead: seq<Line>, body: seq<Line>, trail: seq<Line>)
    requires WellFormedFile(lead + body + trail) && AllBlank(lead) && AllBlank(trail)
    requires |body| > 0 && !IsBlankLine(body[0]) && !IsBlankLine(Last(body))
    ensures var r := ReadConfig([FileText(lead + body + trail)]);
      && r.Next? && r.s.log == [] && RefsValid(r.s.cfg)
      && Write(r.s.cfg) == FileText(body)
  {
    ReadConfigOfFileText(lead + body + trail);
    WriteBuilt(lead, body, trail);
  }

  /** `WriteReadBack` for a text given by name. */
  lemma ReadBackText(lead: seq<Line>, body: seq<Line>, trail: seq<Line>, text: seq<byte>)
    requires WellFormedFile(lead + body + trail) && AllBlank(lead) && AllBlank(trail)
    requires |body| > 0 && !IsBlankLine(body[0]) && !IsBlankLine(Last(body))
    requires text == FileText(lead + body + trail)
    ensures var r := ReadConfig([text]);
      && r.Next? && RefsValid(r.s.cfg) && Write(r.s.cfg) == FileText(body)
  {
    WriteReadBack(lead, body, trail);
  }

  /** The text written for a well-formed file, read and written again, comes out unchanged. */
  lemma WriteIsStable(lead: seq<Line>, body: seq<Line>, trail: seq<Line>)
    requires WellFormedFile(lead + body + trail) && AllBlank(lead) && AllBlank(trail)
    requires |body| > 0 && !IsBlankLine(body[0]) && !IsBlankLine(Last(body))
    ensures var r := ReadConfig([FileText(lead + body + trail)]);
      && r.Next? && RefsValid(r.s.cfg)
      && var again := ReadConfig([Write(r.s.cfg)]);
      && again.Next? && RefsValid(again.s.cfg)
      && Write(again.s.cfg) == Write(r.s.cfg)
  {
    ReadBackText(lead, body, trail, FileText(lead + body + trail));
    var r := ReadConfig([FileText(lead + body + trail)]);
    WellFormedPrefix(lead + body, trail);
    WellFormedDropBlank(lead, body);
    BareBody(body);
    ReadBackText([], body, [], Write(r.s.cfg));
  }

  lemma BareBody(body: seq<Line>)
    ensures [] + body + [] == body
  {
  }

  lemma {:induction false} WellFormedPrefix(a: seq<Line>, b: seq<Line>)
    requires WellFormedFile(a + b)
    ensures WellFormedFile(a)
  {
    if |b| == 0 {
      assert a + b == a;
    } else {
      var ab := a + b;
      assert ab[..|ab| - 1] == a + b[..|b| - 1];
      WellFormedPrefix(a, b[..|b| - 1]);
    }
  }

  lemma {:induction false} NoSectionInBlank(lines: seq<Line>)
    requires AllBlank(lines)
    ensures !HasSection(lines)
  {
    if |lines| > 0 {
      NoSectionInBlank(lines[..|lines| - 1]);
    }
  }

  lemma {:induction false} SectionAfterBlank(lead: seq<Line>, rest: seq<Line>)
    requires AllBlank(lead) && HasSection(lead + rest)
    ensures HasSection(rest)
  {
    if |rest| == 0 {
      assert lead + rest == lead;
      NoSectionInBlank(lead);
    } else {
      var all := lead + rest;
      assert Last(all) == Last(rest);
      if !Last(rest).head.SectionHead? {
        assert all[..|all| - 1] == lead + rest[..|rest| - 1];
        SectionAfterBlank(lead, rest[..|rest| - 1]);
      }
    }
  }

  /** Leading blank lines are not needed for a file to be well formed. */
  lemma {:induction false} WellFormedDropBlank(lead: seq<Line>, rest: seq<Line>)
    requires AllBlank(lead) && WellFormedFile(lead + rest)
    ensures WellFormedFile(rest)
  {
    if |rest| > 0 {
      var all := lead + rest;
      var init := rest[..|rest| - 1];
      assert all[..|all| - 1] == lead + init;
      assert Last(all) == Last(rest);
      WellFormedDropBlank(lead, init);
      if Last(rest).head.Assignment? {
        SectionAfterBlank(lead, init);
      }
    }
  }

  /**
   A pair with its comment on line `n` and a further item on line `n + 2`:
   the writer as written runs the pair line straight into the next item, and
   the corrected one keeps the blank line between them.
   */
  lemma AsWrittenLosesBlankLine(n: int, key: seq<byte>, note: seq<byte>, next: seq<byte>)
    ensures var items := [Item(n, key), Item(n, note), Item(n + 2, next)];
      && LayoutAsWritten(items) == key + note + [NEWLINE] + next + [NEWLINE]
      && Layout(items) == key + note + [NEWLINE] + [NEWLINE] + next + [NEWLINE]
  {
    var items := [Item(n, key), Item(n, note), Item(n + 2, next)];
    var last := [Item(n + 2, next)];
    assert items[2..] == last && last[1..] == [];
    assert BlankLines(1) == [NEWLINE] && BlankLines(-1) == [];
    assert LayoutAsWritten(last) == next + [NEWLINE] + [] + [];
    assert Layout(last) == next + [NEWLINE] + [] + [];
  }
}

=== FILE: scanner.dfy ===
/**
 The configuration scanner (`CF_ProcessLine`): a byte-at-a-time state
 machine over one read buffer that completes sections, key-value pairs and
 comments into the document and logs an error on the first byte it rejects.

 `ScanState` mirrors `processline_t`. The buffer position `bindex` is the
 argument `i` of `Step`; `currsection`, `currkeyvalue`, `currcomment` and
 `currindex` always point at the last element of their list, which is where
 the document's append operations add. Each call of `Step` handles one byte
 (one turn of the `while` loop), `Run` folds it over a stretch of the buffer,
 and `ProcessLine` is one call of `CF_ProcessLine`, including the partial-token
 flags it sets when the buffer ends.
 */
module Scanner {
  import opened Bytes
  import opened Classifier
  import opened Slicing
  import opened Document

  datatype LogKind = LogError | LogWarning | LogInfo

  /** The message formats `MSGSECTION` … `MSGNOCOMMENT`. */
  datatype Message =
    | SectionWithoutOpen | EmptySection | InvalidChar | EmptyKey | Striped
    | InvalidSectionChar | InvalidValueChar | InvalidKeyChar | NoComment

  datatype LogEntry = LogEntry(kind: LogKind, message: Message, line: int, character: int)

  datatype ScanState = ScanState(
    line: int, character: int,
    begin: int, end: int, lvc: int, pcb: int,
    psection: bool, pkey: bool, pvalue: bool, pcomment: bool,
    procsection: bool, prockey: bool, procvalue: bool, equal: bool, proccomment: bool,
    sectionName: seq<byte>, keyName: seq<byte>, valueName: seq<byte>, comment: seq<byte>)

  /**
   The scanner's state, the document built so far and the log. The log is
   newest first, as `CF_WriteLog` pushes every entry on the front of `LogList`.
   */
  datatype Session = Session(st: ScanState, cfg: Config, log: seq<LogEntry>)

  /** What the scanner does with a byte: carry on, stop with an error (`return FALSE`), or hit undefined behaviour. */
  datatype Outcome = Next(s: Session) | Fail(s: Session) | Undefined(hazard: Hazard)

  /** The state `CF_NewProcessLine` sets up. */
  const InitialState: ScanState :=
    ScanState(1, 1, -1, -1, -1, -1,
              false, false, false, false, false, false, false, false, false,
              [], [], [], [])

  const InitialSession: Session := Session(InitialState, EmptyConfig, [])

  /**
   Relations between the flags that every reachable state keeps: a comment
   excludes every other token, a value only follows an `=`, and an `=` ends
   the key.
   */
  predicate Coherent(st: ScanState)
  {
    && (st.proccomment ==> !st.procsection && !st.prockey && !st.procvalue)
    && (st.procvalue ==> st.equal)
    && (st.equal ==> !st.prockey)
  }

  /**
   The error a byte raises in a state, if any: the error table of the
   scanner, stated per byte class. `#` is checked even inside a comment;
   every other byte is ignored inside a comment.
   */
  function Complaint(st: ScanState, c: byte): Option<Message>
  {
    if c == HASH then (if st.procsection || st.prockey then Some(NoComment) else None)
    else if st.proccomment || c == LBRACKET then None
    else if c == RBRACKET then (if st.procsection then None else Some(SectionWithoutOpen))
    else if c == SPACE || c == TAB then (if st.procsection then Some(InvalidChar) else None)
    else if c == EQUALS then
      (if st.procsection then Some(InvalidChar) else if !st.prockey then Some(EmptyKey) else None)
    else if c == NEWLINE then (if st.procsection || st.prockey then Some(Striped) else None)
    else if st.psection then None
    else if st.procsection then (if IsCommonChar(c) then None else Some(InvalidSectionChar))
    else if st.equal then (if IsValueChar(c) then None else Some(InvalidValueChar))
    else if IsCommonChar(c) then None else Some(InvalidKeyChar)
  }

  /** The document effect one byte may have, stated per byte: `]` adds sections, `#` pairs, line feeds pairs and comments. */
  predicate EffectAllowed(a: Config, b: Config, line: int, c: byte)
  {
    && DocStep(a, b, line)
    && (SectionAdded(a, b, line) ==> c == RBRACKET)
    && (PairAdded(a, b, line) ==> c == HASH || c == NEWLINE)
    && (CommentAdded(a, b, line) ==> c == NEWLINE)
  }

  /**
   What handling byte `c` in session `s` may lead to, position counters
   aside: failure exactly on a complaint, with one error logged; otherwise an
   allowed document effect, at most a warning on `]`, and coherent flags.
   */
  predicate Handled(s: Session, r: Outcome, c: byte)
  {
    && (r.Fail? <==> Complaint(s.st, c).Some?)
    && (r.Fail? ==> r.s.cfg == s.cfg)
    && (r.Fail? ==> r.s.log == [LogEntry(LogError, Complaint(s.st, c).value, s.st.line, s.st.character)] + s.log)
    && (r.Next? ==> EffectAllowed(s.cfg, r.s.cfg, s.st.line, c))
    && (r.Next? ==> r.s.st.line == s.st.line && r.s.st.character == s.st.character)
    && (r.Next? ==> (r.s.log == s.log ||
          (c == RBRACKET && r.s.log == [LogEntry(LogWarning, EmptySection, s.st.line, s.st.character)] + s.log)))
    && (r.Next? && Coherent(s.st) ==> Coherent(r.s.st))
    && (r == Undefined(NoCurrentSection) ==> |s.cfg.sections| == 0 && (c == HASH || c == NEWLINE))
  }

  function Log(s: Session, kind: LogKind, m: Message): Session
  {
    s.(log := [LogEntry(kind, m, s.st.line, s.st.character)] + s.log)
  }

  /** Fills a token accumulator: `CF_Cat` after a partial token, `CF_Copy` otherwise. */
  function Fill(into: Accumulator, partial: bool, acc: seq<byte>, buf: seq<byte>, b: int, e: int): Filled
  {
    if partial then Cat(into, acc, buf, b, e) else Copy(into, buf, b, e)
  }

  /** `[`: a section name starts on the next byte. */
  function OnOpen(s: Session, i: int): (r: Outcome)
    ensures Handled(s, r, LBRACKET)
  {
    NoChangeEffect(s.cfg, s.st.line);
    if s.st.proccomment then Next(s)
    else Next(s.(st := s.st.(begin := i + 1, procsection := true)))
  }

  /** `]`: the section name ends on the previous byte; the section is added. */
  function OnClose(s: Session, buf: seq<byte>, i: int): (r: Outcome)
    ensures Handled(s, r, RBRACKET)
    ensures !s.st.proccomment && s.st.procsection ==>
      var f := Fill(SectionName, s.st.psection, s.st.sectionName, buf, s.st.begin, i - 1);
      && (r.Next? <==> f.Filled?)
      && (r.Undefined? ==> f == Broken(r.hazard))
      && (r.Next? ==> r.s.cfg == AddSection(s.cfg, CStr(f.text), s.st.line))
      && (r.Next? ==> r.s.log == (if i - 1 < s.st.begin then [LogEntry(LogWarning, EmptySection, s.st.line, s.st.character)] + s.log else s.log))
  {
    NoChangeEffect(s.cfg, s.st.line);
    var st := s.st;
    if st.proccomment then Next(s)
    else if !st.procsection then Fail(Log(s, LogError, SectionWithoutOpen))
    else
      var s1 := if i - 1 < st.begin then Log(s, LogWarning, EmptySection) else s;
      match Fill(SectionName, st.psection, st.sectionName, buf, st.begin, i - 1)
      case Broken(h) => Undefined(h)
      case Filled(name) =>
        AddSectionEffect(s.cfg, CStr(name), st.line);
        Next(Session(
          st.(sectionName := [], begin := -1, end := -1, psection := false, procsection := false),
          AddSection(s.cfg, CStr(name), st.line),
          s1.log))
  }

  /**
   Completes the pending key-value pair with the value ending at `e`, adds it
   to the current section and clears the key and value.
   */
  function ClosePair(s: Session, buf: seq<byte>, e: int): (r: Outcome)
    ensures r.Next? ==> PairAdded(s.cfg, r.s.cfg, s.st.line) && r.s.log == s.log
    ensures r.Next? ==> r.s.st == s.st.(procvalue := false, keyName := [], valueName := [], begin := -1, end := -1)
    ensures !r.Fail?
    ensures var f := Fill(ValueName, s.st.pvalue, s.st.valueName, buf, s.st.begin, e);
      && (r.Next? <==> f.Filled? && |s.cfg.sections| > 0)
      && (r.Next? ==> r.s.cfg == AddPair(s.cfg, KeyValue(CStr(s.st.keyName), CStr(f.text)), s.st.line))
      && (r.Undefined? ==> f == Broken(r.hazard) || (f.Filled? && r.hazard == NoCurrentSection))
    ensures r == Undefined(NoCurrentSection) ==> |s.cfg.sections| == 0
  {
    var st := s.st;
    match Fill(ValueName, st.pvalue, st.valueName, buf, st.begin, e)
    case Broken(h) => Undefined(h)
    case Filled(value) =>
      if |s.cfg.sections| == 0 then Undefined(NoCurrentSection)
      else
        AddPairEffect(s.cfg, KeyValue(CStr(st.keyName), CStr(value)), st.line);
        Next(Session(
          st.(procvalue := false, keyName := [], valueName := [], begin := -1, end := -1),
          AddPair(s.cfg, KeyValue(CStr(st.keyName), CStr(value)), st.line),
          s.log))
  }

  /**
   `#`: refused inside a section name or key; otherwise a value in progress
   ends at its last non-blank byte, and a comment starts at the first blank
   seen since the last comment (`pcb`).
   */
  function OnHash(s: Session, buf: seq<byte>): (r: Outcome)
    ensures Handled(s, r, HASH)
    ensures !s.st.procsection && !s.st.prockey && s.st.procvalue ==>
      r == match ClosePair(s, buf, s.st.lvc)
           case Next(t) => Next(t.(st := t.st.(lvc := -1, begin := t.st.pcb, pcb := -1, proccomment := true)))
           case other => other
    ensures !s.st.procsection && !s.st.prockey && !s.st.procvalue ==>
      r == Next(s.(st := s.st.(begin := s.st.pcb, pcb := -1, proccomment := true)))
  {
    NoChangeEffect(s.cfg, s.st.line);
    var st := s.st;
    if st.procsection || st.prockey then Fail(Log(s, LogError, NoComment))
    else
      var closed := if st.procvalue then ClosePair(s, buf, st.lvc) else Next(s);
      match closed
      case Next(t) =>
        var lvc := if st.procvalue then -1 else t.st.lvc;
        Next(t.(st := t.st.(lvc := lvc, begin := t.st.pcb, pcb := -1, proccomment := true)))
      case _ => closed
  }

  /** Tab or space: ends a key, marks the end of a value and a possible comment start. */
  function OnBlank(s: Session, buf: seq<byte>, i: int): (r: Outcome)
    requires 0 <= i < |buf| && (buf[i] == SPACE || buf[i] == TAB)
    ensures Handled(s, r, buf[i])
  {
    NoChangeEffect(s.cfg, s.st.line);
    BlankComplaint(s.st, buf[i]);
    var st := s.st;
    if st.proccomment then Next(s)
    else if st.procsection then Fail(Log(s, LogError, InvalidChar))
    else if st.prockey then
      if st.end == -1 then
        match Fill(KeyName, st.pkey, st.keyName, buf, st.begin, i - 1)
        case Broken(h) => Undefined(h)
        case Filled(key) => Next(s.(st := st.(end := i - 1, keyName := key, pkey := false)))
      else Next(s)
    else
      Next(s.(st := st.(lvc := if st.procvalue && st.lvc == -1 then i - 1 else st.lvc,
                        pcb := if st.pcb == -1 then i else st.pcb)))
  }

  lemma BlankComplaint(st: ScanState, c: byte)
    requires c == SPACE || c == TAB
    ensures Complaint(st, c) == if !st.proccomment && st.procsection then Some(InvalidChar) else None
  {
  }

  /** `=`: ends the key (unless a blank already did) and starts the value part. */
  function OnEquals(s: Session, buf: seq<byte>, i: int): (r: Outcome)
    ensures Handled(s, r, EQUALS)
  {
    NoChangeEffect(s.cfg, s.st.line);
    var st := s.st;
    if st.proccomment then Next(s)
    else if st.procsection then Fail(Log(s, LogError, InvalidChar))
    else if !st.prockey then Fail(Log(s, LogError, EmptyKey))
    else if st.equal then Next(s)
    else if st.end == -1 then
      match Fill(KeyName, st.pkey, st.keyName, buf, st.begin, i - 1)
      case Broken(h) => Undefined(h)
      case Filled(key) =>
        Next(s.(st := st.(keyName := key, pkey := false, begin := -1, end := -1, prockey := false, equal := true)))
    else
      Next(s.(st := st.(prockey := false, equal := true)))
  }

  /** Line feed: completes a comment or a key-value pair (before the line count moves on). */
  function OnNewline(s: Session, buf: seq<byte>, i: int): (r: Outcome)
    ensures Handled(s, r, NEWLINE)
    ensures s.st.proccomment ==>
      var f := Fill(CommentText, s.st.pcomment, s.st.comment, buf, s.st.begin, i - 1);
      && (r.Next? <==> f.Filled?)
      && (r.Undefined? ==> f == Broken(r.hazard))
      && (r.Next? ==> r.s.cfg == AddComment(s.cfg, CStr(f.text), s.st.line) && r.s.log == s.log)
    ensures !s.st.proccomment && !s.st.procsection && !s.st.prockey && s.st.equal ==>
      r == ClosePair(s, buf, if s.st.begin != -1 then i - 1 else s.st.end)
    ensures !s.st.proccomment && !s.st.procsection && !s.st.prockey && !s.st.equal ==> r == Next(s)
  {
    NoChangeEffect(s.cfg, s.st.line);
    var st := s.st;
    if st.proccomment then
      match Fill(CommentText, st.pcomment, st.comment, buf, st.begin, i - 1)
      case Broken(h) => Undefined(h)
      case Filled(text) =>
        AddCommentEffect(s.cfg, CStr(text), st.line);
        Next(Session(
          st.(pcomment := false, comment := [], begin := -1, end := -1, pcb := -1, proccomment := false),
          AddComment(s.cfg, CStr(text), st.line),
          s.log))
    else if st.procsection || st.prockey then Fail(Log(s, LogError, Striped))
    else if st.equal then
      var e := if st.begin != -1 then i - 1 else st.end;
      ClosePair(s, buf, e)
    else Next(s)
  }

  /** Any other byte: part of a section name, key or value, checked against the character classes. */
  function OnOther(s: Session, c: byte, i: int): (r: Outcome)
    requires c !in {LBRACKET, RBRACKET, HASH, TAB, SPACE, EQUALS, NEWLINE}
    ensures Handled(s, r, c)
  {
    NoChangeEffect(s.cfg, s.st.line);
    var st := s.st;
    if st.proccomment then Next(s)
    else if st.psection then Next(s.(st := st.(begin := if st.begin == -1 then i else st.begin)))
    else if st.procsection then
      if IsCommonChar(c) then Next(s) else Fail(Log(s, LogError, InvalidSectionChar))
    else if st.equal then
      if !IsValueChar(c) then Fail(Log(s, LogError, InvalidValueChar))
      else Next(s.(st := st.(begin := if st.procvalue then st.begin else i, procvalue := true, lvc := -1)))
    else
      if !IsCommonChar(c) then Fail(Log(s, LogError, InvalidKeyChar))
      else Next(s.(st := st.(begin := if st.prockey then st.begin else i, prockey := true)))
  }

  /** The byte dispatch of the loop body, before the position counters move. */
  function Dispatch(s: Session, buf: seq<byte>, i: int): (r: Outcome)
    requires 0 <= i < |buf|
    ensures Handled(s, r, buf[i])
  {
    var c := buf[i];
    if c == LBRACKET then OnOpen(s, i)
    else if c == RBRACKET then OnClose(s, buf, i)
    else if c == HASH then OnHash(s, buf)
    else if c == TAB || c == SPACE then OnBlank(s, buf, i)
    else if c == EQUALS then OnEquals(s, buf, i)
    else if c == NEWLINE then OnNewline(s, buf, i)
    else OnOther(s, c, i)
  }

  /**
   One turn of the scanner loop on byte `buf[i]`. It fails exactly when the
   byte is refused, logging one error at the current line and character; when
   it carries on, the document grows by at most one item, recorded on the
   current line, and only a section close can add a warning.
   */
  function Step(s: Session, buf: seq<byte>, i: int): (r: Outcome)
    requires 0 <= i < |buf|
    ensures r.Fail? <==> Complaint(s.st, buf[i]).Some?
    ensures r.Fail? ==> r.s.cfg == s.cfg
    ensures r.Fail? ==>
      r.s.log == [LogEntry(LogError, Complaint(s.st, buf[i]).value, s.st.line, s.st.character)] + s.log
    ensures r.Next? ==> DocStep(s.cfg, r.s.cfg, s.st.line)
    ensures r.Next? && SectionAdded(s.cfg, r.s.cfg, s.st.line) ==> buf[i] == RBRACKET
    ensures r.Next? && PairAdded(s.cfg, r.s.cfg, s.st.line) ==> buf[i] == HASH || buf[i] == NEWLINE
    ensures r.Next? && CommentAdded(s.cfg, r.s.cfg, s.st.line) ==> buf[i] == NEWLINE
    ensures r.Next? ==> r.s.st.line == s.st.line + (if buf[i] == NEWLINE then 1 else 0)
    ensures r.Next? ==> r.s.st.character == (if buf[i] == NEWLINE then 1 else s.st.character + 1)
    ensures r.Next? ==> (r.s.log == s.log ||
      (buf[i] == RBRACKET && r.s.log == [LogEntry(LogWarning, EmptySection, s.st.line, s.st.character)] + s.log))
    ensures r.Next? && Coherent(s.st) ==> Coherent(r.s.st)
    ensures r == Undefined(NoCurrentSection) ==> |s.cfg.sections| == 0 && (buf[i] == HASH || buf[i] == NEWLINE)
  {
    match Dispatch(s, buf, i)
    case Next(t) =>
      if buf[i] == NEWLINE then Next(t.(st := t.st.(line := t.st.line + 1, character := 1, equal := false)))
      else Next(t.(st := t.st.(character := t.st.character + 1)))
    case other => other
  }

  /**
   A section name read within one buffer is every byte between the brackets.
   An empty name, `[]`, is not refused: the section is still added, with an
   empty name, and a warning is logged.
   */
  lemma SectionNameBetweenBrackets(s: Session, buf: seq<byte>, i: int)
    requires 0 <= s.st.begin <= i < |buf| && buf[i] == RBRACKET
    requires !s.st.proccomment && s.st.procsection && !s.st.psection
    requires s.st.begin < i ==> 1 < i && NoNul(buf[s.st.begin..i]) && i - s.st.begin <= Capacity(SectionName)
    ensures var r := Step(s, buf, i);
      && r.Next?
      && r.s.cfg == AddSection(s.cfg, buf[s.st.begin..i], s.st.line)
      && r.s.log == (if s.st.begin == i then [LogEntry(LogWarning, EmptySection, s.st.line, s.st.character)] + s.log else s.log)
  {
    CopyFacts(SectionName, buf, s.st.begin, i - 1);
    if s.st.begin == i {
      assert buf[s.st.begin..i] == [] == CStr([]);
    }
    assert Dispatch(s, buf, i) == OnClose(s, buf, i);
  }

  /**
   A value read within one buffer and ended by a line feed is every byte from
   its first to the one before the line feed, trailing and inner blanks
   included.
   */
  lemma ValueRunsToLineEnd(s: Session, buf: seq<byte>, i: int)
    requires 1 < i < |buf| && buf[i] == NEWLINE
    requires !s.st.proccomment && !s.st.procsection && !s.st.prockey && s.st.equal && !s.st.pvalue
    requires 0 <= s.st.begin < i && NoNul(buf[s.st.begin..i]) && i - s.st.begin <= Capacity(ValueName)
    requires |s.cfg.sections| > 0
    ensures var r := Step(s, buf, i);
      && r.Next?
      && r.s.cfg == AddPair(s.cfg, KeyValue(CStr(s.st.keyName), buf[s.st.begin..i]), s.st.line)
      && r.s.log == s.log
  {
    CopyFacts(ValueName, buf, s.st.begin, i - 1);
    assert Dispatch(s, buf, i) == OnNewline(s, buf, i);
  }

  /**
   The comment start `pcb` is cleared only by `#` and by the line feed that
   ends a comment. After a value ended by a blank and a line feed, a `#` at
   the start of the next line therefore starts its comment at that blank, on
   the previous line.
   */
  lemma StaleCommentStart(s: Session, buf: seq<byte>, i: int)
    requires 1 < i && i + 2 < |buf|
    requires buf[i] == SPACE && buf[i + 1] == NEWLINE && buf[i + 2] == HASH
    requires !s.st.proccomment && !s.st.procsection && !s.st.prockey && s.st.equal && s.st.procvalue && !s.st.pvalue
    requires s.st.lvc == -1 && s.st.pcb == -1
    requires 0 <= s.st.begin < i && NoNul(buf[s.st.begin..i + 1]) && i + 1 - s.st.begin <= Capacity(ValueName)
    requires |s.cfg.sections| > 0
    ensures var r1 := Step(s, buf, i);
      && r1.Next?
      && var r2 := Step(r1.s, buf, i + 1);
      && r2.Next?
      && r2.s.cfg == AddPair(s.cfg, KeyValue(CStr(s.st.keyName), buf[s.st.begin..i + 1]), s.st.line)
      && var r3 := Step(r2.s, buf, i + 2);
      && r3.Next?
      && r3.s.st.proccomment && r3.s.st.begin == i
  {
    var r1 := Step(s, buf, i);
    assert Dispatch(s, buf, i) == OnBlank(s, buf, i);
    assert r1.Next? && r1.s.st.pcb == i && r1.s.st.begin == s.st.begin;
    var t := r1.s;
    ValueRunsToLineEnd(t, buf, i + 1);
    var r2 := Step(t, buf, i + 1);
    assert r2.s.st.pcb == i && !r2.s.st.procvalue && !r2.s.st.procsection && !r2.s.st.prockey;
    assert Dispatch(r2.s, buf, i + 2) == OnHash(r2.s, buf);
  }

  /** A blank after a key's bytes ends the key: it is copied and `end` is marked, while `begin` stays on the key's first byte. */
  lemma KeyBlankStep(s: Session, buf: seq<byte>, p: int)
    requires 2 <= p < |buf| && (buf[p] == SPACE || buf[p] == TAB)
    requires !s.st.proccomment && !s.st.procsection && s.st.prockey && !s.st.pkey
    requires s.st.end == -1 && 0 <= s.st.begin < p
    requires NoNul(buf[s.st.begin..p]) && p - s.st.begin <= Capacity(KeyName)
    ensures var f := Copy(KeyName, buf, s.st.begin, p - 1);
      && f.Filled? && CStr(f.text) == buf[s.st.begin..p]
      && Step(s, buf, p) == Next(s.(st := s.st.(end := p - 1, keyName := f.text, character := s.st.character + 1)))
  {
    var f := Copy(KeyName, buf, s.st.begin, p - 1);
    CopyFacts(KeyName, buf, s.st.begin, p - 1);
    assert Fill(KeyName, s.st.pkey, s.st.keyName, buf, s.st.begin, p - 1) == f;
    var t := s.(st := s.st.(end := p - 1, keyName := f.text, pkey := false));
    assert OnBlank(s, buf, p) == Next(t);
    assert Dispatch(s, buf, p) == Next(t);
  }

  /** `=` after a key already ended by a blank only ends the key part; `begin` is not reset. */
  lemma EqualsAfterBlankStep(s: Session, buf: seq<byte>, i: int)
    requires 0 <= i < |buf| && buf[i] == EQUALS
    requires !s.st.proccomment && !s.st.procsection && s.st.prockey && !s.st.equal && s.st.end != -1
    ensures Step(s, buf, i) == Next(s.(st := s.st.(prockey := false, equal := true, character := s.st.character + 1)))
  {
    assert Dispatch(s, buf, i) == OnEquals(s, buf, i);
  }

  lemma NoNulTwoMore(buf: seq<byte>, b: int, p: int)
    requires 0 <= b <= p && p + 2 <= |buf| && NoNul(buf[b..p]) && buf[p] != NUL && buf[p + 1] != NUL
    ensures NoNul(buf[b..p + 2])
  {
    assert buf[b..p + 2] == buf[b..p] + [buf[p], buf[p + 1]];
  }

  /**
   A key ended by a blank keeps `begin` on its first byte: the blank marks
   only `end`, so `=` skips the reset of `begin` and `end`, and a line feed
   straight after `=` copies the value from the key's first byte. A line
   `k =` therefore stores the pair with key `k` and value `k =`.
   */
  lemma BlankEndedKeyEmptyValue(s: Session, buf: seq<byte>, p: int)
    requires 2 <= p && p + 2 < |buf|
    requires (buf[p] == SPACE || buf[p] == TAB) && buf[p + 1] == EQUALS && buf[p + 2] == NEWLINE
    requires !s.st.proccomment && !s.st.procsection && s.st.prockey && !s.st.equal && !s.st.pkey && !s.st.pvalue
    requires s.st.end == -1 && 0 <= s.st.begin < p
    requires NoNul(buf[s.st.begin..p]) && p - s.st.begin <= Capacity(KeyName)
    requires |s.cfg.sections| > 0
    ensures var r1 := Step(s, buf, p);
      && r1.Next?
      && var r2 := Step(r1.s, buf, p + 1);
      && r2.Next?
      && var r3 := Step(r2.s, buf, p + 2);
      && r3.Next?
      && r3.s.cfg == AddPair(s.cfg, KeyValue(buf[s.st.begin..p], buf[s.st.begin..p + 2]), s.st.line)
      && r3.s.log == s.log
  {
    KeyBlankStep(s, buf, p);
    var key := Copy(KeyName, buf, s.st.begin, p - 1).text;
    var t1 := s.(st := s.st.(end := p - 1, keyName := key, character := s.st.character + 1));
    EqualsAfterBlankStep(t1, buf, p + 1);
    var t2 := t1.(st := t1.st.(prockey := false, equal := true, character := t1.st.character + 1));
    NoNulTwoMore(buf, s.st.begin, p);
    ValueRunsToLineEnd(t2, buf, p + 2);
  }

  /** Number of line feeds in `s`. */
  function Newlines(s: seq<byte>): nat
  {
    if |s| == 0 then 0 else Newlines(s[..|s| - 1]) + (if s[|s| - 1] == NEWLINE then 1 else 0)
  }

  lemma NewlinesLast(buf: seq<byte>, start: nat, stop: nat)
    requires start < stop <= |buf|
    ensures Newlines(buf[start..stop]) == Newlines(buf[start..stop - 1]) + (if buf[stop - 1] == NEWLINE then 1 else 0)
  {
    assert buf[start..stop][..stop - 1 - start] == buf[start..stop - 1];
  }

  /** `later` is `earlier` with only empty-section warnings pushed on its front. */
  predicate WarningsAdded(earlier: seq<LogEntry>, later: seq<LogEntry>)
  {
    && |earlier| <= |later|
    && later[|later| - |earlier|..] == earlier
    && forall k :: 0 <= k < |later| - |earlier| ==> later[k].kind == LogWarning && later[k].message == EmptySection
  }

  lemma WarningsAddedStep(l0: seq<LogEntry>, l1: seq<LogEntry>, l2: seq<LogEntry>, line: int, character: int)
    requires WarningsAdded(l0, l1)
    requires l2 == l1 || l2 == [LogEntry(LogWarning, EmptySection, line, character)] + l1
    ensures WarningsAdded(l0, l2)
  {
    if l2 != l1 {
      assert l2[|l2| - |l0|..] == l1[|l1| - |l0|..];
      forall k | 0 <= k < |l2| - |l0| ensures l2[k].kind == LogWarning && l2[k].message == EmptySection {
        if k > 0 { assert l2[k] == l1[k - 1]; }
      }
    }
  }

  /**
   The `while` loop of `CF_ProcessLine` from position `start` to `stop`, for
   any step function: stop at the first outcome that does not carry on.
   */
  function Fold(step: (Session, nat) --> Outcome, s: Session, start: nat, stop: nat): Outcome
    requires start <= stop
    requires forall t, i :: start <= i < stop ==> step.requires(t, i)
    decreases stop
  {
    if stop == start then Next(s)
    else
      match Fold(step, s, start, stop - 1)
      case Next(t) => step(t, stop - 1)
      case other => other
  }

  function StepOn(buf: seq<byte>): (Session, nat) --> Outcome
  {
    (t: Session, i: nat) requires i < |buf| => Step(t, buf, i)
  }

  /** The scanner loop over positions `start` to `stop` of `buf`. */
  function Run(s: Session, buf: seq<byte>, start: nat, stop: nat): Outcome
    requires start <= stop <= |buf|
  {
    Fold(StepOn(buf), s, start, stop)
  }

  /** The facts about one step on byte `c` that carry over a whole stretch of bytes. */
  predicate Carries(t: Session, r: Outcome, c: byte)
  {
    && (r.Fail? <==> Complaint(t.st, c).Some?)
    && (r.Next? ==>
          && Extends(t.cfg, r.s.cfg)
          && (IndexSound(t.cfg, t.st.line) ==> IndexSound(r.s.cfg, r.s.st.line))
          && r.s.st.line == t.st.line + (if c == NEWLINE then 1 else 0)
          && r.s.st.character == (if c == NEWLINE then 1 else t.st.character + 1)
          && (Coherent(t.st) ==> Coherent(r.s.st))
          && WarningsAdded(t.log, r.s.log))
  }

  lemma StepCarries(t: Session, buf: seq<byte>, i: int)
    requires 0 <= i < |buf|
    ensures Carries(t, Step(t, buf, i), buf[i])
  {
    StepEffectsCarry(t, Step(t, buf, i), buf[i]);
  }

  /** The per-step facts `Step` guarantees are enough for `Carries`. */
  lemma StepEffectsCarry(t: Session, r: Outcome, c: byte)
    requires r.Fail? <==> Complaint(t.st, c).Some?
    requires r.Next? ==> DocStep(t.cfg, r.s.cfg, t.st.line)
    requires r.Next? ==> r.s.st.line == t.st.line + (if c == NEWLINE then 1 else 0)
    requires r.Next? ==> r.s.st.character == (if c == NEWLINE then 1 else t.st.character + 1)
    requires r.Next? ==> (r.s.log == t.log ||
      (c == RBRACKET && r.s.log == [LogEntry(LogWarning, EmptySection, t.st.line, t.st.character)] + t.log))
    requires r.Next? && Coherent(t.st) ==> Coherent(r.s.st)
    ensures Carries(t, r, c)
  {
    if r.Next? {
      DocStepExtends(t.cfg, r.s.cfg, t.st.line);
      if IndexSound(t.cfg, t.st.line) {
        DocStepKeepsIndexSound(t.cfg, r.s.cfg, t.st.line);
        IndexSoundLater(r.s.cfg, t.st.line, r.s.st.line);
      }
      assert t.log[|t.log| - |t.log|..] == t.log;
      WarningsAddedStep(t.log, t.log, r.s.log, t.st.line, t.st.character);
    }
  }

  /** Every step of the scanner loop meets `Carries`. */
  lemma StepOnCarries(buf: seq<byte>)
    ensures forall t, i :: 0 <= i < |buf| ==> StepOn(buf).requires(t, i) && Carries(t, StepOn(buf)(t, i), buf[i])
  {
    forall t, i | 0 <= i < |buf| ensures Carries(t, StepOn(buf)(t, i), buf[i]) {
      StepCarries(t, buf, i);
    }
  }

  /**
   From `s` to `r`, when `r` carries on: the document was only appended to,
   `n` lines were counted, the index invariant and coherence were kept and
   only empty-section warnings were logged.
   */
  predicate AppendsOnly(s: Session, r: Outcome, n: nat)
  {
    r.Next? ==>
      && Extends(s.cfg, r.s.cfg)
      && r.s.st.line == s.st.line + n
      && (IndexSound(s.cfg, s.st.line) ==> IndexSound(r.s.cfg, r.s.st.line))
      && (Coherent(s.st) ==> Coherent(r.s.st))
      && WarningsAdded(s.log, r.s.log)
  }

  /** `AppendsOnly` followed by one step that `Carries` is `AppendsOnly` again. */
  lemma AppendsOnlyStep(s: Session, t: Session, r: Outcome, c: byte, n: nat)
    requires AppendsOnly(s, Next(t), n)
    requires Carries(t, r, c)
    ensures AppendsOnly(s, r, n + (if c == NEWLINE then 1 else 0))
  {
    if r.Next? {
      ChainFacts(s, t, r);
    }
  }

  /** A fold of steps that meet `Carries`, when it does not fail, only appends to the document and counts lines. */
  lemma {:induction false} FoldAppendsOnly(step: (Session, nat) --> Outcome, buf: seq<byte>, s: Session, start: nat, stop: nat)
    requires start <= stop <= |buf|
    requires forall t, i :: 0 <= i < |buf| ==> step.requires(t, i) && Carries(t, step(t, i), buf[i])
    decreases stop
    ensures AppendsOnly(s, Fold(step, s, start, stop), Newlines(buf[start..stop]))
  {
    if stop == start {
      ExtendsReflexive(s.cfg);
      assert s.log[|s.log| - |s.log|..] == s.log;
    } else {
      FoldAppendsOnly(step, buf, s, start, stop - 1);
      var prev := Fold(step, s, start, stop - 1);
      NewlinesLast(buf, start, stop);
      if prev.Next? {
        var r := step(prev.s, stop - 1);
        assert Carries(prev.s, r, buf[stop - 1]);
        AppendsOnlyStep(s, prev.s, r, buf[stop - 1], Newlines(buf[start..stop - 1]));
      }
    }
  }

  /** Everything a stretch of bytes does, when it does not fail, is append to the document and count lines. */
  lemma RunAppendsOnly(s: Session, buf: seq<byte>, start: nat, stop: nat)
    requires start <= stop <= |buf|
    ensures AppendsOnly(s, Run(s, buf, start, stop), Newlines(buf[start..stop]))
  {
    StepOnCarries(buf);
    FoldAppendsOnly(StepOn(buf), buf, s, start, stop);
  }

  /** Byte `j` is reached from `start` by the fold without failing and draws a complaint. */
  predicate FoldRefusedAt(step: (Session, nat) --> Outcome, buf: seq<byte>, s: Session, start: nat, j: nat)
    requires forall t, i :: 0 <= i < |buf| ==> step.requires(t, i)
  {
    start <= j < |buf| && Fold(step, s, start, j).Next? && Complaint(Fold(step, s, start, j).s.st, buf[j]).Some?
  }

  lemma {:induction false} FoldFailsIffComplaint(step: (Session, nat) --> Outcome, buf: seq<byte>, s: Session, start: nat, stop: nat)
    requires start <= stop <= |buf|
    requires forall t, i :: 0 <= i < |buf| ==> step.requires(t, i) && Carries(t, step(t, i), buf[i])
    decreases stop
    ensures Fold(step, s, start, stop).Fail? <==> exists j :: start <= j < stop && FoldRefusedAt(step, buf, s, start, j)
  {
    if stop > start {
      FoldFailsIffComplaint(step, buf, s, start, stop - 1);
      var prev := Fold(step, s, start, stop - 1);
      if prev.Next? {
        if FoldRefusedAt(step, buf, s, start, stop - 1) {
          assert Fold(step, s, start, stop).Fail?;
        } else {
          assert !Fold(step, s, start, stop).Fail?;
        }
      } else if prev.Fail? {
        var j :| start <= j < stop - 1 && FoldRefusedAt(step, buf, s, start, j);
        assert start <= j < stop && FoldRefusedAt(step, buf, s, start, j);
      }
    }
  }

  /** Byte `j` is reached from `start` without failing and draws a complaint. */
  predicate RefusedAt(s: Session, buf: seq<byte>, start: nat, j: nat)
  {
    start <= j < |buf| && Run(s, buf, start, j).Next? && Complaint(Run(s, buf, start, j).s.st, buf[j]).Some?
  }

  /**
   A stretch of bytes fails exactly when some byte of it, reached without
   failing, draws a complaint.
   */
  lemma RunFailsIffComplaint(s: Session, buf: seq<byte>, start: nat, stop: nat)
    requires start <= stop <= |buf|
    ensures Run(s, buf, start, stop).Fail? <==> exists j :: start <= j < stop && RefusedAt(s, buf, start, j)
  {
    StepOnCarries(buf);
    FoldFailsIffComplaint(StepOn(buf), buf, s, start, stop);
    forall j | start <= j < stop
      ensures RefusedAt(s, buf, start, j) <==> FoldRefusedAt(StepOn(buf), buf, s, start, j)
    {
    }
  }

  /** Position of the last line feed among `buf[start..stop]`, or -1 when there is none. */
  function LastNewline(buf: seq<byte>, start: nat, stop: nat): (k: int)
    requires start <= stop <= |buf|
    ensures k == -1 || (start <= k < stop && buf[k] == NEWLINE)
    ensures forall m :: k < m < stop && start <= m ==> buf[m] != NEWLINE
    decreases stop
  {
    if stop == start then -1
    else if buf[stop - 1] == NEWLINE then stop - 1
    else LastNewline(buf, start, stop - 1)
  }

  lemma {:induction false} FoldColumn(step: (Session, nat) --> Outcome, buf: seq<byte>, s: Session, start: nat, stop: nat)
    requires start <= stop <= |buf|
    requires forall t, i :: 0 <= i < |buf| ==> step.requires(t, i) && Carries(t, step(t, i), buf[i])
    decreases stop
    ensures var r := Fold(step, s, start, stop); var k := LastNewline(buf, start, stop);
      r.Next? ==> r.s.st.character == (if k == -1 then s.st.character + (stop - start) else stop - k)
  {
    if stop > start {
      FoldColumn(step, buf, s, start, stop - 1);
    }
  }

  /**
   The character counter is the column of the next byte: the number of bytes
   since the last line feed, plus one, or the starting column advanced by every
   byte when there is no line feed.
   */
  lemma RunColumn(s: Session, buf: seq<byte>, start: nat, stop: nat)
    requires start <= stop <= |buf|
    ensures var r := Run(s, buf, start, stop); var k := LastNewline(buf, start, stop);
      r.Next? ==> r.s.st.character == (if k == -1 then s.st.character + (stop - start) else stop - k)
  {
    StepOnCarries(buf);
    FoldColumn(StepOn(buf), buf, s, start, stop);
  }

  /**
   One call of `CF_ProcessLine` on a buffer: the loop over all its bytes,
   then, when it succeeds, the partial-token flags for a token the buffer
   ends in the middle of.
   */
  function ProcessLine(s: Session, buf: seq<byte>): (r: Outcome)
    ensures r.Next? ==> Extends(s.cfg, r.s.cfg)
    ensures r.Next? ==> r.s.st.line == s.st.line + Newlines(buf)
    ensures r.Next? && IndexSound(s.cfg, s.st.line) ==> IndexSound(r.s.cfg, r.s.st.line)
    ensures r.Next? && Coherent(s.st) ==> Coherent(r.s.st)
    ensures r.Next? ==> WarningsAdded(s.log, r.s.log)
    ensures r.Next? ==> r.s.st.psection ==> r.s.st.procsection && r.s.st.begin != -1
    ensures r.Next? ==> r.s.st.pkey ==> r.s.st.prockey && r.s.st.begin != -1
    ensures r.Next? ==> r.s.st.pvalue ==> r.s.st.procvalue && r.s.st.begin != -1
    ensures r.Next? ==> r.s.st.pcomment ==> r.s.st.proccomment && r.s.st.begin != -1
    ensures r.Fail? <==> exists j :: 0 <= j < |buf| && RefusedAt(s, buf, 0, j)
  {
    RunAppendsOnly(s, buf, 0, |buf|);
    RunFailsIffComplaint(s, buf, 0, |buf|);
    assert buf[0..|buf|] == buf;
    match Run(s, buf, 0, |buf|)
    case Next(t) =>
      var st := t.st;
      Next(t.(st := st.(psection := st.procsection && st.begin != -1,
                        pkey := st.prockey && st.begin != -1,
                        pvalue := st.procvalue && st.begin != -1,
                        pcomment := st.proccomment && st.begin != -1)))
    case other => other
  }

  function TotalNewlines(bufs: seq<seq<byte>>): nat
  {
    if |bufs| == 0 then 0 else TotalNewlines(bufs[..|bufs| - 1]) + Newlines(bufs[|bufs| - 1])
  }

  /** `CF_ProcessLine` over consecutive buffers, stopping at the first that does not carry on. */
  function ReadFrom(s: Session, bufs: seq<seq<byte>>): (r: Outcome)
    ensures r.Next? ==> Extends(s.cfg, r.s.cfg)
    ensures r.Next? ==> r.s.st.line == s.st.line + TotalNewlines(bufs)
    ensures r.Next? && IndexSound(s.cfg, s.st.line) ==> IndexSound(r.s.cfg, r.s.st.line)
    ensures r.Next? && Coherent(s.st) ==> Coherent(r.s.st)
    ensures r.Next? ==> WarningsAdded(s.log, r.s.log)
  {
    if |bufs| == 0 then
      ExtendsReflexive(s.cfg);
      assert s.log[|s.log| - |s.log|..] == s.log;
      Next(s)
    else
      match ReadFrom(s, bufs[..|bufs| - 1])
      case Next(t) =>
        var r := ProcessLine(t, bufs[|bufs| - 1]);
        ChainFacts(s, t, r);
        r
      case other => other
  }

  lemma ChainFacts(s: Session, t: Session, r: Outcome)
    ensures r.Next? && Extends(s.cfg, t.cfg) && Extends(t.cfg, r.s.cfg) ==> Extends(s.cfg, r.s.cfg)
    ensures r.Next? && WarningsAdded(s.log, t.log) && WarningsAdded(t.log, r.s.log) ==> WarningsAdded(s.log, r.s.log)
  {
    if r.Next? && Extends(s.cfg, t.cfg) && Extends(t.cfg, r.s.cfg) {
      ExtendsTransitive(s.cfg, t.cfg, r.s.cfg);
    }
    if r.Next? && WarningsAdded(s.log, t.log) && WarningsAdded(t.log, r.s.log) {
      var a, b, c := s.log, t.log, r.s.log;
      assert c[|c| - |a|..] == c[|c| - |b|..][|b| - |a|..];
      forall k | 0 <= k < |c| - |a| ensures c[k].kind == LogWarning && c[k].message == EmptySection {
        if k >= |c| - |b| { assert c[k] == b[k - (|c| - |b|)]; }
      }
    }
  }

  /**
   `CF_ReadConfigFile`: the whole file, as the buffers `fread` returns, from a
   fresh scanner and an empty document. A successful read yields a document
   whose index is sound up to the last line, with the line counter one past
   the number of line feeds and only empty-section warnings logged.
   */
  function ReadConfig(bufs: seq<seq<byte>>): (r: Outcome)
    ensures r.Next? ==> IndexSound(r.s.cfg, r.s.st.line)
    ensures r.Next? ==> r.s.st.line == 1 + TotalNewlines(bufs)
    ensures r.Next? ==> Coherent(r.s.st)
    ensures r.Next? ==> forall k :: 0 <= k < |r.s.log| ==> r.s.log[k].kind == LogWarning
  {
    assert IndexSound(EmptyConfig, 1);
    ReadFrom(InitialSession, bufs)
  }
}

=== FILE: slicing.dfy ===
/**
 Copying a token out of the read buffer into one of the scanner's fixed-size
 accumulators (`CF_Copy` and `CF_Cat`).

 An accumulator is modelled by the bytes it holds before its terminating NUL
 (`sectionname[0 .. sectionlength]` and so on); the text later stored in the
 document is `CStr` of it, since the engine stores names, values and
 comments with `strcpy`. The two ways these copies can go wrong in C, a read
 beyond the bytes the current call was given and a write beyond the
 accumulator's array, are returned as a `Hazard` rather than excluded.
 */
module Slicing {
  import opened Bytes

  /** The scanner's four accumulators. */
  datatype Accumulator = SectionName | KeyName | ValueName | CommentText

  /** Capacity in bytes, not counting the terminating NUL (`MAX_SECTION_LENGTH` and so on). */
  function Capacity(a: Accumulator): (n: nat)
    ensures n == 63 || n == 1023
  {
    match a
    case SectionName => 63
    case KeyName => 63
    case ValueName => 1023
    case CommentText => 1023
  }

  /** Behaviour C leaves undefined, reached by the scanner. */
  datatype Hazard =
    | ReadPastData                 // strncpy reads beyond the bytes of the current buffer
    | Overflow(into: Accumulator)  // strncpy or the NUL store writes beyond the accumulator
    | NoCurrentSection             // a key-value pair completed before any section

  datatype Filled = Filled(text: seq<byte>) | Broken(hazard: Hazard)

  function Zeros(n: nat): (r: seq<byte>)
    ensures |r| == n && forall k :: 0 <= k < n ==> r[k] == NUL
  {
    seq(n, _ => NUL)
  }

  /**
   The `e - b + 1` bytes `strncpy(dest, buf + b, e - b + 1)` writes, or None
   when it would read beyond `buf` (no NUL stops it before the end).
   */
  function ReadRun(buf: seq<byte>, b: nat, e: int): Option<seq<byte>>
    requires b <= e
  {
    if e < |buf| then Some(StrNCpy(buf[b..e + 1]))
    else if b >= |buf| || NoNul(buf[b..]) then None
    else Some(StrNCpy(buf[b..] + Zeros(e + 1 - |buf|)))
  }

  /**
   `strncpy` reads beyond the buffer exactly when the run ends beyond it and no
   NUL inside the buffer stops it; otherwise it writes `e - b + 1` bytes whose
   C string is that of the bytes it read.
   */
  lemma ReadRunFacts(buf: seq<byte>, b: nat, e: int)
    requires b <= e
    ensures var r := ReadRun(buf, b, e);
      && (r.None? <==> e >= |buf| && (b >= |buf| || NoNul(buf[b..])))
      && (r.Some? ==> |r.value| == e - b + 1)
      && (e < |buf| ==> r.Some? && CStr(r.value) == CStr(buf[b..e + 1]))
      && (r.Some? && b < |buf| <= e ==> CStr(r.value) == CStr(buf[b..]))
  {
    if e < |buf| {
      CStrOfStrNCpy(buf[b..e + 1]);
    } else if !(b >= |buf| || NoNul(buf[b..])) {
      var z := Zeros(e + 1 - |buf|);
      CStrOfStrNCpy(buf[b..] + z);
      CStrStopsAtNul(buf[b..], z);
    }
  }

  /** A NUL inside `a` ends the C string before anything appended to `a`. */
  lemma {:induction false} CStrStopsAtNul(a: seq<byte>, t: seq<byte>)
    requires !NoNul(a)
    ensures CStr(a + t) == CStr(a)
  {
    if a[0] == NUL {
    } else {
      assert (a + t)[1..] == a[1..] + t;
      assert !NoNul(a[1..]) by {
        var k :| 0 <= k < |a| && a[k] == NUL;
        assert a[1..][k - 1] == NUL;
      }
      CStrStopsAtNul(a[1..], t);
    }
  }

  /** `CF_Copy`: replace the accumulator with the bytes `buf[b..e]`. */
  function Copy(into: Accumulator, buf: seq<byte>, b: int, e: int): Filled
  {
    if b >= 0 && e > 0 && e - b >= 0 then
      match ReadRun(buf, b, e)
      case None => Broken(ReadPastData)
      case Some(run) => if |run| > Capacity(into) then Broken(Overflow(into)) else Filled(run)
    else
      Filled([])
  }

  /**
   `CF_Copy` leaves the accumulator empty unless `0 <= b <= e` and `e > 0`;
   otherwise it fills it with `e - b + 1` bytes, never more than the
   accumulator holds, whose C string is the token `buf[b..e]` when that is in
   the buffer and free of NUL bytes.
   */
  lemma CopyFacts(into: Accumulator, buf: seq<byte>, b: int, e: int)
    ensures var r := Copy(into, buf, b, e);
      && (r.Filled? ==> |r.text| <= Capacity(into))
      && (!(0 <= b <= e && e > 0) ==> r == Filled([]))
      && (r.Filled? && 0 <= b <= e && e > 0 ==> |r.text| == e - b + 1)
      && (0 <= b <= e < |buf| && e > 0 && NoNul(buf[b..e + 1]) && e - b + 1 <= Capacity(into) ==>
            r.Filled? && CStr(r.text) == buf[b..e + 1])
      && (r == Broken(ReadPastData) ==> e >= |buf|)
      && (0 <= b <= e && e > 0 && e - b + 1 > Capacity(into) ==> r.Broken?)
  {
    if b >= 0 && e > 0 && e - b >= 0 {
      ReadRunFacts(buf, b, e);
      TokenIsItsCStr(buf, b, e);
    }
  }

  /** `CF_Cat`: append the bytes `buf[b..e]` to the accumulator `acc`. */
  function Cat(into: Accumulator, acc: seq<byte>, buf: seq<byte>, b: int, e: int): Filled
  {
    if b >= 0 && e > 0 && e - b > 0 then
      match ReadRun(buf, b, e)
      case None => Broken(ReadPastData)
      case Some(run) => if |acc| + |run| > Capacity(into) then Broken(Overflow(into)) else Filled(acc + run)
    else
      Filled(acc)
  }

  /**
   `CF_Cat` leaves the accumulator as it is unless `0 <= b < e` (a token of
   at least two bytes); otherwise it appends `e - b + 1` bytes within the
   accumulator's capacity, so that the C string becomes the old text followed
   by the token.
   */
  lemma CatFacts(into: Accumulator, acc: seq<byte>, buf: seq<byte>, b: int, e: int)
    ensures var r := Cat(into, acc, buf, b, e);
      && (r.Filled? ==> IsPrefixOf(acc, r.text) && (r.text == acc || |r.text| <= Capacity(into)))
      && (!(0 <= b < e && e > 0) ==> r == Filled(acc))
      && (NoNul(acc) && 0 <= b < e < |buf| && NoNul(buf[b..e + 1]) && |acc| + e - b + 1 <= Capacity(into) ==>
            r.Filled? && CStr(r.text) == acc + buf[b..e + 1])
      && (r == Broken(ReadPastData) ==> e >= |buf|)
  {
    if b >= 0 && e > 0 && e - b > 0 {
      ReadRunFacts(buf, b, e);
      if ReadRun(buf, b, e).Some? {
        var run := ReadRun(buf, b, e).value;
        assert (acc + run)[..|acc|] == acc;
        TokenIsItsCStr(buf, b, e);
        AppendedCStr(acc, run);
      }
    }
  }

  lemma TokenIsItsCStr(buf: seq<byte>, b: nat, e: int)
    requires b <= e
    ensures e < |buf| && NoNul(buf[b..e + 1]) ==> CStr(buf[b..e + 1]) == buf[b..e + 1]
  {
    if e < |buf| && NoNul(buf[b..e + 1]) {
      CStrOfNoNul(buf[b..e + 1]);
    }
  }

  lemma AppendedCStr(acc: seq<byte>, run: seq<byte>)
    ensures NoNul(acc) ==> CStr(acc + run) == acc + CStr(run)
  {
    if NoNul(acc) {
      CStrOfNoNulPrefix(acc, run);
    }
  }

  predicate IsPrefixOf(a: seq<byte>, b: seq<byte>)
  {
    |a| <= |b| && b[..|a|] == a
  }

  /**
   On an empty accumulator the two helpers differ only on a one-byte token:
   `CF_Cat` demands `e - b > 0` where `CF_Copy` accepts `e - b >= 0`.
   */
  lemma CopyCatDifferOnlyOnOneByte(into: Accumulator, buf: seq<byte>, b: int, e: int)
    ensures b != e ==> Copy(into, buf, b, e) == Cat(into, [], buf, b, e)
    ensures b == e && e > 0 && e < |buf| ==> Copy(into, buf, b, e).Filled? && |Copy(into, buf, b, e).text| == 1
    ensures b == e ==> Cat(into, [], buf, b, e) == Filled([])
  {
    if b != e && b >= 0 && e > 0 && e - b > 0 && ReadRun(buf, b, e).Some? {
      var run := ReadRun(buf, b, e).value;
      assert [] + run == run;
    }
    if b == e && e > 0 && e < |buf| {
      ReadRunFacts(buf, b, e);
    }
  }
}

=== FILE: writer.dfy ===
/**
 The text `CF_Write` produces from a document: the items in index order,
 one line per item, except that an item followed by another on the same line
 shares its output line with it; between output lines come as many blank
 lines as the recorded line numbers skip.

 The writer reads nothing from an item but its line number and its text
 (`CF_GetItemText`), so the layout is a function of the sequence of
 `Item`s. File handling (`fclose`, `fopen`, `fwrite`) is not modelled: the
 result is the byte string the loop would write.
 */
module Writer {
  import opened Bytes
  import opened Slicing
  import opened Document
  import opened Lines

  /** An index entry as the writer sees it: the line it was read on and its text. */
  datatype Item = Item(line: int, text: seq<byte>)

  predicate RefsValid(c: Config)
  {
    forall i :: 0 <= i < |c.index| ==> ValidRef(c, c.index[i].ref)
  }

  /**
   `CF_GetItemText`: `[name]` for a section, `key=value` for a pair, the stored
   text for a comment; `sprintf` copies each stored string up to its NUL.
   The index of a document the engine built refers only to items it holds
   (`RefsValid`); for any other reference the text is empty.
   */
  function ItemText(c: Config, r: Ref): seq<byte>
  {
    if !ValidRef(c, r) then [] else
    match r
    case SectionRef(s) => [LBRACKET] + CStr(c.sections[s].name) + [RBRACKET]
    case PairRef(s, k) => CStr(c.sections[s].pairs[k].key) + [EQUALS] + CStr(c.sections[s].pairs[k].value)
    case CommentRef(m) => CStr(c.comments[m])
  }

  /** The index as the writer walks it. */
  function Items(c: Config): (r: seq<Item>)
    ensures |r| == |c.index|
  {
    seq(|c.index|, i requires 0 <= i < |c.index| => Item(c.index[i].line, ItemText(c, c.index[i].ref)))
  }

  /** `CF_WriteBlankLines`: `count` line feeds; the loop writes none when `count` is not positive. */
  function BlankLines(count: int): (r: seq<byte>)
    ensures |r| == if count > 0 then count else 0
    ensures forall k :: 0 <= k < |r| ==> r[k] == NEWLINE
  {
    if count <= 0 then [] else seq(count, _ => NEWLINE)
  }

  /**
   The `CF_Write` loop as written. For a pair of items on one line the
   blank-line count is taken between the two items of the pair, where it is
   always -1, and the loop then moves past the pair: the blank lines between
   the pair and the next item are never written.
   */
  function LayoutAsWritten(items: seq<Item>): seq<byte>
    decreases |items|
  {
    if |items| == 0 then []
    else if |items| >= 2 && items[1].line == items[0].line then
      items[0].text + items[1].text + [NEWLINE] + BlankLines(items[1].line - items[0].line - 1) + LayoutAsWritten(items[2..])
    else
      items[0].text + [NEWLINE] + (if |items| >= 2 then BlankLines(items[1].line - items[0].line - 1) else [])
        + LayoutAsWritten(items[1..])
  }

  /**
   The `CF_Write` loop with the blank-line count after a same-line pair taken
   between the second item of the pair and the item after it, as it is after
   a single item.
   */
  function Layout(items: seq<Item>): seq<byte>
    decreases |items|
  {
    if |items| == 0 then []
    else if |items| >= 2 && items[1].line == items[0].line then
      items[0].text + items[1].text + [NEWLINE] + (if |items| >= 3 then BlankLines(items[2].line - items[1].line - 1) else [])
        + Layout(items[2..])
    else
      items[0].text + [NEWLINE] + (if |items| >= 2 then BlankLines(items[1].line - items[0].line - 1) else [])
        + Layout(items[1..])
  }

  /**
   The blank lines the loop as written leaves out: after each pair of items
   on one line, the gap to the item after the pair.
   */
  function Dropped(items: seq<Item>): nat
    decreases |items|
  {
    if |items| == 0 then 0
    else if |items| >= 2 && items[1].line == items[0].line then
      (if |items| >= 3 && items[2].line - items[1].line > 1 then items[2].line - items[1].line - 1 else 0)
        + Dropped(items[2..])
    else Dropped(items[1..])
  }

  /**
   The loop as written writes the corrected text less exactly the blank lines
   `Dropped` counts: the two agree if and only if it drops none.
   */
  lemma {:induction false} AsWrittenDropsGaps(items: seq<Item>)
    ensures |Layout(items)| == |LayoutAsWritten(items)| + Dropped(items)
    ensures LayoutAsWritten(items) == Layout(items) <==> Dropped(items) == 0
    decreases |items|
  {
    if |items| == 0 {
    } else if |items| >= 2 && items[1].line == items[0].line {
      AsWrittenDropsGaps(items[2..]);
    } else {
      AsWrittenDropsGaps(items[1..]);
    }
  }

  function WriteAsWritten(c: Config): seq<byte>
    requires RefsValid(c)
  {
    LayoutAsWritten(Items(c))
  }

  function Write(c: Config): seq<byte>
    requires RefsValid(c)
  {
    Layout(Items(c))
  }

  /** The texts of `items`, one after the other. */
  function Texts(items: seq<Item>): seq<byte>
  {
    if |items| == 0 then [] else items[0].text + Texts(items[1..])
  }

  /*
   The items a well-formed line adds to the document, and how appending lines
   appends items.
   */

  function HeadItems(h: Head, n: int): seq<Item>
  {
    if h.NoHead? then [] else [Item(n, HeadText(h))]
  }

  function NoteItems(note: Option<Note>, n: int): seq<Item>
  {
    match note
    case None => []
    case Some(x) => [Item(n, NoteText(x))]
  }

  /** The items line `l`, read on line `n`, contributes: its head item, then its note. */
  function LineItems(l: Line, n: int): seq<Item>
  {
    HeadItems(l.head, n) + NoteItems(l.note, n)
  }

  /** The items of each line of `lines`, the first read on line `n`. */
  function Groups(lines: seq<Line>, n: int): (r: seq<seq<Item>>)
    ensures |r| == |lines|
    ensures forall k {:trigger r[k]} :: 0 <= k < |lines| ==> r[k] == LineItems(lines[k], n + k)
  {
    seq(|lines|, k requires 0 <= k < |lines| => LineItems(lines[k], n + k))
  }

  function Concat<T>(xs: seq<seq<T>>): seq<T>
  {
    if |xs| == 0 then [] else xs[0] + Concat(xs[1..])
  }

  /** The items of `lines`, the first read on line `n`. */
  function LinesItems(lines: seq<Line>, n: int): seq<Item>
  {
    Concat(Groups(lines, n))
  }

  predicate IsBlankLine(l: Line)
  {
    l.head.NoHead? && l.note.None?
  }

  /** Adding a section lists it last, with the text the writer gives it, and changes no earlier item. */
  lemma ItemsAddSection(c: Config, name: seq<byte>, n: int)
    requires RefsValid(c)
    ensures RefsValid(AddSection(c, name, n))
    ensures Items(AddSection(c, name, n)) == Items(c) + [Item(n, [LBRACKET] + CStr(name) + [RBRACKET])]
  {
    var r := AddSection(c, name, n);
    forall i | 0 <= i < |c.index| ensures ValidRef(r, r.index[i].ref) && ItemText(r, r.index[i].ref) == ItemText(c, c.index[i].ref) {
      assert r.index[i] == c.index[i];
    }
  }

  /** Adding a pair lists it last and changes no earlier item, though it grows the last section. */
  lemma ItemsAddPair(c: Config, kv: KeyValue, n: int)
    requires RefsValid(c) && |c.sections| > 0
    ensures RefsValid(AddPair(c, kv, n))
    ensures Items(AddPair(c, kv, n)) == Items(c) + [Item(n, CStr(kv.key) + [EQUALS] + CStr(kv.value))]
  {
    var r := AddPair(c, kv, n);
    var last := |c.sections| - 1;
    assert r.sections[last].pairs[|c.sections[last].pairs|] == kv;
    forall i | 0 <= i < |c.index| ensures ValidRef(r, r.index[i].ref) && ItemText(r, r.index[i].ref) == ItemText(c, c.index[i].ref) {
      assert r.index[i] == c.index[i];
      match c.index[i].ref
      case SectionRef(s) =>
      case PairRef(s, k) =>
        assert r.sections[s].pairs[k] == c.sections[s].pairs[k];
      case CommentRef(m) =>
    }
  }

  lemma ItemsAddComment(c: Config, text: seq<byte>, n: int)
    requires RefsValid(c)
    ensures RefsValid(AddComment(c, text, n))
    ensures Items(AddComment(c, text, n)) == Items(c) + [Item(n, CStr(text))]
  {
    var r := AddComment(c, text, n);
    forall i | 0 <= i < |c.index| ensures ValidRef(r, r.index[i].ref) && ItemText(r, r.index[i].ref) == ItemText(c, c.index[i].ref) {
      assert r.index[i] == c.index[i];
    }
  }

  /** A well-formed head item appends its item, if any. */
  lemma ItemsApplyHead(c: Config, h: Head, n: int)
    requires RefsValid(c)
    requires match h
      case NoHead => true
      case SectionHead(name) => IsName(name)
      case Assignment(key, value) => IsName(key) && IsValue(value) && |c.sections| > 0
    ensures RefsValid(ApplyHead(c, h, n))
    ensures Items(ApplyHead(c, h, n)) == Items(c) + HeadItems(h, n)
  {
    match h
    case NoHead =>
      assert Items(c) + [] == Items(c);
    case SectionHead(name) =>
      NamesHaveNoNul(name);
      CStrOfNoNul(name);
      ItemsAddSection(c, name, n);
    case Assignment(key, value) =>
      NamesHaveNoNul(key);
      CStrOfNoNul(key);
      ValuesHaveNoNul(value);
      CStrOfNoNul(value);
      ItemsAddPair(c, KeyValue(key, value), n);
  }

  /** A well-formed note appends its comment item, if any. */
  lemma ItemsApplyNote(c: Config, note: Option<Note>, n: int)
    requires RefsValid(c) && (note.Some? ==> IsNote(note.value))
    ensures var r := if note.Some? then AddComment(c, NoteText(note.value), n) else c;
      RefsValid(r) && Items(r) == Items(c) + NoteItems(note, n)
  {
    if note.Some? {
      NotesHaveNoNul(note.value);
      CStrOfNoNul(NoteText(note.value));
      ItemsAddComment(c, NoteText(note.value), n);
    } else {
      assert Items(c) + [] == Items(c);
    }
  }

  /** Applying a well-formed line appends exactly that line's items. */
  lemma ItemsApply(c: Config, l: Line, n: int)
    requires RefsValid(c) && WellFormedLine(l)
    requires l.head.Assignment? ==> |c.sections| > 0
    ensures RefsValid(Apply(c, l, n))
    ensures Items(Apply(c, l, n)) == Items(c) + LineItems(l, n)
  {
    var c1 := ApplyHead(c, l.head, n);
    ItemsApplyHead(c, l.head, n);
    ItemsApplyNote(c1, l.note, n);
  }

  /** The index of the document well-formed lines describe refers only to items it holds. */
  lemma {:induction false} BuildRefsValid(c: Config, lines: seq<Line>, n: int)
    requires RefsValid(c) && WellFormedFile(lines)
    ensures RefsValid(Build(c, lines, n))
  {
    if |lines| > 0 {
      var init := lines[..|lines| - 1];
      BuildRefsValid(c, init, n);
      if Last(lines).head.Assignment? {
        BuildHasSection(c, init, n);
      }
      var prev, l, m := Build(c, init, n), Last(lines), n + |lines| - 1;
      ItemsApply(prev, l, m);
      BuildNext(c, lines, prev, n);
    }
  }

  /** The document well-formed lines describe lists, in order, the items of each line. */
  lemma {:induction false} ItemsBuild(c: Config, lines: seq<Line>, n: int)
    requires RefsValid(c) && WellFormedFile(lines)
    ensures Items(Build(c, lines, n)) == Items(c) + LinesItems(lines, n)
  {
    if |lines| > 0 {
      var init := lines[..|lines| - 1];
      ItemsBuild(c, init, n);
      BuildRefsValid(c, init, n);
      if Last(lines).head.Assignment? {
        BuildHasSection(c, init, n);
      }
      var prev, l, m := Build(c, init, n), Last(lines), n + |lines| - 1;
      ItemsApply(prev, l, m);
      ItemsNext(Items(c), Items(prev), Items(Apply(prev, l, m)), lines, n, init, l, m);
      BuildNext(c, lines, prev, n);
      ItemsTransfer(Apply(prev, l, m), Build(c, lines, n), Items(c) + LinesItems(lines, n));
    }
  }

  lemma ItemsTransfer(x: Config, y: Config, items: seq<Item>)
    requires x == y && Items(x) == items
    ensures Items(y) == items
  {
  }

  /** The last line's items follow those of the lines before it. */
  lemma ItemsNext(base: seq<Item>, before: seq<Item>, after: seq<Item>, lines: seq<Line>, n: int, init: seq<Line>, l: Line, m: int)
    requires |lines| > 0 && init == lines[..|lines| - 1] && l == Last(lines) && m == n + |lines| - 1
    requires before == base + LinesItems(init, n) && after == before + LineItems(l, m)
    ensures after == base + LinesItems(lines, n)
  {
    LinesItemsSnoc(lines, init, l, n, m);
    Assoc(base, LinesItems(init, n), LineItems(l, m));
  }

  /** The items of the lines but the last, then those of the last line. */
  lemma LinesItemsSnoc(lines: seq<Line>, init: seq<Line>, l: Line, n: int, m: int)
    requires |lines| > 0 && init == lines[..|lines| - 1] && l == Last(lines) && m == n + |lines| - 1
    ensures LinesItems(lines, n) == LinesItems(init, n) + LineItems(l, m)
  {
    assert lines == init + [l];
    assert n + |init| == m;
    LinesItemsAppend(init, [l], n);
    OneLineItems(l, m);
  }

  lemma Assoc<T>(a: seq<T>, b: seq<T>, c: seq<T>)
    ensures (a + b) + c == a + (b + c)
  {
  }

  /*
   Lines read forwards: the items and the text of `a + b`.
   */

  lemma {:induction false} ConcatAppend<T>(a: seq<seq<T>>, b: seq<seq<T>>)
    ensures Concat(a + b) == Concat(a) + Concat(b)
  {
    if |a| == 0 {
      assert a + b == b;
    } else {
      assert (a + b)[1..] == a[1..] + b;
      assert (a + b)[0] == a[0];
      ConcatAppend(a[1..], b);
      Assoc(a[0], Concat(a[1..]), Concat(b));
    }
  }

  lemma ConcatOne<T>(x: seq<T>)
    ensures Concat([x]) == x
  {
    assert [x][1..] == [];
    assert x + [] == x;
  }

  lemma {:induction false} ConcatEmpty<T>(xs: seq<seq<T>>)
    requires forall k :: 0 <= k < |xs| ==> xs[k] == []
    ensures Concat(xs) == []
  {
    if |xs| > 0 {
      ConcatEmpty(xs[1..]);
    }
  }

  lemma GroupsAppend(a: seq<Line>, b: seq<Line>, n: int)
    ensures Groups(a + b, n) == Groups(a, n) + Groups(b, n + |a|)
  {
    var l, r := Groups(a + b, n), Groups(a, n) + Groups(b, n + |a|);
    forall k | 0 <= k < |l|
      ensures l[k] == r[k]
    {
      if k < |a| {
        assert (a + b)[k] == a[k];
      } else {
        assert (a + b)[k] == b[k - |a|];
        assert n + k == n + |a| + (k - |a|);
      }
    }
  }

  lemma LinesItemsAppend(a: seq<Line>, b: seq<Line>, n: int)
    ensures LinesItems(a + b, n) == LinesItems(a, n) + LinesItems(b, n + |a|)
  {
    GroupsAppend(a, b, n);
    ConcatAppend(Groups(a, n), Groups(b, n + |a|));
  }

  lemma {:induction false} FileTextConcat(a: seq<Line>, b: seq<Line>)
    ensures FileText(a + b) == FileText(a) + FileText(b)
  {
    if |b| == 0 {
      assert a + b == a;
    } else {
      var b' := b[..|b| - 1];
      assert (a + b)[..|a + b| - 1] == a + b';
      assert Last(a + b) == Last(b);
      FileTextConcat(a, b');
      Assoc(FileText(a), FileText(b'), LineText(Last(b)));
    }
  }

  lemma OneLineItems(l: Line, n: int)
    ensures LinesItems([l], n) == LineItems(l, n)
  {
    assert Groups([l], n) == [LineItems(l, n)];
    ConcatOne(LineItems(l, n));
  }

  lemma OneLineText(l: Line)
    ensures FileText([l]) == LineText(l)
  {
    assert [l][..0] == [];
  }

  lemma BlankItems(lines: seq<Line>, n: int)
    requires forall k :: 0 <= k < |lines| ==> IsBlankLine(lines[k])
    ensures LinesItems(lines, n) == []
  {
    ConcatEmpty(Groups(lines, n));
  }

  lemma {:induction false} BlankText(lines: seq<Line>)
    requires forall k :: 0 <= k < |lines| ==> IsBlankLine(lines[k])
    ensures FileText(lines) == BlankLines(|lines|)
  {
    if |lines| > 0 {
      BlankText(lines[..|lines| - 1]);
      assert BlankLines(|lines| - 1) + [NEWLINE] == BlankLines(|lines|);
    }
  }

  /** A line, a run of blank lines, then the rest: the line's items, then the rest's, numbered past the run. */
  lemma SplitItems(first: Line, gap: seq<Line>, tail: seq<Line>, n: int, m: int)
    requires forall k :: 0 <= k < |gap| ==> IsBlankLine(gap[k])
    requires m == n + 1 + |gap|
    ensures LinesItems([first] + gap + tail, n) == LineItems(first, n) + LinesItems(tail, m)
  {
    var head := [first] + gap;
    LinesItemsAppend(head, tail, n);
    LinesItemsAppend([first], gap, n);
    OneLineItems(first, n);
    BlankItems(gap, n + 1);
    assert LinesItems(head, n) == LineItems(first, n) by {
      assert LineItems(first, n) + [] == LineItems(first, n);
    }
    assert n + |head| == m;
  }

  /** A line, a run of blank lines, then the rest: the line's text, a line feed per blank line, the rest's text. */
  lemma SplitText(first: Line, gap: seq<Line>, tail: seq<Line>)
    requires forall k :: 0 <= k < |gap| ==> IsBlankLine(gap[k])
    ensures FileText([first] + gap + tail) == LineText(first) + BlankLines(|gap|) + FileText(tail)
  {
    var head := [first] + gap;
    FileTextConcat(head, tail);
    FileTextConcat([first], gap);
    OneLineText(first);
    BlankText(gap);
  }

  lemma Decompose(lines: seq<Line>, j: nat, first: Line, gap: seq<Line>, tail: seq<Line>)
    requires 1 <= j <= |lines| && first == lines[0] && gap == lines[1..j] && tail == lines[j..]
    ensures lines == [first] + gap + tail
  {
  }

  /** A line that is not blank gives one or two items, all on its own line, whose texts make up the line. */
  lemma LineItemsShape(l: Line, n: int)
    ensures var g := LineItems(l, n);
      && |g| <= 2 && (|g| == 0 <==> IsBlankLine(l))
      && (forall k :: 0 <= k < |g| ==> g[k].line == n)
      && LineText(l) == Texts(g) + [NEWLINE]
  {
    var g := LineItems(l, n);
    if |g| == 2 {
      assert Texts(g[2..]) == [];
      assert Texts(g[1..]) == g[1].text;
    } else if |g| == 1 {
      assert Texts(g[1..]) == [];
    }
  }

  /** Lines that begin with a line that is not blank begin with that line's first item. */
  lemma FirstItem(lines: seq<Line>, n: int)
    requires |lines| > 0 && !IsBlankLine(lines[0])
    ensures |LinesItems(lines, n)| > 0 && LinesItems(lines, n)[0].line == n
  {
    Decompose(lines, 1, lines[0], [], lines[1..]);
    SplitItems(lines[0], [], lines[1..], n, n + 1);
    LineItemsShape(lines[0], n);
  }

  /** The first not-blank line at or after `k`, or `|lines|` when every line from `k` on is blank. */
  function NextItemLine(lines: seq<Line>, k: nat): (r: nat)
    requires k <= |lines|
    ensures k <= r <= |lines|
    ensures forall j :: k <= j < r ==> IsBlankLine(lines[j])
    ensures r < |lines| ==> !IsBlankLine(lines[r])
    decreases |lines| - k
  {
    if k < |lines| && IsBlankLine(lines[k]) then NextItemLine(lines, k + 1) else k
  }

  /**
   The (corrected) writer on a group of one or two items of line `n` followed by
   items starting `j` lines further down: the group's texts, a line feed,
   `j - 1` blank lines, then the rest.
   */
  lemma LayoutGroup(g: seq<Item>, rest: seq<Item>, n: int, j: int)
    requires 1 <= |g| <= 2 && forall k :: 0 <= k < |g| ==> g[k].line == n
    requires |rest| > 0 ==> j >= 1 && rest[0].line == n + j
    ensures Layout(g + rest) == Texts(g) + [NEWLINE] + (if |rest| > 0 then BlankLines(j - 1) else []) + Layout(rest)
  {
    var items := g + rest;
    if |g| == 2 {
      assert items[2..] == rest;
      assert Texts(g) == g[0].text + g[1].text by {
        assert Texts(g[1..][1..]) == [];
      }
    } else {
      assert items[1..] == rest;
      assert Texts(g) == g[0].text by {
        assert Texts(g[1..]) == [];
      }
    }
  }

  /** The writer reproduces the text of `lines` from the items they add, the first on line `n`. */
  predicate WrittenBack(lines: seq<Line>, n: int)
  {
    Layout(LinesItems(lines, n)) == FileText(lines)
  }

  /**
   Lines whose first and last lines are not blank are written back as they
   are: every line with its items, and every run of blank lines between them.
   */
  lemma {:induction false} LayoutLines(lines: seq<Line>, n: int)
    requires |lines| > 0 && !IsBlankLine(lines[0]) && !IsBlankLine(Last(lines))
    ensures WrittenBack(lines, n)
    decreases |lines|
  {
    if |lines| == 1 {
      LayoutOne(lines, n);
    } else {
      var j, tail := NextItem(lines);
      LayoutLines(tail, n + j);
      LayoutJoin(lines, n, j, tail);
    }
  }

  /** `tail` starts at line `j`, the first line after the first that is not blank. */
  predicate ItemAfterGap(lines: seq<Line>, j: nat, tail: seq<Line>)
  {
    && 1 <= j < |lines| && tail == lines[j..] && !IsBlankLine(lines[j])
    && forall k :: 1 <= k < j ==> IsBlankLine(lines[k])
  }

  /** Where the next line with an item starts, after the first line and the blank lines that follow it. */
  lemma NextItem(lines: seq<Line>) returns (j: nat, tail: seq<Line>)
    requires |lines| > 1 && !IsBlankLine(Last(lines))
    ensures ItemAfterGap(lines, j, tail)
    ensures |tail| > 0 && !IsBlankLine(tail[0]) && !IsBlankLine(Last(tail)) && |tail| < |lines|
  {
    j := NextItemLine(lines, 1);
    assert !IsBlankLine(lines[|lines| - 1]);
    tail := lines[j..];
    assert tail[0] == lines[j] && Last(tail) == Last(lines);
  }

  lemma LayoutOne(lines: seq<Line>, n: int)
    requires |lines| == 1 && !IsBlankLine(lines[0])
    ensures WrittenBack(lines, n)
  {
    var first := lines[0];
    var g := LineItems(first, n);
    LineItemsShape(first, n);
    Decompose(lines, 1, first, [], []);
    SplitItems(first, [], [], n, n + 1);
    SplitText(first, [], []);
    LayoutGroup(g, [], n, 0);
    assert g + [] == g;
  }

  /** A first line, `j - 1` blank lines, then lines already written back as they are. */
  lemma LayoutJoin(lines: seq<Line>, n: int, j: nat, tail: seq<Line>)
    requires ItemAfterGap(lines, j, tail) && !IsBlankLine(lines[0])
    requires WrittenBack(tail, n + j)
    ensures WrittenBack(lines, n)
  {
    var first, gap := lines[0], lines[1..j];
    var parts := [first] + gap + tail;
    Decompose(lines, j, first, gap, tail);
    var g, rest := LineItems(first, n), LinesItems(tail, n + j);
    var lineText, restText := LineText(first), FileText(tail);
    SplitItems(first, gap, tail, n, n + j);
    SplitText(first, gap, tail);
    LineItemsShape(first, n);
    FirstItem(tail, n + j);
    LayoutJoinItems(g, rest, n, j, |gap|, lineText, restText);
    JoinChain(lines, parts, n, g + rest, lineText + BlankLines(|gap|) + restText);
  }

  lemma JoinChain(lines: seq<Line>, parts: seq<Line>, n: int, items: seq<Item>, text: seq<byte>)
    requires lines == parts && LinesItems(parts, n) == items && FileText(parts) == text && Layout(items) == text
    ensures WrittenBack(lines, n)
  {
  }

  lemma LayoutJoinItems(g: seq<Item>, rest: seq<Item>, n: int, j: int, blanks: int, lineText: seq<byte>, restText: seq<byte>)
    requires 1 <= |g| <= 2 && forall k :: 0 <= k < |g| ==> g[k].line == n
    requires |rest| > 0 && j >= 1 && rest[0].line == n + j && blanks == j - 1
    requires lineText == Texts(g) + [NEWLINE] && Layout(rest) == restText
    ensures Layout(g + rest) == lineText + BlankLines(blanks) + restText
  {
    LayoutGroup(g, rest, n, j);
  }

  /**
   The document well-formed lines describe is written back as the text of the
   lines from the first line with an item to the last: leading and trailing
   blank lines are the only ones not reproduced.
   */
  lemma WriteBuilt(lead: seq<Line>, body: seq<Line>, trail: seq<Line>)
    requires WellFormedFile(lead + body + trail)
    requires forall k :: 0 <= k < |lead| ==> IsBlankLine(lead[k])
    requires forall k :: 0 <= k < |trail| ==> IsBlankLine(trail[k])
    requires |body| > 0 && !IsBlankLine(body[0]) && !IsBlankLine(Last(body))
    ensures RefsValid(Build(EmptyConfig, lead + body + trail, 1))
    ensures Write(Build(EmptyConfig, lead + body + trail, 1)) == FileText(body)
  {
    var lines := lead + body + trail;
    BuildRefsValid(EmptyConfig, lines, 1);
    ItemsBuild(EmptyConfig, lines, 1);
    BodyItems(lead, body, trail, 1);
    LayoutLines(body, 1 + |lead|);
    var items := LinesItems(body, 1 + |lead|);
    assert Items(EmptyConfig) == [];
    assert [] + items == items;
  }

  /** Blank lines before and after add no items. */
  lemma BodyItems(lead: seq<Line>, body: seq<Line>, trail: seq<Line>, n: int)
    requires forall k :: 0 <= k < |lead| ==> IsBlankLine(lead[k])
    requires forall k :: 0 <= k < |trail| ==> IsBlankLine(trail[k])
    ensures LinesItems(lead + body + trail, n) == LinesItems(body, n + |lead|)
  {
    var items := LinesItems(body, n + |lead|);
    LinesItemsAppend(lead + body, trail, n);
    LinesItemsAppend(lead, body, n);
    BlankItems(lead, n);
    BlankItems(trail, n + |lead + body|);
    assert LinesItems(lead + body, n) == items by {
      assert [] + items == items;
    }
    assert items + [] == items;
  }

  /** No line with both a head item and a note is followed by a blank line. */
  predicate NoBlankAfterPair(lines: seq<Line>)
  {
    forall k :: 0 <= k < |lines| - 1 && !lines[k].head.NoHead? && lines[k].note.Some? ==> !IsBlankLine(lines[k + 1])
  }

  /**
   `CF_Write` as written writes the document well-formed lines describe just
   as the corrected writer does when no line holding both a head item and a
   note is followed by a blank line: only such a blank line is lost.
   */
  lemma WriteAsWrittenBuilt(lines: seq<Line>)
    requires WellFormedFile(lines) && NoBlankAfterPair(lines)
    ensures RefsValid(Build(EmptyConfig, lines, 1))
    ensures WriteAsWritten(Build(EmptyConfig, lines, 1)) == Write(Build(EmptyConfig, lines, 1))
  {
    BuildRefsValid(EmptyConfig, lines, 1);
    ItemsBuild(EmptyConfig, lines, 1);
    assert Items(EmptyConfig) == [];
    assert [] + LinesItems(lines, 1) == LinesItems(lines, 1);
    NoneDropped(lines, 1);
    AsWrittenDropsGaps(LinesItems(lines, 1));
  }

  lemma {:induction false} NoneDropped(lines: seq<Line>, n: int)
    requires NoBlankAfterPair(lines)
    ensures Dropped(LinesItems(lines, n)) == 0
    decreases |lines|
  {
    if |lines| == 0 {
      ConcatEmpty(Groups(lines, n));
    } else {
      var tail := lines[1..];
      assert NoBlankAfterPair(tail) by {
        forall k | 0 <= k < |tail| - 1 && !tail[k].head.NoHead? && tail[k].note.Some?
          ensures !IsBlankLine(tail[k + 1])
        {
          assert tail[k] == lines[k + 1] && tail[k + 1] == lines[k + 2];
        }
      }
      NoneDropped(tail, n + 1);
      Decompose(lines, 1, lines[0], [], tail);
      SplitItems(lines[0], [], tail, n, n + 1);
      LineItemsShape(lines[0], n);
      var g, rest := LineItems(lines[0], n), LinesItems(tail, n + 1);
      var items := g + rest;
      FirstItemAtOrAfter(tail, n + 1);
      if |g| == 0 {
        assert items == rest;
      } else if |g| == 1 {
        assert items[1..] == rest;
      } else {
        assert items[2..] == rest;
        if |rest| > 0 {
          assert !lines[0].head.NoHead? && lines[0].note.Some?;
          FirstItem(tail, n + 1);
        }
      }
    }
  }

  /** The items of `lines` lie on line `n` or later. */
  lemma {:induction false} FirstItemAtOrAfter(lines: seq<Line>, n: int)
    ensures |LinesItems(lines, n)| > 0 ==> LinesItems(lines, n)[0].line >= n
    decreases |lines|
  {
    if |lines| == 0 {
      ConcatEmpty(Groups(lines, n));
    } else {
      Decompose(lines, 1, lines[0], [], lines[1..]);
      SplitItems(lines[0], [], lines[1..], n, n + 1);
      LineItemsShape(lines[0], n);
      FirstItemAtOrAfter(lines[1..], n + 1);
      assert [] + LinesItems(lines[1..], n + 1) == LinesItems(lines[1..], n + 1);
    }
  }

  /** Lines that are all blank describe a document the writer writes as nothing. */
  lemma WriteBuiltBlank(lines: seq<Line>)
    requires WellFormedFile(lines) && forall k :: 0 <= k < |lines| ==> IsBlankLine(lines[k])
    ensures RefsValid(Build(EmptyConfig, lines, 1))
    ensures Write(Build(EmptyConfig, lines, 1)) == []
  {
    BuildRefsValid(EmptyConfig, lines, 1);
    ItemsBuild(EmptyConfig, lines, 1);
    assert Items(EmptyConfig) == [];
    BlankItems(lines, 1);
  }
}
